=== FILE: README.md ===
# Pokedex: a verified model of the catalog, blob store, scripts and stores

Pokedex is a picture catalog. Images belong to categories and may be linked
to tags. A FastAPI backend stores each upload as a blob in a two-level
sharded directory with a thumbnail beside it in a parallel tree, and keeps
the records in SQLite. Scripts import a folder tree into the catalog,
export it back to folders, import and migrate a species list, and two
Pinia stores keep the frontend's view of categories and images.

This project states that behaviour in Dafny and proves it. Every operation
is a pure function or a method over immutable values:

- the catalog is maps for the category, image and tag tables plus a set of
  image–tag links;
- the disk is a map from paths (component lists) to sizes;
- the scripts' file system is a map from path strings to entries;
- the store state is a record of sequences and options.

A fresh uuid, an outcome of the file write, the thumbnail rendering, a
commit, a fetch, a backend answer and the pinyin conversion are all
parameters.

Modules, by the part of the program they follow:

- `Wrappers`, `Text`, `Paths`, `Paging`, `Http`: the vocabulary.
  - Option and Result.
  - Python's `str` operations, ASCII case folding, `str.isspace`,
    `split`/`join`/`strip`.
  - `pathlib` suffix, stem, parent and `relative_to`.
  - SQLite's `LIMIT`/`OFFSET`.
  - The HTTP statuses.
- `Config`: the upload constants (MIME allow-list, 10 MiB limit, 256×256
  thumbnails at quality 85), the storage roots and the CORS origin
  validator.
- `FileStorage`, `Thumbnails`: stored-name generation, the shard layout
  and its inverse, the checked save, the idempotent delete, and the
  thumbnail's place.
- `Catalog`: the schema and its integrity constraints (`Valid`).
- `TagCrud`, `ImageCrud`, `CategoryCrud`: the data layer. The category
  delete is a method with loops: the blob pass, the row removal and the
  tag sweep.
- `ImagesRouter`, `CategoriesRouter`: the endpoints' checks and their
  ordering.
- `SpeciesInfo`, `SpeciesImport`, `SpeciesMigrate`: species search, the
  JSON import and the `种` field splitter.
- `FileUtils`, `Folder2Db`, `Db2Folder`: the folder import and export
  scripts.
- `StoreCommon`, `CategoryStore`, `ImageStore`: the frontend stores. Each
  action is a transition from the state before its awaited API call to
  the state once the call has settled.

Where the code and its documentation disagree, the model follows the code:

- `read_categories` is modelled through `CategoryCrud.GetAllCategories`,
  which it calls unchanged.
- The stores compare ids as strings, as the store code and its tests do.
  The frontend type file declares a numeric id.
- Case folding is ASCII-only. SQLite's `lower()` and `LIKE` fold only
  ASCII letters, and the model uses the same folding where Python's
  `str.lower` is called.
- The upload endpoint turns every failure of the save, including the
  storage service's own 400 and 413, into a 500, because it catches every
  exception there.
- The export script reads `image_url` from every image record. The
  backend's `ImageRead` (`pokedex_backend/app/models/image_models.py:56-61`)
  has no such field. The model makes the field optional, and a record
  without it raises `KeyError`, which ends the run with status 1.
- Three defects in the image router are modelled twice, once as written
  and once as evidently intended (see "## Findings"). The rest of the
  model uses the intended versions.
- An image's tags are its link rows, the view the category cascade and
  the tag delete use. The comma-separated `tags` column is kept as plain
  text.

## Model

| member | source | states |
|---|---|---|
| Config.IsAllowedMimeType | pokedex_backend/app/core/config.py:52 | exactly image/jpeg, image/png and image/gif are accepted |
| Config.WithinSizeLimit | pokedex_backend/app/services/file_storage_service.py:104-110 | a size is accepted iff it is at most 10·1024·1024 bytes; the limit itself passes |
| Config.DefaultRoots | pokedex_backend/app/core/config.py:47-49 | the image and thumbnail roots are siblings under the static directory, neither inside the other |
| Config.AssembleCorsOrigins | pokedex_backend/app/core/config.py:63-70 | a non-empty list wins; otherwise a string gives one origin per comma-separated piece (commas + 1), each without commas or surrounding whitespace; otherwise no origins |
| Config.CorsOriginsRoundTrip | pokedex_backend/app/core/config.py:67-69 | when no piece carries surrounding whitespace, joining the origins with commas gives the setting back |
| FileStorage.Extension | pokedex_backend/app/services/file_storage_service.py:55 | the extension is the original name's suffix folded to lower case, character for character, and is empty exactly when the suffix is |
| FileStorage.GenerateStructuredPath | pokedex_backend/app/services/file_storage_service.py:37-75 | 400 exactly when the name has no suffix; otherwise the stored name is the hex id plus the extension, the shard is `id[0:2]/id[2:4]` and the full path is root/shard/name |
| FileStorage.StoredNameKeepsSuffix | pokedex_backend/app/services/file_storage_service.py:61-62 | the stored name ends with the lower-cased original suffix, its stem is the id, it is one path component and it lies in its shard under the root |
| FileStorage.RelativeSubDirectoryForFile | pokedex_backend/app/services/file_storage_service.py:154-172 | a stem shorter than four characters maps to `.`; otherwise at most two valid path components |
| FileStorage.ShardRoundTrip | pokedex_backend/app/services/file_storage_service.py:165-172 | the shard read back from a generated stored name is the shard it was generated in |
| FileStorage.SaveUploadFile | pokedex_backend/app/services/file_storage_service.py:77-131 | MIME 400, then size 413, then missing extension 400, each before any byte is written; success iff all checks pass and the write completes, which puts exactly that file at the allocated path; a failed write is 500 and touches only that path |
| FileStorage.DeleteFile | pokedex_backend/app/services/file_storage_service.py:133-152 | true whether or not the file existed, false only on an OS error (disk unchanged); after true the path is absent; no other path changes |
| FileStorage.DeleteFileIdempotent | pokedex_backend/app/services/file_storage_service.py:144-148 | a second delete of the same path reports success and changes nothing |
| Thumbnails.ThumbnailFilename | pokedex_backend/app/services/image_processing_service.py:40 | the thumbnail name starts with the source stem plus `_thumb` and ends with the source suffix |
| Thumbnails.ThumbnailDestination | pokedex_backend/app/services/image_processing_service.py:36-41 | defined iff the source lies under the image root; the destination is under the thumbnail root, in the source's directory relative to the image root, named by `ThumbnailFilename` |
| Thumbnails.GenerateThumbnail | pokedex_backend/app/services/image_processing_service.py:21-48 | succeeds iff the source is under the image root and renders; returns the derived destination, which is then on disk; an unreadable source or a source outside the root writes nothing |
| Thumbnails.ThumbnailNameShard | pokedex_backend/app/services/image_processing_service.py:40 | the shard read back from a thumbnail's name is the shard of its id |
| Thumbnails.ThumbnailSharesShard | pokedex_backend/app/services/image_processing_service.py:36 | a freshly stored original's thumbnail goes in the same shard under the thumbnail root, and its name maps back to that shard |
| Catalog.ImagesOf | pokedex_backend/app/models/category_models.py:26 | a category's images are exactly the images whose foreign key is that category |
| Catalog.TagsOf | pokedex_backend/app/models/link_models.py:11-15 | an image's tags are exactly the tags it has a link row to |
| Catalog.ImagesOfTag | pokedex_backend/app/models/tag_models.py:42-46 | a tag's images are exactly the images linked to it |
| Catalog.LinkViewsAgree | pokedex_backend/app/models/link_models.py:14-15 | in a valid catalog the two sides of the association agree, and a link joins an existing image to an existing tag |
| TagCrud.GetTagByName | pokedex_backend/app/crud/tag_crud.py:56-68 | finds a tag whose name equals the given one ignoring case, and none iff no tag does |
| TagCrud.GetTagByNameIgnoresCase | pokedex_backend/app/crud/tag_crud.py:67 | names that differ only in case find the same tag |
| TagCrud.GetTagByNameFinds | pokedex_backend/app/crud/tag_crud.py:67 | in a valid catalog the lookup returns the one tag of that name |
| TagCrud.CreateTag | pokedex_backend/app/crud/tag_crud.py:16-39 | 409 with nothing changed iff some tag's name matches ignoring case; otherwise exactly one tag with that name is added and nothing else changes |
| TagCrud.CreateTagKeepsValid | pokedex_backend/app/crud/tag_crud.py:27-33 | creation keeps the names unique ignoring case and within 100 characters |
| TagCrud.GetOrCreateTag | pokedex_backend/app/crud/tag_crud.py:71-92 | an existing match ignoring case is returned with nothing changed; otherwise a new tag is added, or 500 with nothing changed when the name exceeds 100 characters, since the validation error raised while building the tag is not caught |
| TagCrud.GetOrCreateTagIdempotent | pokedex_backend/app/crud/tag_crud.py:84-92 | asking again for the same name in any letter case returns the same tag and adds nothing |
| TagCrud.GetOrCreateTagKeepsValid | pokedex_backend/app/crud/tag_crud.py:71-92 | get-or-create keeps a valid catalog valid |
| TagCrud.GetAllTags | pokedex_backend/app/crud/tag_crud.py:95-108 | a page of distinct existing tags, at most `limit`; unpaged it is the whole table |
| TagCrud.UpdateTag | pokedex_backend/app/crud/tag_crud.py:111-141 | an explicit null name is a 500 with nothing changed, because the column is NOT NULL and the commit fails; for any other name, 409 with nothing changed iff a new, different name is found on another tag; otherwise only this tag changes, to the sent name or its old one |
| TagCrud.UpdateTagConflictExact | pokedex_backend/app/crud/tag_crud.py:124-133 | in a valid catalog a 409 happens exactly when a non-null name clashes with another tag ignoring case, and every outcome keeps the catalog valid |
| TagCrud.DeleteTag | pokedex_backend/app/crud/tag_crud.py:144-175 | an absent id gives none and changes nothing; 409 iff a link still references the tag; otherwise only that tag is removed |
| TagCrud.DeleteTagKeepsValid | pokedex_backend/app/crud/tag_crud.py:163-171 | refusing linked tags is what keeps every link's tag existing |
| ImageCrud.CreateImage | pokedex_backend/app/crud/image_crud.py:22-54 | a duplicate stored name fails (unique index) with nothing changed; otherwise exactly one row with the supplied fields is added |
| ImageCrud.CreateImageKeepsValid | pokedex_backend/app/models/image_models.py:28-36 | creating an image in an existing category keeps the foreign keys and stored-name uniqueness |
| ImageCrud.CategoryRows | pokedex_backend/app/crud/image_crud.py:87-90 | the category's images in scan order: exactly its images, each once |
| ImageCrud.GetImagesByCategoryId | pokedex_backend/app/crud/image_crud.py:72-91 | distinct images of that category, at most `limit`; from offset 0, a limit that covers the category gives exactly its images and a smaller one gives exactly `limit` rows; an offset past the category gives none |
| ImageCrud.GetAllImages | pokedex_backend/app/crud/image_crud.py:94-109 | a page of distinct existing images, at most `limit`; unpaged, the whole table |
| ImageCrud.UpdateImageMetadata | pokedex_backend/app/crud/image_crud.py:112-137 | only the sent fields among description, tags and category change; every other field is kept; an explicit null category fails the NOT NULL constraint and changes nothing |
| ImageCrud.UpdateIgnoresThumbnailFlag | pokedex_backend/app/crud/image_crud.py:129-130 | the category-thumbnail flag never reaches the record |
| ImageCrud.EmptyUpdateChangesNothing | pokedex_backend/app/crud/image_crud.py:126 | an update that sends no field leaves the catalog as it was |
| ImageCrud.UpdateImageKeepsValid | pokedex_backend/app/models/image_models.py:36 | moving an image into an existing category keeps the catalog valid |
| ImageCrud.BlobPaths | pokedex_backend/app/crud/image_crud.py:158-168 | the original's path when it is non-empty and the thumbnail's when one is recorded, each under its root |
| ImageCrud.WithoutImage | pokedex_backend/app/crud/image_crud.py:170 | the image row and its link rows are gone; every other row is kept |
| ImageCrud.DeleteImage | pokedex_backend/app/crud/image_crud.py:140-172 | an absent id gives none and changes nothing; otherwise the record's blobs are deleted (failures ignored), then the record, and the deleted record is returned; a failed commit is a 500 that keeps the record, with the blobs already gone |
| ImageCrud.DeleteImageKeepsValid | pokedex_backend/app/crud/image_crud.py:170-171 | deleting an image keeps the catalog valid |
| CategoryCrud.GetCategoryByName | pokedex_backend/app/crud/category_crud.py:64-77 | exact, case-sensitive equality; none iff no category has the name |
| CategoryCrud.GetCategoryByNameFinds | pokedex_backend/app/models/category_models.py:17 | in a valid catalog every category is found under its own name |
| CategoryCrud.CreateCategory | pokedex_backend/app/crud/category_crud.py:28-44 | a taken name fails the unique index with nothing changed; otherwise exactly one category is added |
| CategoryCrud.CreateCategoryKeepsValid | pokedex_backend/app/models/category_models.py:17 | category names stay unique |
| CategoryCrud.UpdateCategory | pokedex_backend/app/crud/category_crud.py:130-154 | only the sent fields change; a name held by another category fails with nothing changed |
| CategoryCrud.UpdateCategoryKeepsValid | pokedex_backend/app/crud/category_crud.py:148-154 | a partial update keeps the catalog valid |
| CategoryCrud.GetAllCategories | pokedex_backend/app/crud/category_crud.py:80-96 | a page of distinct existing categories, at most `limit`; unpaged, the whole table |
| CategoryCrud.GetCategoryWithImages | pokedex_backend/app/crud/category_crud.py:99-126 | none iff the id is absent; otherwise the category with exactly its images, an empty list when it has none |
| CategoryCrud.TagsOfImages | pokedex_backend/app/crud/category_crud.py:191-196 | the candidate tags are exactly the tags linked to some member image |
| CategoryCrud.CollectCandidates | pokedex_backend/app/crud/category_crud.py:191-196 | collecting one image at a time without repeats yields exactly the candidate tags |
| CategoryCrud.AfterCascade | pokedex_backend/app/crud/category_crud.py:199-233 | the category, its images and their link rows are gone; other rows are kept; a candidate tag remains iff some remaining link references it; non-candidate tags are untouched |
| CategoryCrud.AfterCascadeKeepsValid | pokedex_backend/app/crud/category_crud.py:218-233 | the committed catalog is valid |
| CategoryCrud.DeleteMembers | pokedex_backend/app/crud/category_crud.py:199-215 | each member image's blobs are deleted (except on OS errors) and its row and links removed; nothing else on disk changes |
| CategoryCrud.SweepTags | pokedex_backend/app/crud/category_crud.py:221-230 | exactly the candidates no remaining link references are deleted |
| CategoryCrud.DeleteCategory | pokedex_backend/app/crud/category_crud.py:157-235 | an absent id gives none and changes nothing; otherwise all member blobs are deleted, and the cascade is committed as one transition, or rolled back with a 500 when the commit fails |
| CategoriesRouter.CreateCategoryRoute | pokedex_backend/app/routers/categories.py:38-57 | a name already taken (exact match) is a 400 with nothing changed; otherwise exactly one category is added |
| CategoriesRouter.CreateCategoryRouteKeepsValid | pokedex_backend/app/routers/categories.py:47-57 | creation through the endpoint keeps the catalog valid |
| CategoriesRouter.ReadCategory | pokedex_backend/app/routers/categories.py:78-89 | 404 iff the category is missing; otherwise the category and exactly its images |
| CategoriesRouter.UpdateCategoryRoute | pokedex_backend/app/routers/categories.py:95-126 | 404 for a missing category, 400 for a clashing rename, neither changing anything; otherwise the data layer's partial update |
| CategoriesRouter.UpdateCategoryRouteExact | pokedex_backend/app/routers/categories.py:111-121 | the 400 is exactly a clash with another category's name; keeping the current name is always allowed; whatever passes cannot fail in the data layer |
| CategoriesRouter.UpdateCategoryRouteKeepsValid | pokedex_backend/app/routers/categories.py:95-126 | every update through the endpoint keeps the catalog valid |
| CategoriesRouter.ListCategoryImages | pokedex_backend/app/routers/categories.py:155-176 | 404 iff the category is missing; otherwise distinct images of the category, at most `limit`, all of them when the default page covers the category, and exactly `limit` when it does not |
| CategoriesRouter.DeleteCategoryRoute | pokedex_backend/app/routers/categories.py:132-152 | 404 with nothing changed for a missing category; otherwise the files of every member image are deleted, failures ignored (`BlobsRemoved`), and a committed cascade is exactly `AfterCascade`: the category, its images and links gone, every other image kept, the tags no remaining link uses swept; a failed commit is a 500 with the catalog unchanged |
| ImagesRouter.UploadRecord | pokedex_backend/app/routers/images.py:126-142 | the record carries the upload's name, type, description, tags and category, the stored name, both relative paths and the stored size |
| ImagesRouter.RecordUpload | pokedex_backend/app/routers/images.py:126-147 | the record is added iff both paths lie under their roots, the original is on disk and the stored name is new; its paths are relative to the roots and its size is the file's; otherwise 500 with nothing added |
| ImagesRouter.UploadImage | pokedex_backend/app/routers/images.py:47-147 | a missing category and a disallowed MIME type are 400 before any write; a failure never adds a record, and one that touched the disk is a 500; a success adds exactly one record |
| ImagesRouter.ThumbnailIsNotOriginal | pokedex_backend/app/services/image_processing_service.py:40 | a thumbnail never overwrites its original |
| ImagesRouter.UploadPaths | pokedex_backend/app/routers/images.py:129-136 | the original and thumbnail land in the same shard under their roots, relative paths are shard plus name, and the two files differ |
| ImagesRouter.SaveStage | pokedex_backend/app/routers/images.py:92-105 | a save that passes every check writes exactly the whole file at its allocated path |
| ImagesRouter.UploadStages | pokedex_backend/app/routers/images.py:92-147 | once the save succeeds, a failed thumbnail fails the upload and a rendered one hands over to the record stage |
| ImagesRouter.SaveFailureFailsUpload | pokedex_backend/app/routers/images.py:92-105 | a save that fails, for whatever reason, fails the upload |
| ImagesRouter.RenderedUploadSucceeds | pokedex_backend/app/routers/images.py:126-142 | with the file saved and the thumbnail rendered, the upload fails exactly on a stored-name clash |
| ImagesRouter.UploadImageSucceeds | pokedex_backend/app/routers/images.py:47-147 | the upload succeeds iff the category exists, the MIME type and size are allowed, the name has an extension, the write and the rendering complete, and the stored name is new |
| ImagesRouter.UploadImageRecord | pokedex_backend/app/routers/images.py:126-142 | a successful upload records the original and thumbnail by shard and name, with the uploaded size, and exactly those two files appear on disk |
| ImagesRouter.ThumbnailFailureKeepsOriginal | pokedex_backend/app/routers/images.py:108-123 | a failed thumbnail is a 500 with no record, and the saved original stays on disk |
| ImagesRouter.ReadImage | pokedex_backend/app/routers/images.py:150-158 | 404 iff the id names no image; otherwise its record |
| ImagesRouter.UpdateImage | pokedex_backend/app/routers/images.py:161-185 | 404 for a missing image, 400 for a missing target category, neither changing anything; otherwise the data layer's update |
| ImagesRouter.UpdateImageKeepsCatalogValid | pokedex_backend/app/routers/images.py:168-180 | the endpoint's checks are what the data layer needs: every update through it keeps the catalog valid |
| ImagesRouter.DeleteImage | pokedex_backend/app/routers/images.py:188-225 | 404 with nothing changed for a missing image; otherwise the blobs are deleted, errors swallowed, and the record and its links are removed, or kept with a 500 when the commit fails |
| ImagesRouter.DeleteAllTwice | pokedex_backend/app/routers/images.py:201-224 | deleting the same blobs a second time changes nothing |
| ImagesRouter.DeleteImageSameAsDataLayer | pokedex_backend/app/routers/images.py:201-224 | the endpoint's own pass over the blobs is redundant: the outcome is the data layer's delete alone |
| ImagesRouter.UploadImageAsWritten | pokedex_backend/app/routers/images.py:92-105 | as written: the two 400 checks, then a 500 for every upload that passes them, with the catalog unchanged |
| ImagesRouter.UploadAsWrittenLosesUpload | pokedex_backend/app/routers/images.py:92-105 | where the intended upload succeeds, the written one is a 500 that leaves the saved file on disk with no record naming it |
| ImagesRouter.DeleteImageAsWritten | pokedex_backend/app/routers/images.py:201-225 | as written: 404 for a missing image; otherwise success with the blobs deleted and the catalog unchanged |
| ImagesRouter.DeleteAsWrittenKeepsRecord | pokedex_backend/app/routers/images.py:224 | the written delete answers and leaves the disk as the intended one does, but the record stays |
| ImagesRouter.RouterNamesUnbound | pokedex_backend/app/routers/images.py:25-27 | the imported class name is not defined by the service module, and the keyword passed to `generate_thumbnail` is not one of its parameters |
| Paging.Page | pokedex_backend/app/crud/image_crud.py:107-109 | the rows from offset `skip` (a negative offset counts as 0), at most `limit` of them (a negative limit means all), in order |
| Paging.PageSplit | pokedex_backend/app/crud/image_crud.py:107-109 | two consecutive pages together are the page spanning both |
| Paging.WhereOfDistinct | pokedex_backend/app/crud/image_crud.py:87-90 | filtering rows that are distinct keeps them distinct |
| SpeciesInfo.LikePlainPrefix | pokedex_backend/app/crud/species_info_crud.py:35-39 | for a term without wildcards, `startswith` is a prefix test ignoring ASCII case |
| SpeciesInfo.SelectNames | pokedex_backend/app/crud/species_info_crud.py:33-41 | at most `limit` names, each of a row the filter keeps; unlimited, every kept row's name |
| SpeciesInfo.SearchSpeciesNames | pokedex_backend/app/crud/species_info_crud.py:14-43 | nothing for an empty term; at most `limit` names, each of a species whose lowered name or pinyin matches the lowered term; unlimited, every such species |
| SpeciesInfo.MatchesLikePlain | pokedex_backend/app/crud/species_info_crud.py:33-39 | for a term without wildcards the query is exactly a case-insensitive prefix search on the name, full pinyin or initials, whatever case the pinyin is stored in |
| SpeciesInfo.WildcardTermMatchesAnyName | pokedex_backend/app/crud/species_info_crud.py:35-38 | as written, the term `_` matches a species none of whose columns starts with `_` |
| SpeciesInfo.SearchSpeciesNamesEscaped | pokedex_backend/app/crud/species_info_crud.py:14-43 | the corrected search is a plain prefix search: sound, complete when unlimited, bounded by `limit` |
| SpeciesInfo.EscapedSearchAgrees | pokedex_backend/app/crud/species_info_crud.py:35-39 | for terms without wildcards the corrected search returns what the written one does |
| SpeciesInfo.FirstExact | pokedex_backend/app/crud/species_info_crud.py:59-62 | the first row whose name equals the given one ignoring case, or none iff no row does |
| SpeciesInfo.GetSpeciesByExactChineseName | pokedex_backend/app/crud/species_info_crud.py:46-63 | a row whose name equals the given one ignoring case, none iff there is no such row |
| SpeciesInfo.ExactLookupIgnoresCase | pokedex_backend/app/crud/species_info_crud.py:59-62 | names that differ only in ASCII case find the same row |
| SpeciesImport.PrepareSpecies | scripts/import_species_data.py:31-57 | none iff `中文种名` is missing or empty; otherwise the row carries that name and the pinyin computed from it |
| SpeciesImport.PrepareSpeciesFields | scripts/import_species_data.py:46-55 | 目/科/属 default to the empty string, a missing English name to none, and the pinyin depends on the Chinese name alone |
| SpeciesImport.ImportLoop | scripts/import_species_data.py:92-117 | processed equals the number of records and equals added + skipped existing + skipped invalid |
| SpeciesImport.ImportLoopAddsNew | scripts/import_species_data.py:100-116 | every collected row comes from a record and has a name the table does not hold |
| SpeciesImport.ImportLoopCovers | scripts/import_species_data.py:92-117 | every record with a Chinese name ends up in the table or among the collected rows |
| SpeciesImport.ImportLoopUnique | scripts/import_species_data.py:100-116 | with the batch also checked, the collected rows have distinct names |
| SpeciesImport.ImportDataAsWritten | scripts/import_species_data.py:60-138 | ends by an escaping error iff the top level or a record is not an object, and by a logged refusal for an unreadable file or a non-list `数据记录`, both importing nothing; a dry run leaves the table; otherwise the collected rows are appended |
| SpeciesImport.NonObjectRecordLosesBatch | scripts/import_species_data.py:82-95 | a record that is not an object discards the batch: records that alone would add a new name add nothing when one follows them |
| SpeciesImport.DuplicateInBatchBreaksUniqueness | scripts/import_species_data.py:100-116 | as written, a file naming one new species twice appends two rows with the same Chinese name |
| SpeciesImport.AppendKeepsUnique | pokedex_backend/app/models/species_info_models.py:55 | rows new to the table and distinct among themselves keep the names unique |
| SpeciesImport.ImportData | scripts/import_species_data.py:60-138 | corrected import: ends as the script does (an escaping error for a top level or record that is not an object, a logged refusal for an unreadable file or non-list records), importing nothing then; counts as the script does, dry run changes nothing, every named record ends up in the table, and the names stay unique |
| SpeciesImport.BatchCheckAgrees | scripts/import_species_data.py:100-116 | for a file naming each species once, the corrected import collects exactly what the script does |
| SpeciesMigrate.MatchPositionsSound | scripts/migrate_species.py:41-42 | the positions found form a match of the pattern |
| SpeciesMigrate.MatchPositionsComplete | scripts/migrate_species.py:41-42 | every match has the found first and third groups and a second group no shorter than the found one |
| SpeciesMigrate.MatchSpec | scripts/migrate_species.py:41-42 | `re.match` succeeds iff the pattern matches, giving the groups of the match with the shortest second group |
| SpeciesMigrate.MatchOfShape | scripts/migrate_species.py:41-42 | a match of the pattern whose second group ends in a non-space is exactly the one `re.match` reports, since the lazy `.+?` cannot stop earlier |
| SpeciesMigrate.MatchCompose | scripts/migrate_species.py:41-47 | a field written as Chinese name, English name, at least two spaces and a binomial matches with those three groups |
| SpeciesMigrate.FallbackParts | scripts/migrate_species.py:54 | every fallback part is a stripped non-empty piece between double spaces |
| SpeciesMigrate.ProcessItem | scripts/migrate_species.py:22-67 | an item without `种` is returned unchanged; keys other than the four it handles are never touched; with `种` the Chinese and scientific names are always set |
| SpeciesMigrate.SetNames | scripts/migrate_species.py:44-66 | a match sets the three names and removes `种`; a split sets two and removes `种`; a failure keeps `种`, empties the names and puts the whole field in `学名` |
| SpeciesMigrate.ProcessItemOutcomes | scripts/migrate_species.py:35-67 | the three outcomes: stripped groups of a match; first fallback part and the rest joined by a space; or the failure fields with `种` kept |
| SpeciesMigrate.ProcessComposed | scripts/migrate_species.py:41-61 | a well-formed field is split into exactly the names it was written from, and the record is then importable |
| SpeciesMigrate.ClassifyComposed | scripts/migrate_species.py:41-51 | a well-formed field reads as the names it was written from |
| SpeciesMigrate.NoEnglishNameNoMatch | scripts/migrate_species.py:41-44 | a field with no English name does not match the pattern |
| SpeciesMigrate.NoEnglishNameFallsBack | scripts/migrate_species.py:52-61 | such a field is split by the fallback: Chinese and scientific names set, English name untouched, `种` removed |
| SpeciesMigrate.InputItems | scripts/migrate_species.py:79-86 | the records are the elements of a root array; there are none under any other root; a malformed document yields the elements parsed before the error |
| SpeciesMigrate.Dumps | scripts/migrate_species.py:85-89 | each record is processed and serialised, in order |
| SpeciesMigrate.Document | scripts/migrate_species.py:75-92 | the output is the header, the serialised records joined by `,\n`, and the footer |
| SpeciesMigrate.StreamProcess | scripts/migrate_species.py:70-92 | completes iff the document is well-formed; then the output is exactly the framed join (header plus footer for no records); on a malformed document the parser raises mid-loop and the file keeps the header and the records read so far, which is the full document less its footer |
| FileUtils.OsJoin | scripts/folder2db/file_utils.py:34 | `os.path.join`: an absolute second part replaces the first; otherwise the result starts with the first part and ends with the second |
| FileUtils.StripSlashes | scripts/folder2db/db2folder.py:129 | a prefix of the path without trailing `/`, followed only by `/` |
| FileUtils.Dirname | scripts/folder2db/db2folder.py:129 | a prefix of the path; empty for a bare name |
| FileUtils.DirnameOfJoin | scripts/folder2db/db2folder.py:129 | a plain name joined onto a directory has that directory as its parent |
| FileUtils.ScanFolders | scripts/folder2db/file_utils.py:16-39 | a missing root and a non-directory root are distinct errors; otherwise sub-directories paired with their joined paths |
| FileUtils.ScanFoldersContents | scripts/folder2db/file_utils.py:32-36 | exactly the root's sub-directory entries are found, each with its joined path |
| FileUtils.Sort | scripts/folder2db/file_utils.py:65 | Python's `sorted`: an ascending permutation |
| FileUtils.SortedUnique | scripts/folder2db/file_utils.py:65 | two sorted arrangements of the same names are equal |
| FileUtils.GetImageFiles | scripts/folder2db/file_utils.py:42-65 | errors for a missing or non-directory path; otherwise a sorted permutation of the image files found |
| FileUtils.GetImageFilesContents | scripts/folder2db/file_utils.py:57-62 | exactly the regular files whose lower-cased extension is a supported format, as joined paths |
| FileUtils.ImageFilesIgnoreListingOrder | scripts/folder2db/file_utils.py:57-65 | the result does not depend on the order the directory lists its entries in |
| FileUtils.EnsureDir | scripts/folder2db/file_utils.py:66-76 | an existing path is left alone; the empty path fails, and so does a missing path under a regular file, as `os.makedirs` does; otherwise an empty directory appears there and nothing else changes |
| FileUtils.EnsureDirUnderFile | scripts/folder2db/file_utils.py:75-76 | a regular file at a proper ancestor makes ensuring a missing path fail |
| FileUtils.SafeChar | scripts/folder2db/file_utils.py:89-91 | a character as saved is never invalid, and is either the original or `_` |
| FileUtils.SanitizeFilename | scripts/folder2db/file_utils.py:80-99 | never empty; an empty name becomes `untitled`; otherwise the length is kept |
| FileUtils.SanitizeIsReplaceLoop | scripts/folder2db/file_utils.py:89-95 | the one-pass definition equals the source's replacement loop followed by the `untitled` rule |
| FileUtils.SanitizeFilenameChars | scripts/folder2db/file_utils.py:89-91 | each invalid character becomes `_`, every other character is kept, and no invalid character remains |
| FileUtils.SanitizeIdempotent | scripts/folder2db/file_utils.py:80-99 | sanitising a sanitised name changes nothing |
| Folder2Db.ParseOptions | scripts/folder2db/folder2db.py:45-54 | thumbnails are on unless `--no-thumbnail` is given; `--dry-run` turns on the dry run |
| Folder2Db.ThumbnailByDefault | scripts/folder2db/folder2db.py:45 | with no switches the thumbnail flag is on and the upload is real |
| Folder2Db.Title | scripts/folder2db/folder2db.py:110-111 | the title has no slash and is a prefix of the file's base name |
| Folder2Db.TitleOfJoin | scripts/folder2db/folder2db.py:110-111 | the title of `dir/stem.ext` is `stem` |
| Folder2Db.Uploads | scripts/folder2db/folder2db.py:108-127 | one upload per image, in order, to the category; the thumbnail flag only on the first and only when enabled |
| Folder2Db.ProcessCategory | scripts/folder2db/folder2db.py:59-132 | success ≤ total = number of images; failed creation or listing gives (0, 0); a dry run uploads nothing and succeeds on all; otherwise success counts the accepted uploads |
| Folder2Db.UploadImages | scripts/folder2db/folder2db.py:108-130 | the counting loop: all images in a dry run, else the accepted uploads among those attempted |
| Folder2Db.AtMostOneThumbnail | scripts/folder2db/folder2db.py:114 | no upload after the first carries the thumbnail flag |
| Folder2Db.ExitCode | scripts/folder2db/folder2db.py:157-204 | `main` returns no value when there are no categories, 1 after a failure, 0 otherwise |
| Folder2Db.ExitStatus | scripts/folder2db/folder2db.py:207-208 | the process status is nonzero, namely 1, exactly after a failure |
| Folder2Db.ImportSuccessBounded | scripts/folder2db/folder2db.py:174-184 | over the whole run no more images are accepted than found |
| Folder2Db.SumRuns | scripts/folder2db/folder2db.py:174-184 | the run totals are the sums of the per-category results |
| Folder2Db.ImportFolders | scripts/folder2db/folder2db.py:135-204 | a scan failure fails the run, no folders ends it early, otherwise every folder is processed in order and the totals are summed |
| Db2Folder.ExportFilename | scripts/folder2db/db2folder.py:118-128 | the original file name if truthy, else title plus `.jpg`, else id plus `.jpg`, then sanitised; never empty |
| Db2Folder.ExportFilenameValid | scripts/folder2db/db2folder.py:127-128 | a saved name holds no invalid character |
| Db2Folder.ExportFilenameIsJpeg | scripts/folder2db/db2folder.py:121-125 | without an original name the saved name ends in `.jpg` whatever the title or id holds |
| Db2Folder.CategoryDir | scripts/folder2db/db2folder.py:96 | an absolute category name is the folder itself; any other name lies under the output directory |
| Db2Folder.ExportPath | scripts/folder2db/db2folder.py:96-129 | an image is saved in its category's folder, ending in its export name; under the output directory unless the category name is absolute |
| Db2Folder.ExportFilenamePlain | scripts/folder2db/db2folder.py:127-128 | an export name holds no `/`, so joining it never escapes the folder |
| Db2Folder.ExportPathParent | scripts/folder2db/db2folder.py:129 | the parent of an export path is its category's folder |
| Db2Folder.DownloadImage | scripts/folder2db/db2folder.py:46-71 | with skip-existing and the path present: success with nothing fetched; otherwise success iff the fetch succeeds and the path can be opened for writing (not a directory, in an existing directory); a failure changes nothing |
| Db2Folder.BlockedFolder | scripts/folder2db/api_client.py:188 | when every target lies in a folder that is a regular file, none can be opened for writing, so none is fetchable |
| Db2Folder.BlockedCategory | scripts/folder2db/db2folder.py:96-97 | when the category's folder path is a regular file, `ensure_dir` leaves the disk as it is, and no download of the category can succeed |
| Db2Folder.DownloadAgainSkips | scripts/folder2db/db2folder.py:62-64 | after a success, downloading again with skip-existing fetches nothing and changes nothing |
| Db2Folder.UrlPrefix | scripts/folder2db/db2folder.py:114-116 | the images before the first one without a URL all carry one |
| Db2Folder.Reached | scripts/folder2db/db2folder.py:114-116 | the images the loop reaches are a prefix that carries URLs, and they are all the images iff every one carries a URL |
| Db2Folder.Targets | scripts/folder2db/db2folder.py:114-129 | one download per listed image, to its export path, in order |
| Db2Folder.DownloadAll | scripts/folder2db/db2folder.py:114-137 | success ≤ downloads; without skip-existing success is the number that can succeed; with it at least that many; only target paths are written |
| Db2Folder.ExportCategory | scripts/folder2db/db2folder.py:74-137 | an error ensuring the folder escapes with nothing changed; a failed listing gives (0, 0); otherwise the images reached are downloaded and counted, and the call escapes iff an image lacks a URL; only the folder and target paths change |
| Db2Folder.ExportCategories | scripts/folder2db/db2folder.py:188-202 | categories are exported in order until one raises; the finished ones are a prefix of the selection, each with its folder; the one that raised lacks a URL or could not get its folder; a blocked first folder always raises |
| Db2Folder.SelectCategories | scripts/folder2db/db2folder.py:163-177 | the first page of 100 categories, narrowed to exact name matches when a non-empty filter is given |
| Db2Folder.ExportAll | scripts/folder2db/db2folder.py:140-222 | status 1 when the output directory cannot be ensured, the listing fails, the filter matches nothing, or a category raises; 0 exactly when every selected category is exported, each with all its URLs and its folder; a missing URL anywhere in the selection, or a blocked first folder, gives 1; success ≤ total |
| Db2Folder.OutputDirIsFile | scripts/folder2db/db2folder.py:96-97 | a regular file given as the output directory passes `main`'s own `ensure_dir` but blocks the category folder beneath it |
| StoreCommon.Settle | pokedex_frontend/src/store/imageStore.ts:55-63 | once settled the store is not loading; on success no error; on failure the message or the fallback, with validation errors exactly for a 422 carrying a body |
| StoreCommon.FindIndex | pokedex_frontend/src/store/imageStore.ts:110 | the first position holding the id, none iff no item has it |
| StoreCommon.FindById | pokedex_frontend/src/store/categoryStore.ts:30 | the first item with the id, none iff no item has it |
| StoreCommon.ReplaceFirst | pokedex_frontend/src/store/imageStore.ts:110-113 | the length is kept, items with other ids are kept, and a changed entry is the update |
| StoreCommon.ReplaceFirstOnlyFirst | pokedex_frontend/src/store/categoryStore.ts:96-99 | only the first item with the id is replaced; later ones keep their values |
| StoreCommon.RemoveAll | pokedex_frontend/src/store/imageStore.ts:136 | no item with the id remains and every other item does |
| StoreCommon.RemoveAllIdempotent | pokedex_frontend/src/store/categoryStore.ts:122 | removing twice removes nothing more |
| StoreCommon.RemoveAllAppend | pokedex_frontend/src/store/categoryStore.ts:122 | the kept items keep their relative order |
| StoreCommon.RemoveAllCount | pokedex_frontend/src/store/categoryStore.ts:122 | the number of items removed is the number that had the id |
| StoreCommon.ReplaceFirstKeepsUnique | pokedex_frontend/src/store/imageStore.ts:110-113 | replacing an item by one with the same id keeps ids unique |
| StoreCommon.RemoveAllKeepsUnique | pokedex_frontend/src/store/imageStore.ts:136 | removing items keeps ids unique |
| CategoryStore.CategoryNameById | pokedex_frontend/src/store/categoryStore.ts:29-32 | the name of the first category with the id, or none iff no category has it |
| CategoryStore.FetchCategories | pokedex_frontend/src/store/categoryStore.ts:35-50 | the list is replaced by the fetched page on success and kept on failure; status fields as `Settle` |
| CategoryStore.FetchCategoryDetails | pokedex_frontend/src/store/categoryStore.ts:52-68 | the current category is the fetched one on success and none after a failure; the list is untouched |
| CategoryStore.AddCategory | pokedex_frontend/src/store/categoryStore.ts:70-88 | the created category is appended on success; the list is kept on failure |
| CategoryStore.EditCategory | pokedex_frontend/src/store/categoryStore.ts:90-114 | the first entry with the id is replaced, and the current category only when its id matches; a failure keeps both |
| CategoryStore.RemoveCategory | pokedex_frontend/src/store/categoryStore.ts:116-137 | all entries with the id go, and the current category is cleared only when its id matches; a failure keeps both |
| CategoryStore.ClearValidationErrors | pokedex_frontend/src/store/categoryStore.ts:140-142 | only the validation errors are cleared |
| CategoryStore.ClearError | pokedex_frontend/src/store/categoryStore.ts:144-146 | only the error is cleared |
| CategoryStore.AddThenName | pokedex_frontend/src/store/categoryStore.ts:75-76 | a category created with a new id is looked up by that id right away |
| CategoryStore.EditThenName | pokedex_frontend/src/store/categoryStore.ts:95-99 | after an edit of a listed category its id gives the new name |
| CategoryStore.RemoveThenName | pokedex_frontend/src/store/categoryStore.ts:121-122 | after a removal the id is no longer found |
| CategoryStore.ActionsKeepUniqueIds | pokedex_frontend/src/store/categoryStore.ts:35-137 | every action keeps the list's ids unique, given unique fetched pages and new ids on creation |
| ImageStore.FetchImages | pokedex_frontend/src/store/imageStore.ts:36-64 | the list is replaced wholesale on success and kept on failure; paging fields untouched |
| ImageStore.FetchImageDetails | pokedex_frontend/src/store/imageStore.ts:66-82 | the current image is the fetched one on success and none after a failure; the list is untouched |
| ImageStore.AddNewImage | pokedex_frontend/src/store/imageStore.ts:84-102 | the uploaded image is put in front on success; the list is kept on failure |
| ImageStore.EditImage | pokedex_frontend/src/store/imageStore.ts:104-128 | the first entry with the id is replaced, and the current image only when its id matches; a failure keeps both |
| ImageStore.RemoveImage | pokedex_frontend/src/store/imageStore.ts:130-150 | all entries with the id go, and the current image is cleared only when its id matches; a failure keeps both |
| ImageStore.ClearValidationErrors | pokedex_frontend/src/store/imageStore.ts:152-154 | only the validation errors are cleared |
| ImageStore.ClearError | pokedex_frontend/src/store/imageStore.ts:156-158 | only the error is cleared |
| ImageStore.AddThenFind | pokedex_frontend/src/store/imageStore.ts:89-90 | an uploaded image is found first by its id, whatever the list held |
| ImageStore.EditThenFind | pokedex_frontend/src/store/imageStore.ts:109-113 | after an edit of a listed image its id finds the updated image |
| ImageStore.RemoveThenFind | pokedex_frontend/src/store/imageStore.ts:135-136 | after a removal the id is not found, and removing again changes nothing |
| ImageStore.ActionsKeepUniqueIds | pokedex_frontend/src/store/imageStore.ts:36-150 | every action keeps the list's ids unique, given unique fetched pages and new ids on upload |

## Left out

- Pixel work and EXIF: Pillow's decoding, scaling and encoding are one outcome parameter of the thumbnail step. The EXIF serialisation and the EXIF command-line tool are not modelled, since both are image-format behaviour of foreign libraries.
- pypinyin: the full and initial pinyin of a Chinese name are an uninterpreted pair of functions.
- Network and transport: the frontend API service, the scripts' API client and its retries, and the species and tag routers are not modelled. Their results appear as parameters (the store's `ApiResult`, the scripts' `create`, `accepts`, `fetch` and `imagesOf`). `main.py`, `database.py` and the thread-pool helper are not modelled either.
- Concurrency and async: every operation is one sequential transition.
- Timestamps, environment loading and `.env` settings are not modelled. The storage roots are a parameter of `Config.DefaultRoots`.
- Logging, progress bars, `console.error` and elapsed-time reporting are not modelled, because they do not change state.
- The mock backends of both frontends, the type-only and bootstrap files, and the duplicate router at the repository root are not modelled.
- Category thumbnails: no shown code sets or clears one, so the model claims nothing about them.
- SpeciesImport.ImportData: the model assumes the staged rows are committed, which the program never does. `run_import` calls `next(get_session())` (`scripts/import_species_data.py:168`). `get_session` is a `@contextmanager` (`pokedex_backend/app/database.py:16-29`), so that call raises `TypeError` before `import_data` runs. Even entered correctly, `with Session(engine)` closes the session without committing, despite the comment at `scripts/import_species_data.py:121`. As written, nothing is persisted.
- SpeciesImport.ImportDataAsWritten: the same assumption of a commit applies.
- CategoriesRouter.ReadCategory: ids are opaque keys. The router declares its path parameter as `uuid.UUID` (`pokedex_backend/app/routers/categories.py:79`, `98`, `133`, `157`), while `Category.id` is an integer (`pokedex_backend/app/models/category_models.py:25`, `40`). As written, FastAPI answers 422 to every by-id request that uses an id the API hands out. The model takes the path id to name the category's key.
- CategoriesRouter.UpdateCategoryRoute: the same opaque-id reading applies.
- CategoriesRouter.DeleteCategoryRoute: the same opaque-id reading applies.
- CategoriesRouter.ListCategoryImages: the same opaque-id reading applies.
- In `stream_process`, the `if not items` guard never fires on a generator and is not modelled. Serialisation is a parameter (`dump`).
- The `main` of the migration script, which renames files, is not modelled. When `StreamProcess` does not complete, `main` logs and re-raises before the rename, so the input stays under its backup name and the truncated output file remains.
- A `种` value that is not a string is not modelled: the records are maps from strings to strings.
- Argument-parsing details beyond the switches used (abbreviations, `--verbose`, `--api-url`) are not modelled. An empty `--category` is falsy and selects all categories, as in the code.
- Partial downloads: a failed download writes nothing in the model. `os.makedirs` also creates missing parents; the model adds only the path itself.
- Db2Folder.ExportAll: an interrupt (`KeyboardInterrupt`, a bare `return`, status 0) is not modelled.
- The upload title sent by `folder2db` is computed but has no place in the backend record.
- The frontend stores' transient `isLoading = true` while a call is pending is not a state of the model. The rethrow of add, edit and remove is the `Err` result itself.
- `get_category_by_id`, `get_image_by_id` and `get_tag_by_id` are map lookups and have no member of their own.
- TagCrud.GetAllTags: which rows a non-trivial `skip`/`limit` selects is stated once, by `Paging.Page`, rather than in its contract.
- ImageCrud.GetAllImages: the same applies; the contract states membership, the bound and distinctness.
- CategoryCrud.GetAllCategories: the same applies; the contract states membership, the bound and distinctness.
- ImageCrud.GetImagesByCategoryId: with a positive offset the contract states membership, distinctness and the bound only. Which rows come back is the page of `ImageCrud.CategoryRows`, by construction.
- CategoriesRouter.ListCategoryImages: the same applies.
- FileUtils.OsJoin: paths are compared as written strings. `.`, `..` and repeated `/` are not normalised, so `a/b` and `a//b` are different entries of the file system map.
- SpeciesInfo.SearchSpeciesNames: which rows a limit keeps is stated through `SpeciesInfo.SelectNames` (scan order), not in the contract.
- Text.Lower: folds ASCII letters only, as SQLite does. Python's `str.lower` also folds other scripts, which no name in the model relies on.

## Findings

| source | as written | input that shows it | evidently intended | confidence | as-written member | corrected member |
|---|---|---|---|---|---|---|
| pokedex_backend/app/crud/species_info_crud.py:35-38 | the search term is passed to `startswith` unescaped, so `%` and `_` in it act as `LIKE` wildcards | the term `_` against a species named 麻雀 returns 麻雀, though nothing starts with `_` | a literal prefix search (`autoescape=True`) | not executed | SpeciesInfo.WildcardTermMatchesAnyName | SpeciesInfo.SearchSpeciesNamesEscaped |
| scripts/import_species_data.py:100-116 | a new name is checked against the table only, not against the records already collected in the same run | a file with two records both named 麻雀, absent from the table, collects two rows with that name, which the unique index on `name_chinese` refuses at commit | each new name imported once | not executed | SpeciesImport.DuplicateInBatchBreaksUniqueness | SpeciesImport.ImportData |
| pokedex_backend/app/routers/images.py:93-99 | three names are unpacked from the pair that `save_upload_file` returns (`file_storage_service.py:131`). The `ValueError` is caught by the `except Exception` around the save and re-raised as a 500 | any upload to an existing category, with an allowed type and size, a file name with an extension and a complete write: the file is stored, then the answer is 500 and no record exists (`ImagesRouter.UploadAsWrittenLosesUpload`) | unpack the pair and go on to the thumbnail and the record | not executed | ImagesRouter.UploadImageAsWritten | ImagesRouter.UploadImage |
| pokedex_backend/app/routers/images.py:224 | `image_crud.delete_image` is an `async def` called without `await`, so its coroutine never runs | deleting an existing image answers 204 and removes its files, but the record stays and a later read still returns it (`ImagesRouter.DeleteAsWrittenKeepsRecord`) | await the data layer's delete, which removes the record | not executed | ImagesRouter.DeleteImageAsWritten | ImagesRouter.DeleteImage |
| pokedex_backend/app/routers/images.py:25-27 | the router imports `ImageProcessingService`, but the service module defines `ImageProcessor` (`image_processing_service.py:12`). Line 110 also passes `source_image_path`, while the parameter is `source_path` (`image_processing_service.py:21`) | importing `app.main`, which imports the router, raises `ImportError` before any request is served | import `ImageProcessor` and pass the original's path as `source_path` | not executed | ImagesRouter.RouterNamesUnbound | ImagesRouter.UploadImage |

=== FILE: catalog.dfy ===
/** The relational catalog of the backend (the `app/models` package): categories,
    images, tags and the image-tag association table. Primary keys are
    opaque identifiers; a table is a map from key to row, and the
    association table is a set of key pairs. */
module Catalog {
  import opened Wrappers
  import opened Text
  import opened Paths

  datatype CategoryId = CategoryId(n: nat)
  datatype ImageId = ImageId(n: nat)
  datatype TagId = TagId(n: nat)

  /** A `category` row; the description is optional. */
  datatype Category = Category(name: string, description: Option<string>)

  /** An `image` row. `tagsText` is the free-text `tags` column of the
      image table; the tags an image carries in the catalog are its rows
      of the association table. */
  datatype Image = Image(
    originalFilename: string,
    storedFilename: string,
    relativeFilePath: Path,
    relativeThumbnailPath: Option<Path>,
    mimeType: string,
    sizeBytes: nat,
    description: Option<string>,
    tagsText: Option<string>,
    categoryId: CategoryId)

  /** The `max_length` of a tag name. */
  const MaxTagNameLength: nat := 100

  datatype Tag = Tag(name: string)

  /** A row of `ImageTagLink`: the pair of keys is the whole row, so a pair
      occurs at most once and carries nothing else. */
  datatype Link = Link(image: ImageId, tag: TagId)

  datatype Catalog = Catalog(
    categories: map<CategoryId, Category>,
    images: map<ImageId, Image>,
    tags: map<TagId, Tag>,
    links: set<Link>)

  /** Two tag names collide when they agree after case folding. */
  predicate SameTagName(a: string, b: string) {
    Lower(a) == Lower(b)
  }

  /** The integrity constraints of the schema, with tag-name uniqueness in
      the case-insensitive form the tag operations maintain. */
  predicate Valid(c: Catalog) {
    && (forall i :: i in c.images ==> c.images[i].categoryId in c.categories)
    && (forall l :: l in c.links ==> l.image in c.images && l.tag in c.tags)
    && (forall a, b :: a in c.categories && b in c.categories && a != b ==>
          c.categories[a].name != c.categories[b].name)
    && (forall a, b :: a in c.tags && b in c.tags && a != b ==>
          !SameTagName(c.tags[a].name, c.tags[b].name))
    && (forall t :: t in c.tags ==> |c.tags[t].name| <= MaxTagNameLength)
    && (forall a, b :: a in c.images && b in c.images && a != b ==>
          c.images[a].storedFilename != c.images[b].storedFilename)
  }

  /** `Category.images`: the images whose foreign key is the category. */
  function ImagesOf(c: Catalog, cat: CategoryId): (r: set<ImageId>)
    ensures forall i :: i in r <==> i in c.images && c.images[i].categoryId == cat
  {
    set i | i in c.images && c.images[i].categoryId == cat
  }

  /** `Image.tags` through the association table. */
  function TagsOf(c: Catalog, img: ImageId): (r: set<TagId>)
    ensures forall t :: t in r <==> Link(img, t) in c.links
  {
    set l | l in c.links && l.image == img :: l.tag
  }

  /** `Tag.images` through the association table. */
  function ImagesOfTag(c: Catalog, t: TagId): (r: set<ImageId>)
    ensures forall i :: i in r <==> Link(i, t) in c.links
  {
    set l | l in c.links && l.tag == t :: l.image
  }

  /** Some association row still references the tag. */
  predicate IsLinked(c: Catalog, t: TagId) {
    exists l :: l in c.links && l.tag == t
  }

  lemma IsLinkedImages(c: Catalog, t: TagId)
    ensures IsLinked(c, t) <==> ImagesOfTag(c, t) != {}
  {
    if IsLinked(c, t) {
      var l :| l in c.links && l.tag == t;
      assert l == Link(l.image, t);
      assert l.image in ImagesOfTag(c, t);
    }
  }

  /** A catalog whose tables keep only rows of a valid catalog, unchanged,
      is valid as soon as its foreign keys point at rows it kept. */
  lemma ValidSubCatalog(c: Catalog, d: Catalog)
    requires Valid(c)
    requires forall k :: k in d.categories ==> k in c.categories && d.categories[k] == c.categories[k]
    requires forall i :: i in d.images ==> i in c.images && d.images[i] == c.images[i]
    requires forall t :: t in d.tags ==> t in c.tags && d.tags[t] == c.tags[t]
    requires forall i :: i in d.images ==> d.images[i].categoryId in d.categories
    requires forall l :: l in d.links ==> l.image in d.images && l.tag in d.tags
    ensures Valid(d)
  {
  }

  /** Giving one tag a name of allowed length that clashes with no other
      tag keeps a valid catalog valid. */
  lemma ValidSetTag(c: Catalog, id: TagId, name: string)
    requires Valid(c)
    requires |name| <= MaxTagNameLength
    requires forall t :: t in c.tags && t != id ==> !SameTagName(c.tags[t].name, name)
    ensures Valid(c.(tags := c.tags[id := Tag(name)]))
  {
    var d := c.(tags := c.tags[id := Tag(name)]);
    forall a, b | a in d.tags && b in d.tags && a != b
      ensures !SameTagName(d.tags[a].name, d.tags[b].name)
    {
      if a == id {
        assert !SameTagName(c.tags[b].name, name);
      } else if b == id {
        assert !SameTagName(c.tags[a].name, name);
      } else {
        assert d.tags[a] == c.tags[a] && d.tags[b] == c.tags[b];
      }
    }
  }

  /** In a valid catalog the two views of the association agree and stay
      within existing rows. */
  lemma LinkViewsAgree(c: Catalog, img: ImageId, t: TagId)
    requires Valid(c)
    ensures t in TagsOf(c, img) <==> img in ImagesOfTag(c, t)
    ensures t in TagsOf(c, img) ==> img in c.images && t in c.tags
  {
  }

  // ---------------------------------------------------------------------
  // Picking the first row of a query

  /** `m` is the least element of `s`. */
  predicate IsMin(s: set<nat>, m: nat) {
    m in s && forall x :: x in s ==> m <= x
  }

  lemma {:induction false} MinExists(s: set<nat>)
    requires s != {}
    ensures exists m :: IsMin(s, m)
    decreases |s|
  {
    var y :| y in s;
    if s == {y} {
      assert IsMin(s, y);
    } else {
      var rest := s - {y};
      MinExists(rest);
      var m :| IsMin(rest, m);
      var least := if y < m then y else m;
      forall x | x in s
        ensures least <= x
      {
        if x != y {
          assert x in rest;
        }
      }
      assert IsMin(s, least);
    }
  }

  function MinNat(s: set<nat>): (m: nat)
    requires s != {}
    ensures m in s && forall x :: x in s ==> m <= x
  {
    MinExists(s);
    var m :| IsMin(s, m);
    m
  }

  /** The row a `.first()` query returns among the matching tags. The
      model takes the least key, so that the choice is a function of the
      catalog. */
  function FirstTag(s: set<TagId>): (r: Option<TagId>)
    ensures r.None? <==> s == {}
    ensures r.Some? ==> r.value in s && forall t :: t in s ==> r.value.n <= t.n
  {
    if s == {} then None
    else
      var keys := set t | t in s :: t.n;
      assert keys != {} by {
        var w :| w in s;
        assert w.n in keys;
      }
      assert forall t :: t in s ==> t.n in keys;
      var m := MinNat(keys);
      Some(TagId(m))
  }

  function FirstCategory(s: set<CategoryId>): (r: Option<CategoryId>)
    ensures r.None? <==> s == {}
    ensures r.Some? ==> r.value in s && forall k :: k in s ==> r.value.n <= k.n
  {
    if s == {} then None
    else
      var keys := set k | k in s :: k.n;
      assert keys != {} by {
        var w :| w in s;
        assert w.n in keys;
      }
      assert forall k :: k in s ==> k.n in keys;
      var m := MinNat(keys);
      Some(CategoryId(m))
  }
}

=== FILE: categories_router.dfy ===
/** The category endpoints (`app/routers/categories.py`): the existence
    and name checks each handler makes before it calls the data layer. */
module CategoriesRouter {
  import opened Wrappers
  import opened Paths
  import opened Http
  import opened Config
  import opened FileStorage
  import opened Catalog
  import opened ImageCrud
  import opened CategoryCrud

  /** `create_category`: a name already taken, compared exactly, is a 400
      and changes nothing; otherwise exactly one category is added. */
  function CreateCategoryRoute(c: Catalog, data: Category, newId: CategoryId): (r: (Result<CategoryId, Status>, Catalog))
    requires newId !in c.categories
    ensures r.0.Failure? <==> exists k :: k in c.categories && c.categories[k].name == data.name
    ensures r.0.Failure? ==> r == (Failure(BadRequest), c)
    ensures r.0.Success? ==>
      && r.0.value == newId
      && r.1.categories == c.categories[newId := data]
      && r.1.images == c.images && r.1.tags == c.tags && r.1.links == c.links
  {
    if GetCategoryByName(c, data.name).Some? then (Failure(BadRequest), c)
    else
      var (res, c') := CreateCategory(c, data, newId);
      assert res.Success?;
      (res, c')
  }

  /** Creating through the endpoint keeps a valid catalog valid. */
  lemma CreateCategoryRouteKeepsValid(c: Catalog, data: Category, newId: CategoryId)
    requires Valid(c) && newId !in c.categories
    ensures Valid(CreateCategoryRoute(c, data, newId).1)
  {
    CreateCategoryKeepsValid(c, data, newId);
  }

  /** `read_category_with_images`: 404 for a missing category. */
  function ReadCategory(c: Catalog, order: seq<ImageId>, id: CategoryId): (r: Result<CategoryWithImages, Status>)
    requires IsScanOrder(c, order)
    ensures r.Failure? <==> id !in c.categories
    ensures r.Failure? ==> r.error == NotFound
    ensures r.Success? ==>
      && r.value.category == c.categories[id]
      && forall i :: i in r.value.images <==> i in c.images && c.images[i].categoryId == id
  {
    match GetCategoryWithImages(c, order, id)
    case None => Failure(NotFound)
    case Some(v) => Success(v)
  }

  /** The name check of `update_category`: a new name, different from the
      current one, that the lookup finds on another category. */
  predicate RenameClashes(c: Catalog, id: CategoryId, name: Field<string>)
    requires id in c.categories
  {
    && name.SetTo? && name.value != c.categories[id].name
    && GetCategoryByName(c, name.value).Some? && GetCategoryByName(c, name.value).value != id
  }

  /** `update_category`: 404 for a missing category; 400 when the new name
      belongs to another category; otherwise the partial update. */
  function UpdateCategoryRoute(c: Catalog, id: CategoryId, upd: CategoryUpdate): (r: (Result<Category, Status>, Catalog))
    ensures id !in c.categories ==> r == (Failure(NotFound), c)
    ensures r.0.Failure? ==> r.1 == c
    ensures id in c.categories && RenameClashes(c, id, upd.name) ==> r == (Failure(BadRequest), c)
    ensures id in c.categories && !RenameClashes(c, id, upd.name) ==> r == UpdateCategory(c, id, upd)
  {
    if id !in c.categories then (Failure(NotFound), c)
    else if RenameClashes(c, id, upd.name) then (Failure(BadRequest), c)
    else UpdateCategory(c, id, upd)
  }

  /** In a valid catalog the endpoint's check is exactly a clash with
      another category's name, keeping the current name is always allowed,
      and whatever passes the check cannot fail in the data layer. */
  lemma UpdateCategoryRouteExact(c: Catalog, id: CategoryId, upd: CategoryUpdate)
    requires Valid(c) && id in c.categories
    ensures UpdateCategoryRoute(c, id, upd).0 == Failure(BadRequest) <==>
      upd.name.SetTo? && exists k :: k in c.categories && k != id && c.categories[k].name == upd.name.value
    ensures upd.name == SetTo(c.categories[id].name) ==> UpdateCategoryRoute(c, id, upd).0.Success?
    ensures UpdateCategoryRoute(c, id, upd).0 != Failure(InternalError)
  {
    if upd.name.SetTo? {
      if k :| k in c.categories && k != id && c.categories[k].name == upd.name.value {
        assert upd.name.value != c.categories[id].name;
        var j := GetCategoryByName(c, upd.name.value).value;
        assert c.categories[j].name == upd.name.value;
      }
    }
  }

  /** Updating through the endpoint keeps a valid catalog valid. */
  lemma UpdateCategoryRouteKeepsValid(c: Catalog, id: CategoryId, upd: CategoryUpdate)
    requires Valid(c)
    ensures Valid(UpdateCategoryRoute(c, id, upd).1)
  {
    if id in c.categories {
      UpdateCategoryKeepsValid(c, id, upd);
    }
  }

  /** `get_images_in_category`: 404 for a missing category, otherwise a
      page of its images. */
  function ListCategoryImages(c: Catalog, order: seq<ImageId>, id: CategoryId, skip: int, limit: int)
    : (r: Result<seq<ImageId>, Status>)
    requires IsScanOrder(c, order)
    ensures r.Failure? <==> id !in c.categories
    ensures r.Failure? ==> r.error == NotFound
    ensures r.Success? ==> forall i :: i in r.value ==> i in ImagesOf(c, id)
    ensures r.Success? ==> forall j, k :: 0 <= j < k < |r.value| ==> r.value[j] != r.value[k]
    ensures r.Success? && limit >= 0 ==> |r.value| <= limit
    ensures r.Success? && skip <= 0 && (limit < 0 || |ImagesOf(c, id)| <= limit) ==>
      forall i :: i in r.value <==> i in ImagesOf(c, id)
    ensures r.Success? && skip <= 0 && 0 <= limit <= |ImagesOf(c, id)| ==> |r.value| == limit
  {
    if id !in c.categories then Failure(NotFound)
    else Success(GetImagesByCategoryId(c, order, id, skip, limit))
  }

  /** `delete_category`: 404 for a missing category, with nothing changed;
      otherwise the cascade of the data layer: the files of every member
      image are deleted (a failing delete is ignored), and a committed
      cascade removes the category, its images and their links, and the
      tags no remaining link uses. */
  method DeleteCategoryRoute(c: Catalog, disk: Disk, roots: StorageRoots, id: CategoryId, failing: set<Path>, commitOk: bool)
    returns (r: Result<(), Status>, c': Catalog, disk': Disk)
    ensures id !in c.categories ==> r == Failure(NotFound) && c' == c && disk' == disk
    ensures id in c.categories && commitOk ==>
      && r.Success?
      && id !in c'.categories
      && (forall i :: i in c'.images ==> c'.images[i].categoryId != id)
      && (forall i :: i in c.images && c.images[i].categoryId != id ==> i in c'.images)
    ensures id in c.categories && !commitOk ==> r == Failure(InternalError) && c' == c
    ensures id in c.categories ==> BlobsRemoved(c, roots, ImagesOf(c, id), failing, disk, disk')
    ensures id in c.categories && commitOk ==> c' == AfterCascade(c, id)
  {
    if id !in c.categories {
      return Failure(NotFound), c, disk;
    }
    var res;
    res, c', disk' := DeleteCategory(c, disk, roots, id, failing, commitOk);
    if res.Failure? {
      r := Failure(res.error);
    } else {
      r := Success(());
    }
  }
}

=== FILE: category_crud.dfy ===
/** Category operations (`app/crud/category_crud.py`): creation, exact-name
    lookup, partial update, the with-images view, and the cascading delete
    that removes the member images with their blobs, the category, and the
    tags the deletion leaves unused, all in one commit. */
module CategoryCrud {
  import opened Wrappers
  import opened Paths
  import opened Http
  import opened Config
  import opened FileStorage
  import opened Catalog
  import opened Paging
  import opened ImageCrud

  /** `get_category_by_name`: exact, case-sensitive equality, first row. */
  function GetCategoryByName(c: Catalog, name: string): (r: Option<CategoryId>)
    ensures r.None? <==> forall k :: k in c.categories ==> c.categories[k].name != name
    ensures r.Some? ==> r.value in c.categories && c.categories[r.value].name == name
  {
    var named := set k | k in c.categories && c.categories[k].name == name;
    assert forall k :: k in c.categories && c.categories[k].name == name ==> k in named;
    FirstCategory(named)
  }

  /** In a valid catalog every category is found under its own name. */
  lemma GetCategoryByNameFinds(c: Catalog, k: CategoryId)
    requires Valid(c) && k in c.categories
    ensures GetCategoryByName(c, c.categories[k].name) == Some(k)
  {
  }

  /** `create_category`: the row is inserted as given; a name already in
      the table violates its unique index (an integrity error, 500). */
  function CreateCategory(c: Catalog, data: Category, newId: CategoryId): (r: (Result<CategoryId, Status>, Catalog))
    requires newId !in c.categories
    ensures r.0.Failure? <==> exists k :: k in c.categories && c.categories[k].name == data.name
    ensures r.0.Failure? ==> r.0.error == InternalError && r.1 == c
    ensures r.0.Success? ==>
      && r.0.value == newId
      && r.1.categories.Keys == c.categories.Keys + {newId}
      && r.1.categories[newId] == data
      && (forall k :: k in c.categories ==> r.1.categories[k] == c.categories[k])
      && r.1.images == c.images && r.1.tags == c.tags && r.1.links == c.links
  {
    if GetCategoryByName(c, data.name).Some? then (Failure(InternalError), c)
    else (Success(newId), c.(categories := c.categories[newId := data]))
  }

  lemma CreateCategoryKeepsValid(c: Catalog, data: Category, newId: CategoryId)
    requires Valid(c) && newId !in c.categories
    ensures Valid(CreateCategory(c, data, newId).1)
  {
  }

  /** `CategoryUpdate` as a partial payload: the fields that were sent. */
  datatype CategoryUpdate = CategoryUpdate(name: Field<string>, description: Field<Option<string>>)

  /** `update_category`: only the fields that were sent are written; a name
      held by another category violates the unique index (500) and nothing
      changes. */
  function UpdateCategory(c: Catalog, id: CategoryId, upd: CategoryUpdate): (r: (Result<Category, Status>, Catalog))
    requires id in c.categories
    ensures r.0.Failure? <==>
      upd.name.SetTo? && exists k :: k in c.categories && k != id && c.categories[k].name == upd.name.value
    ensures r.0.Failure? ==> r.0.error == InternalError && r.1 == c
    ensures r.0.Success? ==>
      && r.0.value.name == upd.name.ApplyTo(c.categories[id].name)
      && r.0.value.description == upd.description.ApplyTo(c.categories[id].description)
      && r.1 == c.(categories := c.categories[id := r.0.value])
  {
    if upd.name.SetTo? && exists k :: k in c.categories && k != id && c.categories[k].name == upd.name.value
    then (Failure(InternalError), c)
    else
      var cat := Category(upd.name.ApplyTo(c.categories[id].name), upd.description.ApplyTo(c.categories[id].description));
      (Success(cat), c.(categories := c.categories[id := cat]))
  }

  lemma UpdateCategoryKeepsValid(c: Catalog, id: CategoryId, upd: CategoryUpdate)
    requires Valid(c) && id in c.categories
    ensures Valid(UpdateCategory(c, id, upd).1)
  {
  }

  /** A listing of the category table in the order a query scans it:
      every row exactly once. */
  predicate IsCategoryScanOrder(c: Catalog, order: seq<CategoryId>) {
    && (forall k :: k in order ==> k in c.categories)
    && (forall k :: k in c.categories ==> k in order)
    && (forall j, k :: 0 <= j < k < |order| ==> order[j] != order[k])
  }

  /** `get_all_categories`: the table, paged. */
  function GetAllCategories(c: Catalog, order: seq<CategoryId>, skip: int, limit: int): (r: seq<CategoryId>)
    requires IsCategoryScanOrder(c, order)
    ensures forall k :: k in r ==> k in c.categories
    ensures limit >= 0 ==> |r| <= limit
    ensures forall j, k :: 0 <= j < k < |r| ==> r[j] != r[k]
    ensures skip <= 0 && limit < 0 ==> forall k :: k in r <==> k in c.categories
  {
    PageOfDistinct(order, skip, limit);
    Page(order, skip, limit)
  }

  /** `CategoryReadWithImages`: the category with its member images. */
  datatype CategoryWithImages = CategoryWithImages(id: CategoryId, category: Category, images: seq<ImageId>)

  /** `get_category_with_images_by_id`: none for an absent id; otherwise
      the category with all its images, an empty list when it has none. */
  function GetCategoryWithImages(c: Catalog, order: seq<ImageId>, id: CategoryId): (r: Option<CategoryWithImages>)
    requires IsScanOrder(c, order)
    ensures r.None? <==> id !in c.categories
    ensures r.Some? ==>
      && r.value.id == id && r.value.category == c.categories[id]
      && (forall i :: i in r.value.images <==> i in ImagesOf(c, id))
      && (r.value.images == [] <==> ImagesOf(c, id) == {})
  {
    if id !in c.categories then None
    else
      var members := Where(order, (i: ImageId) => i in c.images && c.images[i].categoryId == id);
      assert members == [] ==> ImagesOf(c, id) == {};
      assert members != [] ==> members[0] in ImagesOf(c, id);
      Some(CategoryWithImages(id, c.categories[id], members))
  }

  // ---------------------------------------------------------------------
  // Cascading delete

  /** The candidate tags of a set of images: every tag linked to one of them. */
  function TagsOfImages(c: Catalog, s: set<ImageId>): (r: set<TagId>)
    ensures forall t :: t in r <==> exists i :: i in s && Link(i, t) in c.links
  {
    var r := set l | l in c.links && l.image in s :: l.tag;
    assert forall i, t :: i in s && Link(i, t) in c.links ==> t in r;
    r
  }

  /** The path is a blob of one of the images in `s`. */
  ghost predicate InBlobs(c: Catalog, roots: StorageRoots, s: set<ImageId>, p: Path) {
    exists i :: i in s && i in c.images && p in BlobPaths(roots, c.images[i])
  }

  /** `d` is `disk` after deleting every blob of the images in `s`: each
      blob is gone unless its removal fails, and nothing else changes. */
  ghost predicate BlobsRemoved(c: Catalog, roots: StorageRoots, s: set<ImageId>, failing: set<Path>, disk: Disk, d: Disk) {
    && (forall p :: InBlobs(c, roots, s, p) && p !in failing ==> p !in d)
    && (forall p :: !InBlobs(c, roots, s, p) || p in failing ==> (p in d <==> p in disk) && (p in d ==> d[p] == disk[p]))
  }

  /** The catalog the cascade commits: the member images and their
      association rows gone, the category gone, and every candidate tag
      that no remaining association row references gone. */
  function AfterCascade(c: Catalog, id: CategoryId): (d: Catalog)
    ensures d.categories.Keys == c.categories.Keys - {id}
    ensures forall k :: k in d.categories ==> d.categories[k] == c.categories[k]
    ensures forall i :: i in d.images <==> i in c.images && c.images[i].categoryId != id
    ensures forall i :: i in d.images ==> d.images[i] == c.images[i] && d.images[i].categoryId != id
    ensures forall l :: l in d.links <==> l in c.links && l.image !in ImagesOf(c, id)
    ensures forall t :: t in c.tags && t !in TagsOfImages(c, ImagesOf(c, id)) ==> t in d.tags && d.tags[t] == c.tags[t]
    ensures forall t :: t in TagsOfImages(c, ImagesOf(c, id)) && t in c.tags ==> (t in d.tags <==> IsLinked(d, t))
    ensures d.tags.Keys <= c.tags.Keys && forall t :: t in d.tags ==> d.tags[t] == c.tags[t]
  {
    var members := ImagesOf(c, id);
    var links := set l | l in c.links && l.image !in members;
    var candidates := TagsOfImages(c, members);
    var images := map i | i in c.images && i !in members :: c.images[i];
    var tags := map t | t in c.tags && !(t in candidates && !(exists l :: l in links && l.tag == t)) :: c.tags[t];
    Catalog(c.categories - {id}, images, tags, links)
  }

  /** The committed catalog is valid again. */
  lemma AfterCascadeKeepsValid(c: Catalog, id: CategoryId)
    requires Valid(c)
    ensures Valid(AfterCascade(c, id))
  {
    var d := AfterCascade(c, id);
    forall i | i in d.images
      ensures d.images[i].categoryId in d.categories
    {
      assert d.images[i].categoryId in c.categories.Keys - {id};
    }
    forall l | l in d.links
      ensures l.image in d.images && l.tag in d.tags
    {
      assert l.image !in ImagesOf(c, id);
      if l.tag in TagsOfImages(c, ImagesOf(c, id)) {
        assert IsLinked(d, l.tag);
      }
    }
    ValidSubCatalog(c, d);
  }

  lemma InBlobsAdd(c: Catalog, roots: StorageRoots, s: set<ImageId>, i: ImageId, p: Path)
    requires i in c.images
    ensures InBlobs(c, roots, s + {i}, p) <==> InBlobs(c, roots, s, p) || p in BlobPaths(roots, c.images[i])
  {
    if p in BlobPaths(roots, c.images[i]) {
      assert i in s + {i};
    }
    if InBlobs(c, roots, s + {i}, p) {
      var j :| j in s + {i} && j in c.images && p in BlobPaths(roots, c.images[j]);
      if j != i {
        assert j in s;
      }
    }
  }

  /** The candidate tags of the member images, collected one image at a
      time without repeats. */
  method CollectCandidates(c: Catalog, members: set<ImageId>) returns (candidates: set<TagId>)
    ensures candidates == TagsOfImages(c, members)
  {
    candidates := {};
    var pending := members;
    while pending != {}
      invariant pending <= members
      invariant candidates == TagsOfImages(c, members - pending)
      decreases |pending|
    {
      var i :| i in pending;
      candidates := candidates + TagsOf(c, i);
      pending := pending - {i};
      assert members - pending == (members - pending - {i}) + {i};
    }
    assert members - pending == members;
  }

  /** The catalog without the given image rows and their association rows. */
  function WithoutImages(c: Catalog, s: set<ImageId>): (d: Catalog)
    ensures forall i :: i in d.images <==> i in c.images && i !in s
    ensures forall i :: i in d.images ==> d.images[i] == c.images[i]
    ensures forall l :: l in d.links <==> l in c.links && l.image !in s
    ensures d.categories == c.categories && d.tags == c.tags
  {
    c.(images := map i | i in c.images && i !in s :: c.images[i], links := set l | l in c.links && l.image !in s)
  }

  /** Before any image is handled, no blob has been removed. */
  lemma BlobsRemovedNone(c: Catalog, roots: StorageRoots, failing: set<Path>, disk: Disk)
    ensures BlobsRemoved(c, roots, {}, failing, disk, disk)
  {
  }

  /** Deleting one more image's blobs extends the removal to it. */
  lemma BlobsRemovedStep(c: Catalog, roots: StorageRoots, s: set<ImageId>, i: ImageId, failing: set<Path>, disk: Disk, d: Disk)
    requires i in c.images
    requires BlobsRemoved(c, roots, s, failing, disk, d)
    ensures BlobsRemoved(c, roots, s + {i}, failing, disk, DeleteAll(d, BlobPaths(roots, c.images[i]), failing))
  {
    forall p {
      InBlobsAdd(c, roots, s, i, p);
    }
  }

  /** Removing no image leaves the catalog as it is. */
  lemma WithoutNoImages(c: Catalog)
    ensures WithoutImages(c, {}) == c
  {
  }

  /** Removing one more image row and its association rows. */
  lemma WithoutImagesStep(c: Catalog, s: set<ImageId>, i: ImageId)
    ensures WithoutImage(WithoutImages(c, s), i) == WithoutImages(c, s + {i})
  {
  }

  /** Deleting the member images one at a time: first each one's blobs,
      then its row with its association rows. */
  method DeleteMembers(c: Catalog, disk: Disk, roots: StorageRoots, members: set<ImageId>, failing: set<Path>)
    returns (work: Catalog, d: Disk)
    requires members <= c.images.Keys
    ensures work == WithoutImages(c, members)
    ensures BlobsRemoved(c, roots, members, failing, disk, d)
  {
    work := c;
    d := disk;
    var done: set<ImageId> := {};
    WithoutNoImages(c);
    BlobsRemovedNone(c, roots, failing, disk);
    while done != members
      invariant done <= members
      invariant work == WithoutImages(c, done)
      invariant BlobsRemoved(c, roots, done, failing, disk, d)
      decreases |members - done|
    {
      var i :| i in members - done;
      BlobsRemovedStep(c, roots, done, i, failing, disk, d);
      WithoutImagesStep(c, done, i);
      d := DeleteAll(d, BlobPaths(roots, c.images[i]), failing);
      work := WithoutImage(work, i);
      assert members - (done + {i}) < members - done;
      done := done + {i};
    }
  }

  /** The tag table after sweeping the candidates that no association row
      in `links` references. */
  function SweptTags(tags: map<TagId, Tag>, candidates: set<TagId>, links: set<Link>): map<TagId, Tag> {
    map t | t in tags && !(t in candidates && !(exists l :: l in links && l.tag == t)) :: tags[t]
  }

  /** Checking the candidates one at a time and deleting the unreferenced ones. */
  method SweepTags(work: Catalog, candidates: set<TagId>) returns (swept: Catalog)
    ensures swept == work.(tags := SweptTags(work.tags, candidates, work.links))
  {
    swept := work;
    var toCheck := candidates;
    while toCheck != {}
      invariant toCheck <= candidates
      invariant swept == work.(tags := SweptTags(work.tags, candidates - toCheck, work.links))
      decreases |toCheck|
    {
      var t :| t in toCheck;
      if !exists l :: l in swept.links && l.tag == t {
        swept := swept.(tags := swept.tags - {t});
      }
      toCheck := toCheck - {t};
      assert swept.tags == SweptTags(work.tags, candidates - toCheck, work.links);
    }
    assert candidates - toCheck == candidates;
  }

  /** `delete_category` with the commit's outcome as a parameter. An
      absent id gives none and changes nothing. Otherwise the blobs of
      every member image are deleted (failures ignored), then the rows are
      removed and the orphaned candidate tags swept; if the commit fails
      the catalog is rolled back, but deleted blobs stay deleted. */
  method DeleteCategory(c: Catalog, disk: Disk, roots: StorageRoots, id: CategoryId, failing: set<Path>, commitOk: bool)
    returns (r: Result<Option<Category>, Status>, c': Catalog, disk': Disk)
    ensures id !in c.categories ==> r == Success(None) && c' == c && disk' == disk
    ensures id in c.categories && commitOk ==> r == Success(Some(c.categories[id])) && c' == AfterCascade(c, id)
    ensures id in c.categories && !commitOk ==> r == Failure(InternalError) && c' == c
    ensures id in c.categories ==> BlobsRemoved(c, roots, ImagesOf(c, id), failing, disk, disk')
  {
    if id !in c.categories {
      return Success(None), c, disk;
    }
    var members := ImagesOf(c, id);
    var candidates := CollectCandidates(c, members);
    var work, d := DeleteMembers(c, disk, roots, members, failing);
    work := work.(categories := work.categories - {id});
    work := SweepTags(work, candidates);
    assert work == AfterCascade(c, id);
    if commitOk {
      return Success(Some(c.categories[id])), work, d;
    } else {
      return Failure(InternalError), c, d;
    }
  }
}

=== FILE: category_store.dfy ===
/** The category store of the frontend (`src/store/categoryStore.ts`):
    each action is a transition from the state before the awaited API
    call to the state once it has settled, given the call's outcome. The
    transient `isLoading = true` while the call is pending is not a state
    of the model. */
module CategoryStore {
  import opened Wrappers
  import opened StoreCommon

  /** `CategoryRead`: the fields the store looks at, plus the rest. */
  datatype Category = Category(id: string, name: string, description: Option<string>, imageCount: int)

  function CategoryId(c: Category): string {
    c.id
  }

  type CategoryState = ListState<Category>

  /** The store as `state()` creates it. */
  const Initial: CategoryState := ListState([], None, false, None, None)

  const FetchListFailed: string := "获取分类列表失败"
  const CreateFailed: string := "创建分类失败"

  function DetailsFailed(id: string): string {
    "获取分类 " + id + " 详情失败"
  }

  function UpdateFailed(id: string): string {
    "更新分类 " + id + " 失败"
  }

  function DeleteFailed(id: string): string {
    "删除分类 " + id + " 失败"
  }

  /** `getCategoryNameById`: the name of the first category with the id,
      or `undefined` (`None`) when the list has none. */
  function CategoryNameById(s: CategoryState, id: string): (name: Option<string>)
    ensures name.None? <==> forall j :: 0 <= j < |s.items| ==> s.items[j].id != id
    ensures name.Some? ==> exists k :: 0 <= k < |s.items| && s.items[k].id == id && s.items[k].name == name.value &&
                             forall j :: 0 <= j < k ==> s.items[j].id != id
  {
    match FindById(s.items, id, CategoryId)
    case None => None
    case Some(c) => Some(c.name)
  }

  /** `fetchCategories`: on success the list is replaced by the page the
      API returned; on failure it is kept. */
  function FetchCategories(s: CategoryState, result: ApiResult<seq<Category>>): (r: CategoryState)
    ensures Reports(r, result, FetchListFailed)
    ensures result.Ok? ==> r.items == result.value
    ensures result.Err? ==> r.items == s.items
    ensures r.current == s.current
  {
    var settled := Settle(s, result, FetchListFailed);
    if result.Ok? then settled.(items := result.value) else settled
  }

  /** `fetchCategoryDetails`: the current category is cleared before the
      call, so a failure leaves none. */
  function FetchCategoryDetails(s: CategoryState, id: string, result: ApiResult<Category>): (r: CategoryState)
    ensures Reports(r, result, DetailsFailed(id))
    ensures r.items == s.items
    ensures result.Ok? ==> r.current == Some(result.value)
    ensures result.Err? ==> r.current.None?
  {
    var settled := Settle(s.(current := None), result, DetailsFailed(id));
    if result.Ok? then settled.(current := Some(result.value)) else settled
  }

  /** `addCategory`: the created category is appended; a failure keeps the
      list and is rethrown to the caller. */
  function AddCategory(s: CategoryState, result: ApiResult<Category>): (r: CategoryState)
    ensures Reports(r, result, CreateFailed)
    ensures result.Ok? ==> |r.items| == |s.items| + 1 && r.items[..|s.items|] == s.items && r.items[|s.items|] == result.value
    ensures result.Err? ==> r.items == s.items
    ensures r.current == s.current
  {
    var settled := Settle(s, result, CreateFailed);
    if result.Ok? then settled.(items := s.items + [result.value]) else settled
  }

  /** `editCategory`: the first category with the id is replaced by the
      updated one, and so is the current category when its id matches. */
  function EditCategory(s: CategoryState, id: string, result: ApiResult<Category>): (r: CategoryState)
    ensures Reports(r, result, UpdateFailed(id))
    ensures result.Ok? ==> r.items == ReplaceFirst(s.items, id, result.value, CategoryId)
    ensures result.Err? ==> r.items == s.items
    ensures result.Ok? && s.current.Some? && s.current.value.id == id ==> r.current == Some(result.value)
    ensures !(result.Ok? && s.current.Some? && s.current.value.id == id) ==> r.current == s.current
  {
    var settled := Settle(s, result, UpdateFailed(id));
    match result
    case Err(_) => settled
    case Ok(updated) =>
      var current := if s.current.Some? && s.current.value.id == id then Some(updated) else s.current;
      settled.(items := ReplaceFirst(s.items, id, updated, CategoryId), current := current)
  }

  /** `removeCategory`: every category with the id is dropped, and the
      current category is cleared when its id matches. */
  function RemoveCategory(s: CategoryState, id: string, result: ApiResult<()>): (r: CategoryState)
    ensures Reports(r, result, DeleteFailed(id))
    ensures result.Ok? ==> r.items == RemoveAll(s.items, id, CategoryId)
    ensures result.Err? ==> r.items == s.items
    ensures result.Ok? && s.current.Some? && s.current.value.id == id ==> r.current.None?
    ensures !(result.Ok? && s.current.Some? && s.current.value.id == id) ==> r.current == s.current
  {
    var settled := Settle(s, result, DeleteFailed(id));
    if result.Err? then settled
    else
      var current := if s.current.Some? && s.current.value.id == id then None else s.current;
      settled.(items := RemoveAll(s.items, id, CategoryId), current := current)
  }

  /** `clearValidationErrors`: only the validation errors are cleared. */
  function ClearValidationErrors(s: CategoryState): (r: CategoryState)
    ensures r.validationErrors.None?
    ensures r.items == s.items && r.current == s.current && r.isLoading == s.isLoading && r.error == s.error
  {
    s.(validationErrors := None)
  }

  /** `clearError`: only the error is cleared. */
  function ClearError(s: CategoryState): (r: CategoryState)
    ensures r.error.None?
    ensures r.items == s.items && r.current == s.current && r.isLoading == s.isLoading
    ensures r.validationErrors == s.validationErrors
  {
    s.(error := None)
  }

  /** A category created with an id the list does not hold yet can be
      looked up by that id right away. */
  lemma AddThenName(s: CategoryState, c: Category)
    requires forall j :: 0 <= j < |s.items| ==> s.items[j].id != c.id
    ensures CategoryNameById(AddCategory(s, Ok(c)), c.id) == Some(c.name)
  {
    var after := AddCategory(s, Ok(c));
    var k :| 0 <= k < |after.items| && after.items[k].id == c.id &&
             after.items[k].name == CategoryNameById(after, c.id).value &&
             forall j :: 0 <= j < k ==> after.items[j].id != c.id;
  }

  /** After a successful edit of a listed category, looking its id up
      gives the new name. */
  lemma EditThenName(s: CategoryState, id: string, updated: Category)
    requires updated.id == id
    requires exists j :: 0 <= j < |s.items| && s.items[j].id == id
    ensures CategoryNameById(EditCategory(s, id, Ok(updated)), id) == Some(updated.name)
  {
    var k := FindIndex(s.items, id, CategoryId).value;
    ReplaceFirstOnlyFirst(s.items, id, updated, CategoryId, k);
    var after := EditCategory(s, id, Ok(updated));
    assert after.items[k] == updated;
    var m :| 0 <= m < |after.items| && after.items[m].id == id &&
             after.items[m].name == CategoryNameById(after, id).value &&
             forall j :: 0 <= j < m ==> after.items[j].id != id;
  }

  /** After a successful removal the id is no longer found. */
  lemma RemoveThenName(s: CategoryState, id: string)
    ensures CategoryNameById(RemoveCategory(s, id, Ok(())), id).None?
  {
  }

  /** Every action keeps the ids of the list unique, provided a fetched
      page has unique ids, an edit returns the category it was asked to
      edit and a created category has a new id. */
  lemma ActionsKeepUniqueIds(s: CategoryState, id: string, page: seq<Category>, c: Category)
    requires UniqueIds(s.items, CategoryId) && UniqueIds(page, CategoryId)
    requires forall j :: 0 <= j < |s.items| ==> s.items[j].id != c.id
    ensures UniqueIds(FetchCategories(s, Ok(page)).items, CategoryId)
    ensures UniqueIds(AddCategory(s, Ok(c)).items, CategoryId)
    ensures UniqueIds(EditCategory(s, c.id, Ok(c)).items, CategoryId)
    ensures UniqueIds(RemoveCategory(s, id, Ok(())).items, CategoryId)
  {
    ReplaceFirstKeepsUnique(s.items, c.id, c, CategoryId);
    RemoveAllKeepsUnique(s.items, id, CategoryId);
    var added := AddCategory(s, Ok(c)).items;
    forall i, j | 0 <= i < j < |added|
      ensures added[i].id != added[j].id
    {
      if j < |s.items| {
        assert added[i] == s.items[i] && added[j] == s.items[j];
      } else {
        assert added[i] == s.items[i];
      }
    }
  }
}

=== FILE: config.dfy ===
/** Upload, thumbnail and CORS settings of the backend (`app/core/config.py`). */
module Config {
  import opened Wrappers
  import opened Text
  import opened Paths

  const AllowedMimeTypes: seq<string> := ["image/jpeg", "image/png", "image/gif"]

  /** 10 MiB. */
  const MaxImageSize: nat := 10 * 1024 * 1024

  const ThumbnailMaxWidth: nat := 256
  const ThumbnailMaxHeight: nat := 256
  const ThumbnailQuality: nat := 85

  function IsAllowedMimeType(contentType: string): (allowed: bool)
    ensures allowed <==> contentType == "image/jpeg" || contentType == "image/png" || contentType == "image/gif"
  {
    contentType in AllowedMimeTypes
  }

  /** The size check of an upload: the limit itself is still accepted. */
  function WithinSizeLimit(size: nat): (ok: bool)
    ensures ok <==> size <= 10485760
  {
    !(size > MaxImageSize)
  }

  /** The two blob roots: `<static>/uploads/images` and `<static>/uploads/thumbnails`. */
  datatype StorageRoots = StorageRoots(images: Path, thumbnails: Path)

  predicate IsPrefix(a: Path, b: Path) {
    |a| <= |b| && b[..|a|] == a
  }

  function DefaultRoots(staticDir: Path): (roots: StorageRoots)
    ensures !IsPrefix(roots.images, roots.thumbnails) && !IsPrefix(roots.thumbnails, roots.images)
  {
    var r := StorageRoots(staticDir + ["uploads", "images"], staticDir + ["uploads", "thumbnails"]);
    assert r.images[|staticDir| + 1] == "images";
    assert r.thumbnails[|staticDir| + 1] == "thumbnails";
    r
  }

  /** The raw value handed to the `backend_cors_origins` validator. */
  datatype RawOrigins = OriginList(items: seq<string>) | NotAList

  function StripAll(parts: seq<string>): (r: seq<string>)
    ensures |r| == |parts|
    ensures forall i :: 0 <= i < |parts| ==> r[i] == Strip(parts[i])
  {
    if |parts| == 0 then [] else [Strip(parts[0])] + StripAll(parts[1..])
  }

  predicate Unpadded(o: string) {
    o == [] || (!IsSpace(o[0]) && !IsSpace(o[|o| - 1]))
  }

  lemma {:induction false} StripAllClean(parts: seq<string>, c: char)
    requires forall p :: p in parts ==> c !in p
    ensures forall o :: o in StripAll(parts) ==> c !in o && Unpadded(o)
  {
    if |parts| > 0 {
      assert parts[0] in parts;
      assert forall p :: p in parts[1..] ==> p in parts;
      StripAllClean(parts[1..], c);
      assert StripAll(parts) == [Strip(parts[0])] + StripAll(parts[1..]);
    }
  }

  /** The `assemble_cors_origins` validator: a non-empty list wins; otherwise
      the comma-separated origins string is split and each piece stripped;
      otherwise there are no origins. */
  function AssembleCorsOrigins(v: RawOrigins, originsStr: Option<string>): (r: seq<string>)
    ensures v.OriginList? && |v.items| > 0 ==> r == v.items
    ensures !(v.OriginList? && |v.items| > 0) && originsStr.Some? ==>
      && |r| == CountChar(originsStr.value, ',') + 1
      && forall o :: o in r ==> ',' !in o && Unpadded(o)
    ensures !(v.OriginList? && |v.items| > 0) && originsStr.None? ==> r == []
  {
    if v.OriginList? && |v.items| > 0 then v.items
    else if originsStr.Some? then
      SplitCharCount(originsStr.value, ',');
      StripAllClean(Split(originsStr.value, ","), ',');
      StripAll(Split(originsStr.value, ","))
    else []
  }

  lemma {:induction false} StripAllFixed(parts: seq<string>)
    requires forall p :: p in parts ==> Strip(p) == p
    ensures StripAll(parts) == parts
  {
    if |parts| > 0 {
      assert parts[0] in parts;
      assert forall p :: p in parts[1..] ==> p in parts;
      StripAllFixed(parts[1..]);
    }
  }

  /** When no origin in the string carries surrounding whitespace, joining
      the assembled list with commas gives the string back. */
  lemma CorsOriginsRoundTrip(s: string)
    requires forall p :: p in Split(s, ",") ==> Strip(p) == p
    ensures Join(AssembleCorsOrigins(NotAList, Some(s)), ",") == s
  {
    var parts := Split(s, ",");
    var r := AssembleCorsOrigins(NotAList, Some(s));
    assert r == StripAll(parts);
    StripAllFixed(parts);
    assert r == parts;
    JoinSplit(s, ",");
  }
}

=== FILE: db2folder.dfy ===
/** The folder export script (`scripts/folder2db/db2folder.py`): every
    category of the catalog becomes a folder under an output directory,
    and its images are downloaded into it under names derived from the
    image records. The backend is abstract: listings are given, and each
    download succeeds or fails. */
module Db2Folder {
  import opened Wrappers
  import opened Text
  import opened Paging
  import opened FileUtils

  /** A category as the listing endpoint returns it. */
  datatype CategoryInfo = CategoryInfo(id: string, name: string)

  /** An image as the category endpoint returns it; `id` is the text of
      its identifier, and `imageUrl` is `None` when the record has no
      `image_url` field. */
  datatype ImageInfo = ImageInfo(id: string, imageUrl: Option<string>, originalFilename: Option<string>, title: Option<string>)

  /** A Python string value that is truthy: present and non-empty. */
  predicate Truthy(s: Option<string>) {
    s.Some? && s.value != ""
  }

  /** `DEFAULT_LIMIT`: the page size asked of the category listing. */
  const DefaultLimit: nat := 100

  /** The name an image is saved under: the original file name when there
      is one, else the title with `.jpg`, else the id with `.jpg`; the
      choice is then sanitised. */
  function ExportFilename(img: ImageInfo): (name: string)
    ensures name != ""
    ensures Truthy(img.originalFilename) ==> name == SanitizeFilename(img.originalFilename.value)
    ensures !Truthy(img.originalFilename) && Truthy(img.title) ==> name == SanitizeFilename(img.title.value + ".jpg")
    ensures !Truthy(img.originalFilename) && !Truthy(img.title) ==> name == SanitizeFilename(img.id + ".jpg")
  {
    var chosen :=
      if Truthy(img.originalFilename) then img.originalFilename.value
      else if Truthy(img.title) then img.title.value + ".jpg"
      else img.id + ".jpg";
    SanitizeFilename(chosen)
  }

  /** A saved name never holds a character file names may not hold. */
  lemma ExportFilenameValid(img: ImageInfo)
    ensures forall i :: 0 <= i < |ExportFilename(img)| ==> !IsInvalidChar(ExportFilename(img)[i])
  {
    var chosen :=
      if Truthy(img.originalFilename) then img.originalFilename.value
      else if Truthy(img.title) then img.title.value + ".jpg"
      else img.id + ".jpg";
    SanitizeFilenameChars(chosen);
  }

  /** Without an original file name the saved name always ends in `.jpg`,
      whatever the title or id holds. */
  lemma ExportFilenameIsJpeg(img: ImageInfo)
    requires !Truthy(img.originalFilename)
    ensures EndsWith(ExportFilename(img), ".jpg")
  {
    SanitizeKeepsJpeg(if Truthy(img.title) then img.title.value else img.id);
  }

  lemma SanitizeKeepsJpeg(base: string)
    ensures EndsWith(SanitizeFilename(base + ".jpg"), ".jpg")
  {
    var chosen := base + ".jpg";
    var name := SanitizeFilename(chosen);
    var n := |base|;
    SanitizeFilenameChars(chosen);
    assert chosen[n] == '.' && chosen[n + 1] == 'j' && chosen[n + 2] == 'p' && chosen[n + 3] == 'g';
    assert !IsInvalidChar('.') && !IsInvalidChar('j') && !IsInvalidChar('p') && !IsInvalidChar('g');
    assert name[n] == '.' && name[n + 1] == 'j' && name[n + 2] == 'p' && name[n + 3] == 'g';
    assert name[|name| - 4..] == ".jpg";
  }

  /** The folder of a category: its name joined onto the output
      directory, which an absolute name replaces. */
  function CategoryDir(outputDir: string, category: CategoryInfo): (d: string)
    ensures StartsWith(category.name, "/") ==> d == category.name
    ensures !StartsWith(category.name, "/") ==> StartsWith(d, outputDir)
  {
    OsJoin(outputDir, category.name)
  }

  /** Where an image of a category is saved: its export name inside the
      category folder, so under the output directory only when the
      category name is relative. */
  function ExportPath(outputDir: string, category: CategoryInfo, img: ImageInfo): (p: string)
    ensures EndsWith(p, ExportFilename(img))
    ensures StartsWith(p, CategoryDir(outputDir, category))
    ensures StartsWith(category.name, "/") ==> StartsWith(p, category.name)
    ensures !StartsWith(category.name, "/") ==> StartsWith(p, outputDir)
  {
    var name := ExportFilename(img);
    ExportFilenamePlain(img);
    var dir := CategoryDir(outputDir, category);
    var p := OsJoin(dir, name);
    if StartsWith(category.name, "/") then p
    else
      StartsWithTrans(p, dir, outputDir);
      p
  }

  /** A saved name is a plain name: it holds no `/` and does not start
      with one. */
  lemma ExportFilenamePlain(img: ImageInfo)
    ensures '/' !in ExportFilename(img) && !StartsWith(ExportFilename(img), "/")
  {
    var name := ExportFilename(img);
    ExportFilenameValid(img);
    assert IsInvalidChar('/');
    if |name| > 0 {
      assert name[0] in name;
    }
  }

  /** The images of a category whose folder path does not end in `/` are
      saved directly in that folder. */
  lemma ExportPathParent(outputDir: string, category: CategoryInfo, img: ImageInfo)
    requires var d := CategoryDir(outputDir, category); d != "" && d[|d| - 1] != '/'
    ensures Dirname(ExportPath(outputDir, category, img)) == CategoryDir(outputDir, category)
  {
    ExportFilenamePlain(img);
    DirnameOfJoin(CategoryDir(outputDir, category), ExportFilename(img));
  }

  /** `open(path, "wb")` succeeds: the path is not a directory and its
      parent is one; a bare name's parent is the working directory. */
  predicate CanWrite(fs: Fs, path: string) {
    && !(path in fs && fs[path].Directory?)
    && var d := Dirname(path); d == "" || (d in fs && fs[d].Directory?)
  }

  /** `download_image`: with `skipExisting` an existing path counts as a
      success and nothing is fetched; otherwise the file is fetched and
      written, which fails when the fetch fails or the path cannot be
      opened for writing. Returns the success flag and the resulting
      disk. */
  function DownloadImage(fs: Fs, url: string, path: string, skipExisting: bool, fetch: string -> bool): (r: (bool, Fs))
    ensures skipExisting && path in fs ==> r == (true, fs)
    ensures !(skipExisting && path in fs) ==>
      (r.0 <==> fetch(url) && CanWrite(fs, path))
    ensures r.0 && !(skipExisting && path in fs) ==> path in r.1 && r.1[path] == RegularFile
    ensures !r.0 ==> r.1 == fs
    ensures r.1.Keys == fs.Keys || r.1.Keys == fs.Keys + {path}
    ensures forall q :: q in fs && q != path ==> r.1[q] == fs[q]
    ensures forall q :: (q in r.1 && r.1[q].Directory?) <==> (q in fs && fs[q].Directory?)
  {
    if skipExisting && path in fs then (true, fs)
    else if fetch(url) && CanWrite(fs, path) then (true, fs[path := RegularFile])
    else (false, fs)
  }

  /** Downloading again with `skipExisting` after a success fetches
      nothing and changes nothing. */
  lemma DownloadAgainSkips(fs: Fs, url: string, path: string, skipExisting: bool, fetch: string -> bool, fetch': string -> bool)
    requires DownloadImage(fs, url, path, skipExisting, fetch).0
    ensures var after := DownloadImage(fs, url, path, skipExisting, fetch).1;
      DownloadImage(after, url, path, true, fetch') == (true, after)
  {
  }

  /** Every image carries a URL. */
  predicate HasUrls(images: seq<ImageInfo>) {
    forall k :: 0 <= k < |images| ==> images[k].imageUrl.Some?
  }

  /** How many leading images carry a URL. The download loop reads
      `image["image_url"]` and raises `KeyError` at the first image
      without one. */
  function UrlPrefix(images: seq<ImageInfo>): (k: nat)
    ensures k <= |images|
    ensures HasUrls(images[..k])
    ensures k < |images| ==> images[k].imageUrl.None?
  {
    if |images| == 0 || images[0].imageUrl.None? then 0
    else
      var k := 1 + UrlPrefix(images[1..]);
      assert forall j :: 1 <= j < k ==> images[..k][j] == images[1..][..k - 1][j - 1];
      k
  }

  /** The images the loop reaches before it raises, if it does: all of
      them exactly when every one carries a URL. */
  function Reached(images: seq<ImageInfo>): (r: seq<ImageInfo>)
    ensures |r| <= |images| && HasUrls(r) && r == images[..|r|]
    ensures |r| == |images| <==> HasUrls(images)
  {
    images[..UrlPrefix(images)]
  }

  /** One download to perform: the image URL and the path it is saved to. */
  datatype Target = Target(url: string, path: string)

  /** The downloads of a category, one per listed image, in listing order. */
  function Targets(outputDir: string, category: CategoryInfo, images: seq<ImageInfo>): (ts: seq<Target>)
    requires HasUrls(images)
    ensures |ts| == |images|
    ensures forall k :: 0 <= k < |images| ==>
      ts[k] == Target(images[k].imageUrl.value, ExportPath(outputDir, category, images[k]))
  {
    seq(|images|, k requires 0 <= k < |images| => Target(images[k].imageUrl.value, ExportPath(outputDir, category, images[k])))
  }

  /** The number of downloads that succeed on their own merits against
      the disk `fs`: the fetch succeeds and the path can be written. */
  function Fetchable(fs: Fs, targets: seq<Target>, fetch: string -> bool): (n: nat)
    ensures n <= |targets|
  {
    if |targets| == 0 then 0
    else
      var last := targets[|targets| - 1];
      Fetchable(fs, targets[..|targets| - 1], fetch)
      + if fetch(last.url) && CanWrite(fs, last.path) then 1 else 0
  }

  /** The paths a run of downloads may write. */
  function TargetPaths(targets: seq<Target>): (paths: set<string>)
    ensures forall k :: 0 <= k < |targets| ==> targets[k].path in paths
  {
    if |targets| == 0 then {}
    else
      TargetPaths(targets[..|targets| - 1]) + {targets[|targets| - 1].path}
  }

  /** One more target extends the fetchable count and the path set by that target alone. */
  lemma TargetsSnoc(fs: Fs, targets: seq<Target>, i: nat, fetch: string -> bool)
    requires i < |targets|
    ensures Fetchable(fs, targets[..i + 1], fetch) == Fetchable(fs, targets[..i], fetch)
      + if fetch(targets[i].url) && CanWrite(fs, targets[i].path) then 1 else 0
    ensures TargetPaths(targets[..i + 1]) == TargetPaths(targets[..i]) + {targets[i].path}
  {
    assert targets[..i + 1][..i] == targets[..i];
  }

  /** `disk` is `fs` after writing files at some of `paths`: nothing is
      removed, only those paths are added or changed, and the directories
      are the same. */
  ghost predicate Framed(fs: Fs, disk: Fs, paths: set<string>) {
    && (forall q :: q in fs ==> q in disk)
    && (forall q :: q in disk && q !in fs ==> q in paths)
    && (forall q :: q in fs && q !in paths ==> disk[q] == fs[q])
    && (forall q :: (q in disk && disk[q].Directory?) <==> (q in fs && fs[q].Directory?))
  }

  /** One download keeps the frame, with its path added, and sees the same
      writable paths as the starting tree. */
  lemma DownloadFramed(fs: Fs, disk: Fs, paths: set<string>, url: string, path: string,
                       skipExisting: bool, fetch: string -> bool)
    requires Framed(fs, disk, paths)
    ensures Framed(fs, DownloadImage(disk, url, path, skipExisting, fetch).1, paths + {path})
    ensures CanWrite(disk, path) == CanWrite(fs, path)
  {
  }

  /** The download loop of `process_category`: every target is downloaded
      in turn and the successes are counted. Directories are never
      overwritten, so each success counted against the starting disk is a
      success here too; without `skipExisting` the two counts agree. */
  method DownloadAll(fs: Fs, targets: seq<Target>, skipExisting: bool, fetch: string -> bool)
    returns (success: nat, disk: Fs)
    ensures success <= |targets|
    ensures !skipExisting ==> success == Fetchable(fs, targets, fetch)
    ensures skipExisting ==> success >= Fetchable(fs, targets, fetch)
    ensures forall q :: q in fs ==> q in disk
    ensures forall q :: q in disk && q !in fs ==> q in TargetPaths(targets)
    ensures forall q :: q in fs && q !in TargetPaths(targets) ==> disk[q] == fs[q]
  {
    disk := fs;
    success := 0;
    for i := 0 to |targets|
      invariant success <= i
      invariant !skipExisting ==> success == Fetchable(fs, targets[..i], fetch)
      invariant skipExisting ==> success >= Fetchable(fs, targets[..i], fetch)
      invariant Framed(fs, disk, TargetPaths(targets[..i]))
    {
      var t := targets[i];
      TargetsSnoc(fs, targets, i, fetch);
      DownloadFramed(fs, disk, TargetPaths(targets[..i]), t.url, t.path, skipExisting, fetch);
      var result := DownloadImage(disk, t.url, t.path, skipExisting, fetch);
      if result.0 {
        success := success + 1;
      }
      disk := result.1;
    }
    assert targets[..|targets|] == targets;
  }


  /** No download into a folder that is a regular file can succeed. */
  lemma {:induction false} BlockedFolder(fs: Fs, targets: seq<Target>, fetch: string -> bool, d: string)
    requires d != "" && d in fs && fs[d].RegularFile?
    requires forall k :: 0 <= k < |targets| ==> Dirname(targets[k].path) == d
    ensures Fetchable(fs, targets, fetch) == 0
    decreases |targets|
  {
    if |targets| > 0 {
      BlockedFolder(fs, targets[..|targets| - 1], fetch, d);
    }
  }

  /** When a regular file stands where the category folder should be,
      `ensure_dir` leaves it, and every download into the folder fails. */
  lemma BlockedCategory(fs: Fs, outputDir: string, category: CategoryInfo, images: seq<ImageInfo>, fetch: string -> bool)
    requires var d := CategoryDir(outputDir, category);
      d != "" && d[|d| - 1] != '/' && d in fs && fs[d].RegularFile?
    requires HasUrls(images)
    ensures EnsureDir(fs, CategoryDir(outputDir, category)) == Success(fs)
    ensures Fetchable(fs, Targets(outputDir, category, images), fetch) == 0
  {
    var d := CategoryDir(outputDir, category);
    var targets := Targets(outputDir, category, images);
    forall k | 0 <= k < |targets|
      ensures Dirname(targets[k].path) == d
    {
      ExportPathParent(outputDir, category, images[k]);
    }
    BlockedFolder(fs, targets, fetch, d);
  }

  /** `process_category`: the category folder is ensured first, and an
      error there escapes (`ok` false, nothing changed). A failed image
      listing (`None`) then gives `(0, 0)`. Otherwise the images are
      downloaded to their export paths in turn and the successes counted,
      until an image without a URL raises `KeyError`, which escapes too. */
  method ExportCategory(fs: Fs, outputDir: string, category: CategoryInfo, listing: Option<seq<ImageInfo>>,
                        skipExisting: bool, fetch: string -> bool)
    returns (ok: bool, success: nat, total: nat, disk: Fs)
    ensures EnsureDir(fs, CategoryDir(outputDir, category)).Failure? ==> !ok && disk == fs
    ensures EnsureDir(fs, CategoryDir(outputDir, category)).Success? ==>
      (ok <==> listing.None? || HasUrls(listing.value))
    ensures ok && listing.None? ==>
      success == 0 && total == 0 && disk == EnsureDir(fs, CategoryDir(outputDir, category)).value
    ensures ok && listing.Some? ==> total == |listing.value| && success <= total
    ensures ok && listing.Some? && !skipExisting ==>
      success == Fetchable(EnsureDir(fs, CategoryDir(outputDir, category)).value, Targets(outputDir, category, Reached(listing.value)), fetch)
    ensures ok && listing.Some? && skipExisting ==>
      success >= Fetchable(EnsureDir(fs, CategoryDir(outputDir, category)).value, Targets(outputDir, category, Reached(listing.value)), fetch)
    ensures EnsureDir(fs, CategoryDir(outputDir, category)).Success? ==> CategoryDir(outputDir, category) in disk
    ensures forall q :: q in fs ==> q in disk
    ensures forall q :: q in disk && q !in fs ==>
      q == CategoryDir(outputDir, category) || (listing.Some? && q in TargetPaths(Targets(outputDir, category, Reached(listing.value))))
    ensures forall q :: q in fs && (listing.None? || q !in TargetPaths(Targets(outputDir, category, Reached(listing.value)))) ==>
      disk[q] == fs[q]
  {
    var categoryDir := CategoryDir(outputDir, category);
    var ensured := EnsureDir(fs, categoryDir);
    if ensured.Failure? {
      return false, 0, 0, fs;
    }
    var start := ensured.value;
    if listing.None? {
      return true, 0, 0, start;
    }
    var reached := Reached(listing.value);
    var targets := Targets(outputDir, category, reached);
    success, disk := DownloadAll(start, targets, skipExisting, fetch);
    total := |listing.value|;
    ok := |reached| == |listing.value|;
  }

  /** The export options: the output directory, `--skip-existing` and
      `--category`. */
  datatype ExportOptions = ExportOptions(outputDir: string, skipExisting: bool, category: Option<string>)

  /** The categories exported: the first page of the listing, narrowed to
      exact name matches when a non-empty `--category` is given. */
  function SelectCategories(all: seq<CategoryInfo>, filter: Option<string>): (r: seq<CategoryInfo>)
    ensures |r| <= DefaultLimit
    ensures !Truthy(filter) ==> r == Page(all, 0, DefaultLimit)
    ensures Truthy(filter) ==> forall c :: c in r <==> c in Page(all, 0, DefaultLimit) && c.name == filter.value
  {
    var page := Page(all, 0, DefaultLimit);
    if Truthy(filter) then Where(page, (c: CategoryInfo) => c.name == filter.value) else page
  }

  /** The number of images listed for one category (none when its listing
      failed). */
  function ListedOf(category: CategoryInfo, imagesOf: string -> Option<seq<ImageInfo>>): nat {
    match imagesOf(category.id)
    case Some(images) => |images|
    case None => 0
  }

  function ListedCount(categories: seq<CategoryInfo>, imagesOf: string -> Option<seq<ImageInfo>>): nat {
    if |categories| == 0 then 0
    else ListedCount(categories[..|categories| - 1], imagesOf) + ListedOf(categories[|categories| - 1], imagesOf)
  }

  /** Exporting one more category adds its listed images to the count. */
  lemma ListedCountSnoc(categories: seq<CategoryInfo>, i: nat, imagesOf: string -> Option<seq<ImageInfo>>)
    requires i < |categories|
    ensures ListedCount(categories[..i + 1], imagesOf) == ListedCount(categories[..i], imagesOf) + ListedOf(categories[i], imagesOf)
  {
    assert categories[..i + 1][..i] == categories[..i];
  }

  /** The loop of a category runs to its end: its listing failed, or
      every listed image carries a URL. */
  predicate Completes(listing: Option<seq<ImageInfo>>) {
    listing.None? || HasUrls(listing.value)
  }

  /** One category of the export loop, as much of it as the loop relies
      on: whether it raised and why, its counts, and the folder it leaves. */
  method ExportCategoryStep(fs: Fs, outputDir: string, category: CategoryInfo, listing: Option<seq<ImageInfo>>,
                            skipExisting: bool, fetch: string -> bool)
    returns (ok: bool, success: nat, total: nat, disk: Fs)
    ensures ok <==> EnsureDir(fs, CategoryDir(outputDir, category)).Success? && Completes(listing)
    ensures !ok ==> !Completes(listing) || EnsureDir(disk, CategoryDir(outputDir, category)).Failure?
    ensures ok ==> total == (if listing.Some? then |listing.value| else 0) && success <= total
    ensures ok ==> CategoryDir(outputDir, category) in disk
    ensures forall q :: q in fs ==> q in disk
  {
    ok, success, total, disk := ExportCategory(fs, outputDir, category, listing, skipExisting, fetch);
  }

  /** The export loop of `main`: the selected categories in turn, until
      one raises. `ok` is false when a category raised; `exported` holds
      the categories finished before it. */
  method ExportCategories(start: Fs, outputDir: string, skipExisting: bool, categories: seq<CategoryInfo>,
                          imagesOf: string -> Option<seq<ImageInfo>>, fetch: string -> bool)
    returns (ok: bool, exported: seq<CategoryInfo>, totalImages: nat, successImages: nat, disk: Fs)
    ensures |exported| <= |categories| && exported == categories[..|exported|]
    ensures ok <==> |exported| == |categories|
    ensures !ok ==>
      !Completes(imagesOf(categories[|exported|].id))
      || EnsureDir(disk, CategoryDir(outputDir, categories[|exported|])).Failure?
    ensures totalImages == ListedCount(exported, imagesOf) && successImages <= totalImages
    ensures forall j :: 0 <= j < |exported| ==>
      Completes(imagesOf(exported[j].id)) && CategoryDir(outputDir, exported[j]) in disk
    ensures |categories| > 0 && EnsureDir(start, CategoryDir(outputDir, categories[0])).Failure? ==> !ok
    ensures forall q :: q in start ==> q in disk
  {
    exported, totalImages, successImages, disk := [], 0, 0, start;
    for i := 0 to |categories|
      invariant exported == categories[..i]
      invariant totalImages == ListedCount(exported, imagesOf) && successImages <= totalImages
      invariant forall q :: q in start ==> q in disk
      invariant forall j :: 0 <= j < i ==> Completes(imagesOf(categories[j].id))
      invariant forall j :: 0 <= j < i ==> CategoryDir(outputDir, categories[j]) in disk
      invariant i == 0 ==> disk == start
      invariant i > 0 ==> EnsureDir(start, CategoryDir(outputDir, categories[0])).Success?
    {
      var category := categories[i];
      var before := disk;
      var categoryOk, success, total;
      categoryOk, success, total, disk := ExportCategoryStep(disk, outputDir, category, imagesOf(category.id), skipExisting, fetch);
      if !categoryOk {
        return false, exported, totalImages, successImages, disk;
      }
      forall j | 0 <= j < i + 1
        ensures Completes(imagesOf(categories[j].id)) && CategoryDir(outputDir, categories[j]) in disk
      {
        if j < i {
          assert CategoryDir(outputDir, categories[j]) in before;
        }
      }
      assert total == ListedOf(category, imagesOf);
      ListedCountSnoc(categories, i, imagesOf);
      totalImages := totalImages + total;
      successImages := successImages + success;
      exported := categories[..i + 1];
    }
    assert categories[..|categories|] == categories;
    ok := true;
  }

  /** `main`: the output directory is ensured, outside the `try`, so an
      error there ends the script with status 1. The categories are then
      listed (`None` when the listing failed), selected, and exported one
      by one. An error escaping a category is caught and gives status 1,
      as do a failed listing and a filter that matches nothing; otherwise
      the status is 0. `imagesOf` is the backend's image listing per
      category id. */
  method ExportAll(fs: Fs, opts: ExportOptions, listing: Option<seq<CategoryInfo>>,
                   imagesOf: string -> Option<seq<ImageInfo>>, fetch: string -> bool)
    returns (code: int, exported: seq<CategoryInfo>, totalImages: nat, successImages: nat, disk: Fs)
    ensures EnsureDir(fs, opts.outputDir).Failure? ==> code == 1 && exported == [] && disk == fs
    ensures listing.None? ==> code == 1 && exported == []
    ensures listing.Some? && Truthy(opts.category) && SelectCategories(listing.value, opts.category) == [] ==> code == 1
    ensures code == 0 || code == 1
    ensures code == 0 <==>
      && EnsureDir(fs, opts.outputDir).Success? && listing.Some?
      && (!Truthy(opts.category) || SelectCategories(listing.value, opts.category) != [])
      && exported == SelectCategories(listing.value, opts.category)
    ensures code == 0 ==> totalImages == ListedCount(exported, imagesOf) && successImages <= totalImages
    ensures code == 0 ==> forall j :: 0 <= j < |exported| ==>
      Completes(imagesOf(exported[j].id)) && CategoryDir(opts.outputDir, exported[j]) in disk
    ensures (listing.Some? &&
             exists j :: 0 <= j < |SelectCategories(listing.value, opts.category)| &&
               !Completes(imagesOf(SelectCategories(listing.value, opts.category)[j].id))) ==>
      code == 1
    ensures (code == 1 && EnsureDir(fs, opts.outputDir).Success? && listing.Some? &&
             (!Truthy(opts.category) || SelectCategories(listing.value, opts.category) != [])) ==>
      var selected := SelectCategories(listing.value, opts.category);
      && |exported| < |selected| && exported == selected[..|exported|]
      && (!Completes(imagesOf(selected[|exported|].id))
          || EnsureDir(disk, CategoryDir(opts.outputDir, selected[|exported|])).Failure?)
    ensures (EnsureDir(fs, opts.outputDir).Success? && listing.Some? && SelectCategories(listing.value, opts.category) != [] &&
             EnsureDir(EnsureDir(fs, opts.outputDir).value, CategoryDir(opts.outputDir, SelectCategories(listing.value, opts.category)[0])).Failure?) ==>
      code == 1
    ensures EnsureDir(fs, opts.outputDir).Success? ==> opts.outputDir in disk
    ensures forall q :: q in fs ==> q in disk
  {
    exported, totalImages, successImages := [], 0, 0;
    var ensured := EnsureDir(fs, opts.outputDir);
    if ensured.Failure? {
      return 1, exported, totalImages, successImages, fs;
    }
    disk := ensured.value;
    if listing.None? {
      return 1, exported, totalImages, successImages, disk;
    }
    var categories := SelectCategories(listing.value, opts.category);
    if Truthy(opts.category) && categories == [] {
      return 1, exported, totalImages, successImages, disk;
    }
    var ok;
    ok, exported, totalImages, successImages, disk :=
      ExportCategories(disk, opts.outputDir, opts.skipExisting, categories, imagesOf, fetch);
    code := if ok then 0 else 1;
  }

  /** A regular file named as the output directory passes `main`'s own
      `ensure_dir`, which finds the path existing, but blocks the first
      category's folder beneath it, so the run ends with status 1. */
  lemma OutputDirIsFile(category: CategoryInfo)
    requires !StartsWith(category.name, "/")
    ensures var fs: Fs := map["out" := RegularFile];
      && EnsureDir(fs, "out") == Success(fs)
      && EnsureDir(fs, CategoryDir("out", category)) == Failure(NotADirectory)
  {
    var fs: Fs := map["out" := RegularFile];
    var d := CategoryDir("out", category);
    assert d == "out/" + category.name;
    assert d[..3] == "out" && d[3] == '/';
    assert d !in fs by {
      assert |d| > 3;
    }
    EnsureDirUnderFile(fs, d, 3);
  }
}

=== FILE: file_storage.dfy ===
/** The blob store of the backend (`app/services/file_storage_service.py`):
    sharded storage names derived from a random hex id, the upload checks,
    the write, and idempotent deletion. Directories are not modelled; the
    disk is the set of stored files with their sizes. */
module FileStorage {
  import opened Wrappers
  import opened Text
  import opened Paths
  import opened Http
  import opened Config

  /** Every stored file, by path, with its size in bytes. */
  type Disk = map<Path, nat>

  /** The two disks differ at most at `p`. */
  ghost predicate SameExcept(d1: Disk, d2: Disk, p: Path) {
    forall q :: q != p ==> (q in d1 <==> q in d2) && (q in d1 ==> d1[q] == d2[q])
  }

  predicate IsHexDigit(c: char) {
    '0' <= c <= '9' || 'a' <= c <= 'f'
  }

  /** `uuid.uuid4().hex`: 32 lower-case hexadecimal digits. */
  predicate IsHexId(h: string) {
    |h| == 32 && forall i :: 0 <= i < |h| ==> IsHexDigit(h[i])
  }

  lemma HexIdNoDot(h: string)
    requires IsHexId(h)
    ensures '.' !in h && '/' !in h
  {
    forall i | 0 <= i < |h|
      ensures h[i] != '.' && h[i] != '/'
    {
      assert IsHexDigit(h[i]);
    }
  }

  /** The shape of a non-empty `PurePath.suffix`: a dot and at least one
      further character, none of them a dot. */
  predicate IsExtension(e: string) {
    |e| >= 2 && e[0] == '.' && '.' !in e[1..]
  }

  /** Folding a suffix to lower case keeps its shape. */
  lemma LowerKeepsExtension(suffix: string)
    requires suffix == [] || IsExtension(suffix)
    ensures Lower(suffix) == [] || IsExtension(Lower(suffix))
  {
    var ext := Lower(suffix);
    if suffix != [] {
      assert ext[0] == '.';
      forall j | 1 <= j < |ext|
        ensures ext[j] != '.'
      {
        assert suffix[j] in suffix[1..];
      }
      assert '.' !in ext[1..];
    }
  }

  lemma SuffixOfNameNoSlash(filename: string)
    ensures '/' !in Suffix(NameOf(filename))
  {
    var name := NameOf(filename);
    var suffix := Suffix(name);
    if suffix != [] {
      assert suffix == name[|name| - |suffix|..];
      forall j | 0 <= j < |suffix|
        ensures suffix[j] != '/'
      {
        assert suffix[j] == name[|name| - |suffix| + j];
        assert name[|name| - |suffix| + j] in name;
      }
    }
  }

  /** The extension an upload is stored under: the suffix of the original
      name, folded to lower case. */
  function Extension(filename: string): (ext: string)
    ensures ext == [] <==> Suffix(NameOf(filename)) == []
    ensures ext == [] || IsExtension(ext)
    ensures '/' !in ext
    ensures |ext| == |Suffix(NameOf(filename))|
    ensures forall i :: 0 <= i < |ext| ==> ext[i] == LowerChar(Suffix(NameOf(filename))[i])
  {
    LowerKeepsExtension(Suffix(NameOf(filename)));
    SuffixOfNameNoSlash(filename);
    LowerKeepsChar(Suffix(NameOf(filename)), '/');
    Lower(Suffix(NameOf(filename)))
  }

  /** A hex id followed by an extension splits back into the two, and is a
      single path component. */
  lemma HexNameSplits(hex: string, ext: string)
    requires IsHexId(hex) && IsExtension(ext) && '/' !in ext
    ensures Suffix(hex + ext) == ext && Stem(hex + ext) == hex
    ensures EndsWith(hex + ext, ext)
    ensures IsComponent(hex + ext)
  {
    HexIdNoDot(hex);
    SuffixOfJoined(hex, ext);
    assert (hex + ext)[|hex|..] == ext;
    assert (hex + ext)[0] == hex[0];
    assert '/' !in hex + ext by {
      assert forall c :: c in hex + ext ==> c in hex || c in ext;
    }
  }

  /** The three values `_generate_structured_path` returns. */
  datatype Allocation = Allocation(fullPath: Path, storedFilename: string, subDirectory: Path)

  /** `_generate_structured_path`: the extension must be present (400
      otherwise); the stored name is the id followed by the extension, and
      the file goes into the two-level shard `id[0:2]/id[2:4]` under `base`. */
  function GenerateStructuredPath(filename: string, base: Path, hex: string): (r: Result<Allocation, Status>)
    requires IsHexId(hex)
    ensures r.Failure? <==> Suffix(NameOf(filename)) == []
    ensures r.Failure? ==> r.error == BadRequest
    ensures r.Success? ==>
      && r.value.storedFilename == hex + Extension(filename)
      && r.value.subDirectory == [hex[..2], hex[2..4]]
      && r.value.fullPath == base + r.value.subDirectory + [r.value.storedFilename]
  {
    var ext := Extension(filename);
    if ext == [] then Failure(BadRequest)
    else
      var stored := hex + ext;
      var sub := [hex[..2], hex[2..4]];
      Success(Allocation(base + sub + [stored], stored, sub))
  }

  /** The stored name keeps the (lower-cased) suffix of the original name,
      its stem is the id, and the file lies in its shard under `base`. */
  lemma StoredNameKeepsSuffix(filename: string, base: Path, hex: string)
    requires IsHexId(hex)
    requires GenerateStructuredPath(filename, base, hex).Success?
    ensures var a := GenerateStructuredPath(filename, base, hex).value;
      && EndsWith(a.storedFilename, Extension(filename))
      && Suffix(a.storedFilename) == Extension(filename)
      && Stem(a.storedFilename) == hex
      && IsComponent(a.storedFilename)
      && RelativeTo(a.fullPath, base) == Some(a.subDirectory + [a.storedFilename])
  {
    var ext := Extension(filename);
    var a := GenerateStructuredPath(filename, base, hex).value;
    assert a.storedFilename == hex + ext;
    HexNameSplits(hex, ext);
    RelativeToJoinName(base, a.subDirectory, a.storedFilename);
  }

  /** `get_relative_sub_directory_for_file`: the shard a stored name belongs
      to, read off the first four characters of its stem; a stem shorter
      than four characters gives `Path(".")`. */
  function RelativeSubDirectoryForFile(storedFilename: string): (r: Path)
    ensures |Stem(NameOf(storedFilename))| < 4 ==> r == []
    ensures |r| <= 2
    ensures forall c :: c in r ==> IsComponent(c)
  {
    var stem := Stem(NameOf(storedFilename));
    if |stem| < 4 then []
    else
      var a := Components(stem[..2]);
      var b := Components(stem[2..4]);
      assert '/' !in stem[..2] && '/' !in stem[2..4] by {
        assert forall i :: 0 <= i < 2 ==> stem[..2][i] == stem[i] && stem[2..4][i] == stem[i + 2];
        assert forall i :: 0 <= i < |stem| ==> stem[i] in NameOf(storedFilename);
      }
      ComponentsNoSlash(stem[..2]);
      ComponentsNoSlash(stem[2..4]);
      a + b
  }

  /** Two hex digits form one path component. */
  lemma HexPairIsComponent(hex: string, i: nat)
    requires IsHexId(hex) && i + 2 <= |hex|
    ensures Components(hex[i..i + 2]) == [hex[i..i + 2]]
  {
    var s := hex[i..i + 2];
    assert IsHexDigit(s[0]) && IsHexDigit(s[1]);
    assert '/' !in s;
    ComponentsNoSlash(s);
  }

  /** The shard read back from `<hex><ext>` is the shard of `hex`. */
  lemma ShardOfHexName(hex: string, ext: string)
    requires IsHexId(hex) && IsExtension(ext) && '/' !in ext
    ensures RelativeSubDirectoryForFile(hex + ext) == [hex[..2], hex[2..4]]
  {
    HexNameSplits(hex, ext);
    NameOfPlain(hex + ext);
    var stem := Stem(NameOf(hex + ext));
    assert stem == hex;
    HexPairIsComponent(hex, 0);
    HexPairIsComponent(hex, 2);
  }

  /** Inverting the naming scheme: the shard recovered from a generated
      stored name is the shard it was generated in. */
  lemma ShardRoundTrip(filename: string, base: Path, hex: string)
    requires IsHexId(hex)
    requires GenerateStructuredPath(filename, base, hex).Success?
    ensures var a := GenerateStructuredPath(filename, base, hex).value;
      RelativeSubDirectoryForFile(a.storedFilename) == a.subDirectory
  {
    ShardOfHexName(hex, Extension(filename));
  }

  /** An uploaded file as the request presents it: its name, its declared
      MIME type and its size (`seek`/`tell` on the spooled file). */
  datatype Upload = Upload(filename: string, contentType: string, size: nat)

  /** What happens when the file is written: all bytes land, the file
      cannot be opened, or the write breaks off after some bytes. */
  datatype WriteOutcome = Complete | NotOpened | Interrupted(written: nat)

  /** What `save_upload_file` returns: the absolute path and the stored name. */
  datatype Saved = Saved(path: Path, storedFilename: string)

  /** `save_upload_file`: MIME check (400), size check (413, the limit
      itself allowed), path generation (400 without an extension), then
      the write (500 when it fails, possibly leaving a partial file). */
  function SaveUploadFile(disk: Disk, imagesRoot: Path, u: Upload, hex: string, w: WriteOutcome)
    : (r: (Result<Saved, Status>, Disk))
    requires IsHexId(hex)
    ensures !IsAllowedMimeType(u.contentType) ==> r == (Failure(BadRequest), disk)
    ensures IsAllowedMimeType(u.contentType) && u.size > MaxImageSize ==> r == (Failure(PayloadTooLarge), disk)
    ensures IsAllowedMimeType(u.contentType) && u.size <= MaxImageSize && Extension(u.filename) == [] ==>
      r == (Failure(BadRequest), disk)
    ensures r.0.Success? <==>
      IsAllowedMimeType(u.contentType) && u.size <= MaxImageSize && Extension(u.filename) != [] && w.Complete?
    ensures GenerateStructuredPath(u.filename, imagesRoot, hex).Success? ==>
      var a := GenerateStructuredPath(u.filename, imagesRoot, hex).value;
      && SameExcept(disk, r.1, a.fullPath)
      && (r.0.Success? ==> r.0.value == Saved(a.fullPath, a.storedFilename) && a.fullPath in r.1 && r.1[a.fullPath] == u.size)
      && (r.0.Failure? && r.1 != disk ==> r.0.error == InternalError)
    ensures r.0.Failure? && IsAllowedMimeType(u.contentType) && u.size <= MaxImageSize && Extension(u.filename) != [] ==>
      r.0.error == InternalError
  {
    if !IsAllowedMimeType(u.contentType) then (Failure(BadRequest), disk)
    else if u.size > MaxImageSize then (Failure(PayloadTooLarge), disk)
    else
      match GenerateStructuredPath(u.filename, imagesRoot, hex)
      case Failure(e) => (Failure(e), disk)
      case Success(a) =>
        match w
        case Complete => (Success(Saved(a.fullPath, a.storedFilename)), disk[a.fullPath := u.size])
        case NotOpened => (Failure(InternalError), disk)
        case Interrupted(k) => (Failure(InternalError), disk[a.fullPath := k])
  }

  /** `delete_file`: a present file is removed; an absent one counts as
      deleted. An OS error while removing (the paths in `failing`) gives
      false and leaves the disk as it was. */
  function DeleteFile(disk: Disk, p: Path, failing: set<Path>): (r: (bool, Disk))
    ensures r.0 <==> p !in disk || p !in failing
    ensures r.0 ==> p !in r.1
    ensures SameExcept(disk, r.1, p)
    ensures !r.0 ==> r.1 == disk
    ensures p !in disk ==> r.1 == disk
  {
    if p in disk && p in failing then (false, disk)
    else (true, disk - {p})
  }

  /** Deleting twice is deleting once, and the second call reports success. */
  lemma DeleteFileIdempotent(disk: Disk, p: Path, failing: set<Path>)
    requires DeleteFile(disk, p, failing).0
    ensures var d1 := DeleteFile(disk, p, failing).1;
      DeleteFile(d1, p, failing) == (true, d1)
  {
  }

  /** Deleting a sequence of paths one after another, ignoring the results. */
  function DeleteAll(disk: Disk, paths: seq<Path>, failing: set<Path>): (d: Disk)
    ensures forall q :: q in paths && q !in failing ==> q !in d
    ensures forall q :: q !in paths ==> (q in d <==> q in disk) && (q in d ==> d[q] == disk[q])
    ensures forall q :: q in failing && q in disk ==> q in d && d[q] == disk[q]
    ensures d.Keys <= disk.Keys
  {
    if |paths| == 0 then disk
    else DeleteAll(DeleteFile(disk, paths[0], failing).1, paths[1..], failing)
  }
}

=== FILE: file_utils.dfy ===
/** Local file helpers of the folder import/export scripts
    (`scripts/folder2db/file_utils.py`) over an abstract file system:
    string paths in the manner of `os.path`, a directory listing in the
    order the system returns it, file-name sanitising and ordering. */
module FileUtils {
  import opened Wrappers
  import opened Text

  // ---------------------------------------------------------------------
  // os.path on strings

  /** `os.path.join(a, b)`: a name `b` that starts with `/` is absolute
      and replaces `a`; otherwise `b` follows `a`, with a `/` between them
      unless `a` is empty or already ends in one. */
  function OsJoin(a: string, b: string): (r: string)
    ensures EndsWith(r, b)
    ensures StartsWith(b, "/") ==> r == b
    ensures !StartsWith(b, "/") ==> StartsWith(r, a) && |r| >= |a| + |b|
  {
    if StartsWith(b, "/") then b
    else if a == "" || a[|a| - 1] == '/' then a + b
    else a + "/" + b
  }

  /** The text consists of `/` only (the empty text included). */
  predicate AllSlashes(s: string) {
    forall k :: 0 <= k < |s| ==> s[k] == '/'
  }

  /** `s` without its trailing run of `/`. */
  function StripSlashes(s: string): (r: string)
    ensures StartsWith(s, r)
    ensures r == [] || r[|r| - 1] != '/'
    ensures AllSlashes(s[|r|..])
  {
    if |s| > 0 && s[|s| - 1] == '/' then
      var r := StripSlashes(s[..|s| - 1]);
      assert s[..|s| - 1][..|r|] == s[..|r|];
      assert forall k :: |r| <= k < |s| - 1 ==> s[k] == s[..|s| - 1][k];
      r
    else s
  }

  /** `os.path.dirname`: everything up to the last `/`, with the trailing
      separators stripped unless that part consists of separators only;
      empty for a bare name. */
  function Dirname(p: string): (d: string)
    ensures StartsWith(p, d)
    ensures '/' !in p ==> d == ""
  {
    var head := p[..LastIndexOf(p, '/') + 1];
    assert StartsWith(p, head);
    if AllSlashes(head) then head
    else
      var d := StripSlashes(head);
      assert p[..|d|] == head[..|d|];
      d
  }

  /** A plain name joined onto a directory that does not end in `/` has
      that directory as its parent. */
  lemma DirnameOfJoin(dir: string, name: string)
    requires dir != "" && dir[|dir| - 1] != '/' && '/' !in name
    ensures Dirname(OsJoin(dir, name)) == dir
  {
    var p := OsJoin(dir, name);
    assert !StartsWith(name, "/") by {
      if |name| > 0 {
        assert name[0] in name;
      }
    }
    assert p == dir + ['/'] + name;
    LastIndexOfSplit(dir, '/', name);
    var head := p[..|dir| + 1];
    assert head == dir + ['/'];
    assert head[|dir| - 1] != '/';
    assert head[..|head| - 1] == dir;
  }

  /** `os.path.basename`: what follows the last `/`. */
  function Basename(p: string): (r: string)
    ensures '/' !in r
    ensures EndsWith(p, r)
  {
    var i := LastIndexOf(p, '/');
    p[i + 1..]
  }

  /** The last component of `q` holds a character other than `.`. */
  predicate HasNonDot(q: string)
    decreases |q|
  {
    |q| > 0 && q[|q| - 1] != '/' && (q[|q| - 1] != '.' || HasNonDot(q[..|q| - 1]))
  }

  /** The extension `os.path.splitext` finds: from the last `.` of the last
      component to the end, provided something other than dots precedes
      that dot within the component; otherwise empty. */
  function Ext(p: string): (e: string)
    ensures |e| <= |p| && e == p[|p| - |e|..]
    ensures e == [] || e[0] == '.'
    ensures forall k :: 1 <= k < |e| ==> e[k] != '.' && e[k] != '/'
    decreases |p|
  {
    if |p| == 0 then []
    else
      var c := p[|p| - 1];
      var before := p[..|p| - 1];
      if c == '/' then []
      else if c == '.' then (if HasNonDot(before) then "." else [])
      else
        var e := Ext(before);
        if e == [] then [] else e + [c]
  }

  /** `os.path.splitext(p)`: the root and the extension. */
  function SplitExt(p: string): (r: (string, string))
    ensures r.0 + r.1 == p
    ensures r.1 == Ext(p)
  {
    var e := Ext(p);
    (p[..|p| - |e|], e)
  }

  /** A name with a stem and an extension splits back into the two. */
  lemma SplitExtJoin(stem: string, ext: string)
    requires stem != [] && '/' !in stem && stem[0] != '.'
    requires |ext| >= 1 && ext[0] == '.' && forall k :: 1 <= k < |ext| ==> ext[k] != '.' && ext[k] != '/'
    ensures SplitExt(stem + ext) == (stem, ext)
  {
    ExtJoin(stem, ext);
    assert (stem + ext)[..|stem|] == stem;
  }

  lemma {:induction false} ExtJoin(stem: string, ext: string)
    requires stem != [] && '/' !in stem && stem[0] != '.'
    requires |ext| >= 1 && ext[0] == '.' && forall k :: 1 <= k < |ext| ==> ext[k] != '.' && ext[k] != '/'
    ensures Ext(stem + ext) == ext
    decreases |ext|
  {
    var p := stem + ext;
    var c := p[|p| - 1];
    assert c == ext[|ext| - 1];
    assert p[..|p| - 1] == stem + ext[..|ext| - 1];
    if |ext| == 1 {
      assert p[..|p| - 1] == stem;
      StemHasNonDot(stem);
      assert ext == ".";
    } else {
      ExtJoin(stem, ext[..|ext| - 1]);
      assert c != '.' && c != '/';
      assert ext == ext[..|ext| - 1] + [c];
    }
  }

  lemma {:induction false} StemHasNonDot(q: string)
    requires |q| > 0 && '/' !in q && q[0] != '.'
    ensures HasNonDot(q)
    decreases |q|
  {
    if q[|q| - 1] == '.' {
      assert |q| > 1;
      assert q[..|q| - 1][0] == q[0];
      StemHasNonDot(q[..|q| - 1]);
    }
  }

  // ---------------------------------------------------------------------
  // The file system

  /** A node: a regular file, or a directory with the names `os.listdir`
      returns, in its order. */
  datatype Node = RegularFile | Directory(entries: seq<string>)

  /** Nodes by full path. */
  type Fs = map<string, Node>

  datatype FsError = FileNotFound | NotADirectory

  /** The entry `name` of `root` is a sub-directory. */
  predicate IsFolderEntry(fs: Fs, root: string, name: string) {
    var path := OsJoin(root, name);
    path in fs && fs[path].Directory?
  }

  /** The `(name, path)` pairs of the sub-directories among `names`. */
  function FoldersAmong(fs: Fs, root: string, names: seq<string>): (r: seq<(string, string)>)
    ensures |r| <= |names|
    ensures forall k :: 0 <= k < |r| ==> r[k].1 == OsJoin(root, r[k].0) && IsFolderEntry(fs, root, r[k].0)
  {
    if |names| == 0 then []
    else
      (if IsFolderEntry(fs, root, names[0]) then [(names[0], OsJoin(root, names[0]))] else [])
      + FoldersAmong(fs, root, names[1..])
  }

  lemma {:induction false} FoldersAmongMembers(fs: Fs, root: string, names: seq<string>, e: (string, string))
    ensures e in FoldersAmong(fs, root, names) <==> e.0 in names && e.1 == OsJoin(root, e.0) && IsFolderEntry(fs, root, e.0)
    decreases |names|
  {
    if |names| > 0 {
      FoldersAmongMembers(fs, root, names[1..], e);
      assert names == [names[0]] + names[1..];
    }
  }

  /** `scan_folders`: a missing root and a root that is not a directory
      are errors; otherwise the sub-directories of the root in listing
      order, each with its joined path. */
  function ScanFolders(fs: Fs, root: string): (r: Result<seq<(string, string)>, FsError>)
    ensures root !in fs <==> r == Failure(FileNotFound)
    ensures root in fs && fs[root].RegularFile? <==> r == Failure(NotADirectory)
    ensures r.Success? ==> |r.value| <= |fs[root].entries|
    ensures r.Success? ==> forall k :: 0 <= k < |r.value| ==>
      r.value[k].1 == OsJoin(root, r.value[k].0) && IsFolderEntry(fs, root, r.value[k].0)
  {
    if root !in fs then Failure(FileNotFound)
    else if !fs[root].Directory? then Failure(NotADirectory)
    else Success(FoldersAmong(fs, root, fs[root].entries))
  }

  /** Every sub-directory entry of the root is found, paired with its
      joined path, and nothing else is. */
  lemma ScanFoldersContents(fs: Fs, root: string, e: (string, string))
    requires root in fs && fs[root].Directory?
    ensures e in ScanFolders(fs, root).value <==>
      e.0 in fs[root].entries && e.1 == OsJoin(root, e.0) && IsFolderEntry(fs, root, e.0)
  {
    FoldersAmongMembers(fs, root, fs[root].entries, e);
  }

  // ---------------------------------------------------------------------
  // Image files

  /** `SUPPORTED_FORMATS` of the scripts' configuration. */
  const SupportedFormats: seq<string> := [".jpg", ".jpeg", ".png", ".gif", ".bmp", ".webp"]

  /** A name whose lower-cased extension is a supported image format. */
  predicate IsImageName(name: string) {
    Lower(SplitExt(name).1) in SupportedFormats
  }

  /** The entry `name` of `dir` is a regular file with an image name. */
  predicate IsImageEntry(fs: Fs, dir: string, name: string) {
    var path := OsJoin(dir, name);
    path in fs && fs[path].RegularFile? && IsImageName(name)
  }

  /** `f` applied to the elements of `xs` that `keep` accepts, in order. */
  function FilterMap(xs: seq<string>, keep: string -> bool, f: string -> string): (r: seq<string>)
    ensures |r| <= |xs|
  {
    if |xs| == 0 then []
    else (if keep(xs[0]) then [f(xs[0])] else []) + FilterMap(xs[1..], keep, f)
  }

  lemma {:induction false} FilterMapMembers(xs: seq<string>, keep: string -> bool, f: string -> string, p: string)
    ensures p in FilterMap(xs, keep, f) <==> exists x :: x in xs && keep(x) && p == f(x)
    decreases |xs|
  {
    if |xs| > 0 {
      FilterMapMembers(xs[1..], keep, f, p);
      assert xs == [xs[0]] + xs[1..];
      if exists x :: x in xs && keep(x) && p == f(x) {
        var x :| x in xs && keep(x) && p == f(x);
        if x != xs[0] {
          assert x in xs[1..];
        }
      }
    }
  }

  lemma {:induction false} FilterMapAppend(xs: seq<string>, ys: seq<string>, keep: string -> bool, f: string -> string)
    ensures FilterMap(xs + ys, keep, f) == FilterMap(xs, keep, f) + FilterMap(ys, keep, f)
    decreases |xs|
  {
    if |xs| > 0 {
      assert (xs + ys)[0] == xs[0] && (xs + ys)[1..] == xs[1..] + ys;
      FilterMapAppend(xs[1..], ys, keep, f);
    } else {
      assert xs + ys == ys;
    }
  }

  /** Filtering a permutation yields a permutation. */
  lemma {:induction false} FilterMapPerm(xs: seq<string>, ys: seq<string>, keep: string -> bool, f: string -> string)
    requires multiset(xs) == multiset(ys)
    ensures multiset(FilterMap(xs, keep, f)) == multiset(FilterMap(ys, keep, f))
    decreases |xs|
  {
    if |xs| > 0 {
      var x := xs[0];
      assert x in multiset(ys);
      var k :| 0 <= k < |ys| && ys[k] == x;
      var pre, post := ys[..k], ys[k + 1..];
      RemoveOne(xs, ys, k);
      FilterMapPerm(xs[1..], pre + post, keep, f);
      FilterMapAppend([x], xs[1..], keep, f);
      FilterMapAppend(pre, [x] + post, keep, f);
      FilterMapAppend([x], post, keep, f);
      FilterMapAppend(pre, post, keep, f);
      Shuffle(FilterMap(pre, keep, f), FilterMap([x], keep, f), FilterMap(post, keep, f), FilterMap(xs[1..], keep, f));
    }
  }

  /** Filters that agree on the elements select the same elements. */
  lemma {:induction false} FilterMapSame(xs: seq<string>, keep: string -> bool, keep': string -> bool, f: string -> string)
    requires forall x :: x in xs ==> keep(x) == keep'(x)
    ensures FilterMap(xs, keep, f) == FilterMap(xs, keep', f)
    decreases |xs|
  {
    if |xs| > 0 {
      assert xs[0] in xs;
      FilterMapSame(xs[1..], keep, keep', f);
    }
  }

  /** Taking the first element off one arrangement and its copy at `k` off
      the other leaves two arrangements of the same elements. */
  lemma RemoveOne<T>(xs: seq<T>, ys: seq<T>, k: nat)
    requires multiset(xs) == multiset(ys) && |xs| > 0 && k < |ys| && ys[k] == xs[0]
    ensures multiset(xs[1..]) == multiset(ys[..k] + ys[k + 1..])
    ensures xs == [xs[0]] + xs[1..] && ys == ys[..k] + ([ys[k]] + ys[k + 1..])
  {
    assert xs == [xs[0]] + xs[1..];
    assert ys == ys[..k] + [ys[k]] + ys[k + 1..];
    assert ys == ys[..k] + ([ys[k]] + ys[k + 1..]);
    assert multiset(xs) == multiset{xs[0]} + multiset(xs[1..]);
    assert multiset(ys) == multiset{xs[0]} + multiset(ys[..k] + ys[k + 1..]);
    assert multiset(xs[1..]) == multiset(xs) - multiset{xs[0]};
  }

  lemma Shuffle<T>(a: seq<T>, h: seq<T>, b: seq<T>, t: seq<T>)
    requires multiset(t) == multiset(a + b)
    ensures multiset(h + t) == multiset(a + (h + b))
  {
  }

  /** The full paths of the regular image files among `names`, in listing
      order. */
  function ImagesAmong(fs: Fs, dir: string, names: seq<string>): (r: seq<string>)
    ensures |r| <= |names|
  {
    FilterMap(names, n => IsImageEntry(fs, dir, n), n => OsJoin(dir, n))
  }

  /** Python's ordering of strings: by code point, a proper prefix first. */
  predicate LessEq(a: string, b: string)
    decreases |a|
  {
    |a| == 0 || (|b| > 0 && (a[0] < b[0] || (a[0] == b[0] && LessEq(a[1..], b[1..]))))
  }

  lemma {:induction false} LessEqTotal(a: string, b: string)
    ensures LessEq(a, b) || LessEq(b, a)
    decreases |a|
  {
    if |a| > 0 && |b| > 0 && a[0] == b[0] {
      LessEqTotal(a[1..], b[1..]);
    }
  }

  lemma {:induction false} LessEqTrans(a: string, b: string, c: string)
    requires LessEq(a, b) && LessEq(b, c)
    ensures LessEq(a, c)
    decreases |a|
  {
    if |a| > 0 && a[0] == b[0] && b[0] == c[0] {
      LessEqTrans(a[1..], b[1..], c[1..]);
    }
  }

  lemma {:induction false} LessEqAntisym(a: string, b: string)
    requires LessEq(a, b) && LessEq(b, a)
    ensures a == b
    decreases |a|
  {
    if |a| > 0 {
      LessEqAntisym(a[1..], b[1..]);
      assert a == [a[0]] + a[1..] && b == [b[0]] + b[1..];
    }
  }

  predicate Sorted(s: seq<string>) {
    forall i, j :: 0 <= i < j < |s| ==> LessEq(s[i], s[j])
  }

  /** `x` placed into a sorted sequence before the first larger element. */
  function Insert(x: string, s: seq<string>): (r: seq<string>)
    requires Sorted(s)
    ensures Sorted(r)
    ensures multiset(r) == multiset(s) + multiset{x}
  {
    if |s| == 0 then [x]
    else if LessEq(x, s[0]) then
      InsertFront(x, s);
      [x] + s
    else
      LessEqTotal(x, s[0]);
      var rest := Insert(x, s[1..]);
      assert s == [s[0]] + s[1..];
      InsertBehind(s[0], rest, s[1..], x);
      [s[0]] + rest
  }

  lemma InsertFront(x: string, s: seq<string>)
    requires Sorted(s) && |s| > 0 && LessEq(x, s[0])
    ensures Sorted([x] + s)
  {
    forall j | 0 <= j < |s|
      ensures LessEq(x, s[j])
    {
      if j > 0 {
        LessEqTrans(x, s[0], s[j]);
      }
    }
    var r := [x] + s;
    assert forall j :: 0 < j < |r| ==> r[j] == s[j - 1];
  }

  lemma InsertBehind(h: string, rest: seq<string>, tail: seq<string>, x: string)
    requires Sorted(rest) && Sorted([h] + tail) && LessEq(h, x)
    requires multiset(rest) == multiset(tail) + multiset{x}
    ensures Sorted([h] + rest)
  {
    var r := [h] + rest;
    assert forall j :: 0 < j < |r| ==> r[j] == rest[j - 1];
    forall j | 0 <= j < |rest|
      ensures LessEq(h, rest[j])
    {
      assert rest[j] in multiset(rest);
      if rest[j] != x {
        assert rest[j] in multiset(tail);
        var k :| 0 <= k < |tail| && tail[k] == rest[j];
        assert ([h] + tail)[0] == h && ([h] + tail)[k + 1] == tail[k];
      }
    }
  }

  /** Python's `sorted` on strings. */
  function Sort(s: seq<string>): (r: seq<string>)
    ensures Sorted(r)
    ensures multiset(r) == multiset(s)
  {
    if |s| == 0 then []
    else
      assert s == s[..|s| - 1] + [s[|s| - 1]];
      Insert(s[|s| - 1], Sort(s[..|s| - 1]))
  }

  /** Two sorted arrangements of the same strings are the same sequence:
      the order of `sorted` does not depend on the listing order. */
  lemma {:induction false} SortedUnique(a: seq<string>, b: seq<string>)
    requires Sorted(a) && Sorted(b) && multiset(a) == multiset(b)
    ensures a == b
    decreases |a|
  {
    assert |a| == |multiset(a)| == |b|;
    if |a| > 0 {
      SortedSameHead(a, b);
      TailMultiset(a, b);
      SortedUnique(a[1..], b[1..]);
      assert a == [a[0]] + a[1..] && b == [b[0]] + b[1..];
    }
  }

  /** Two sorted arrangements of the same names start with the same name. */
  lemma SortedSameHead(a: seq<string>, b: seq<string>)
    requires Sorted(a) && Sorted(b) && multiset(a) == multiset(b) && |a| > 0
    ensures |b| > 0 && a[0] == b[0]
  {
    assert a[0] in multiset(b) && b[0] in multiset(a);
    var i :| 0 <= i < |b| && b[i] == a[0];
    var j :| 0 <= j < |a| && a[j] == b[0];
    if a[0] != b[0] {
      assert i > 0 && j > 0;
      LessEqAntisym(a[0], b[0]);
    }
  }

  /** Taking the same first element off two arrangements of the same
      multiset leaves arrangements of the same multiset. */
  lemma TailMultiset(a: seq<string>, b: seq<string>)
    requires multiset(a) == multiset(b) && |a| > 0 && |b| > 0 && a[0] == b[0]
    ensures multiset(a[1..]) == multiset(b[1..])
  {
    assert a == [a[0]] + a[1..] && b == [b[0]] + b[1..];
    assert multiset(a[1..]) == multiset(a) - multiset{a[0]};
    assert multiset(b[1..]) == multiset(b) - multiset{b[0]};
  }

  /** `get_image_files`: a missing directory is an error, as is a path
      that is not a directory (`os.listdir` refuses it); otherwise the
      full paths of the regular files with a supported extension, sorted. */
  function GetImageFiles(fs: Fs, dir: string): (r: Result<seq<string>, FsError>)
    ensures dir !in fs <==> r == Failure(FileNotFound)
    ensures dir in fs && fs[dir].RegularFile? <==> r == Failure(NotADirectory)
    ensures r.Success? ==>
      && Sorted(r.value)
      && multiset(r.value) == multiset(ImagesAmong(fs, dir, fs[dir].entries))
  {
    if dir !in fs then Failure(FileNotFound)
    else if !fs[dir].Directory? then Failure(NotADirectory)
    else Success(Sort(ImagesAmong(fs, dir, fs[dir].entries)))
  }

  /** The files found are exactly the regular files of the directory whose
      extension names a supported format. */
  lemma GetImageFilesContents(fs: Fs, dir: string, p: string)
    requires dir in fs && fs[dir].Directory?
    ensures p in GetImageFiles(fs, dir).value <==>
      exists n :: n in fs[dir].entries && IsImageEntry(fs, dir, n) && p == OsJoin(dir, n)
  {
    var found := ImagesAmong(fs, dir, fs[dir].entries);
    var r := GetImageFiles(fs, dir).value;
    assert multiset(r) == multiset(found);
    assert p in r <==> p in multiset(r);
    assert p in found <==> p in multiset(found);
    FilterMapMembers(fs[dir].entries, n => IsImageEntry(fs, dir, n), n => OsJoin(dir, n), p);
  }

  /** The listing order does not matter: two directories listing the same
      names in different orders give the same image files. */
  lemma ImageFilesIgnoreListingOrder(fs: Fs, dir: string, other: seq<string>)
    requires dir in fs && fs[dir].Directory?
    requires multiset(other) == multiset(fs[dir].entries)
    ensures GetImageFiles(fs, dir) == GetImageFiles(fs[dir := Directory(other)], dir)
  {
    var fs' := fs[dir := Directory(other)];
    var a := ImagesAmong(fs, dir, fs[dir].entries);
    var b := ImagesAmong(fs', dir, other);
    ImagesAmongPermutes(fs, fs', dir, fs[dir].entries, other);
    SortedUnique(Sort(a), Sort(b));
  }

  /** Filtering permuted listings yields permuted results, provided the
      directory itself is not among its entries. */
  lemma ImagesAmongPermutes(fs: Fs, fs': Fs, dir: string, xs: seq<string>, ys: seq<string>)
    requires dir in fs && fs[dir].Directory? && fs' == fs[dir := Directory(ys)]
    requires multiset(xs) == multiset(ys)
    ensures multiset(ImagesAmong(fs, dir, xs)) == multiset(ImagesAmong(fs', dir, ys))
  {
    var keep := n => IsImageEntry(fs, dir, n);
    var keep' := n => IsImageEntry(fs', dir, n);
    var f := n => OsJoin(dir, n);
    forall n | n in xs
      ensures keep(n) == keep'(n)
    {
      if OsJoin(dir, n) != dir && OsJoin(dir, n) in fs {
        assert fs'[OsJoin(dir, n)] == fs[OsJoin(dir, n)];
      }
    }
    FilterMapSame(xs, keep, keep', f);
    FilterMapPerm(xs, ys, keep', f);
  }

  /** The prefix of `path` before its `/` at position `k` is a proper
      ancestor that is a regular file. */
  predicate FileAncestorAt(fs: Fs, path: string, k: int) {
    0 < k < |path| && path[k] == '/' && path[..k] in fs && fs[path[..k]].RegularFile?
  }

  /** Some proper ancestor of `path` is a regular file. */
  predicate UnderFile(fs: Fs, path: string) {
    exists k :: 0 < k < |path| && FileAncestorAt(fs, path, k)
  }

  /** `ensure_dir`: a path that exists, whatever it is, is left alone.
      Otherwise `os.makedirs` creates it as an empty directory. That raises
      `FileNotFoundError` for the empty path, and `NotADirectoryError` when
      a proper ancestor is a regular file. */
  function EnsureDir(fs: Fs, path: string): (r: Result<Fs, FsError>)
    ensures path == "" ==> r == Failure(FileNotFound)
    ensures path != "" && path in fs ==> r == Success(fs)
    ensures path != "" && path !in fs ==> (r.Failure? <==> UnderFile(fs, path))
    ensures r.Failure? ==> path !in fs || path == ""
    ensures r.Success? ==> path in r.value && r.value.Keys == fs.Keys + {path}
    ensures r.Success? && path !in fs ==> r.value[path] == Directory([])
    ensures r.Success? ==> forall q :: q in fs ==> r.value[q] == fs[q]
  {
    if path == "" then Failure(FileNotFound)
    else if path in fs then Success(fs)
    else if UnderFile(fs, path) then Failure(NotADirectory)
    else Success(fs[path := Directory([])])
  }

  /** A regular file at a proper ancestor makes `ensure_dir` of a missing
      path fail. */
  lemma EnsureDirUnderFile(fs: Fs, path: string, k: nat)
    requires path !in fs && FileAncestorAt(fs, path, k)
    ensures EnsureDir(fs, path) == Failure(NotADirectory)
  {
  }

  // ---------------------------------------------------------------------
  // sanitize_filename

  /** The characters a file name may not hold. */
  const InvalidChars: string := "<>:\"/\\|?*"

  /** The replacements one after another, as the loop performs them. */
  function ReplaceEach(s: string, chars: string): (r: string)
    ensures |r| == |s|
    decreases |chars|
  {
    if |chars| == 0 then s else ReplaceEach(ReplaceChar(s, chars[0], '_'), chars[1..])
  }

  predicate IsInvalidChar(c: char) {
    c in InvalidChars
  }

  /** A character as it is saved: an invalid one becomes `_`. */
  function SafeChar(c: char): (d: char)
    ensures !IsInvalidChar(d)
    ensures d == c || d == '_'
  {
    if IsInvalidChar(c) then '_' else c
  }

  /** `sanitize_filename`: every invalid character becomes `_`; an empty
      name becomes `untitled`. The replacement loop of the source is
      `ReplaceEach`; `SanitizeIsReplaceLoop` shows the two agree. */
  function SanitizeFilename(name: string): (r: string)
    ensures r != ""
    ensures name == "" ==> r == "untitled"
    ensures name != "" ==> |r| == |name|
  {
    if name == "" then "untitled"
    else seq(|name|, i requires 0 <= i < |name| => SafeChar(name[i]))
  }

  /** The name as the source computes it: the replacements one invalid
      character at a time, then `untitled` for an empty result. */
  lemma SanitizeIsReplaceLoop(name: string)
    ensures SanitizeFilename(name) ==
      (var replaced := ReplaceEach(name, InvalidChars); if replaced == "" then "untitled" else replaced)
  {
    ReplaceEachMaps(name, InvalidChars);
  }

  /** Each invalid character is replaced one for one by `_`, every other
      character is kept, and no invalid character remains. */
  lemma SanitizeFilenameChars(name: string)
    ensures var r := SanitizeFilename(name);
      name != "" ==> forall i :: 0 <= i < |name| ==> r[i] == (if IsInvalidChar(name[i]) then '_' else name[i])
    ensures var r := SanitizeFilename(name);
      forall i :: 0 <= i < |r| ==> !IsInvalidChar(r[i])
  {
  }

  /** The replacements in turn amount to replacing each character of the
      set in one pass, since `_` is not among them. */
  lemma {:induction false} ReplaceEachMaps(s: string, chars: string)
    requires '_' !in chars
    ensures forall i :: 0 <= i < |s| ==> ReplaceEach(s, chars)[i] == (if s[i] in chars then '_' else s[i])
    decreases |chars|
  {
    if |chars| > 0 {
      var s' := ReplaceChar(s, chars[0], '_');
      ReplaceEachMaps(s', chars[1..]);
      forall i | 0 <= i < |s|
        ensures ReplaceEach(s, chars)[i] == (if s[i] in chars then '_' else s[i])
      {
        assert chars == [chars[0]] + chars[1..];
      }
    }
  }

  /** Sanitising a sanitised name changes nothing. */
  lemma SanitizeIdempotent(name: string)
    ensures SanitizeFilename(SanitizeFilename(name)) == SanitizeFilename(name)
  {
    SanitizeFilenameChars(name);
    SanitizeFilenameChars(SanitizeFilename(name));
  }
}

=== FILE: folder2db.dfy ===
/** The folder import script (`scripts/folder2db/folder2db.py`): every
    sub-directory of a root becomes a category, and its image files are
    uploaded into it, the first one optionally marked as the category's
    thumbnail. The backend is abstract: category creation yields an id or
    fails, and each upload succeeds or fails. */
module Folder2Db {
  import opened Wrappers
  import opened Text
  import opened FileUtils

  /** The command-line switches the import reads. */
  datatype Options = Options(rootDir: string, thumbnail: bool, dryRun: bool)

  /** Parsing of the switches: thumbnails are on unless `--no-thumbnail`
      is given, and `--dry-run` turns on the dry run. */
  function ParseOptions(rootDir: string, flags: seq<string>): (o: Options)
    ensures o.rootDir == rootDir
    ensures o.thumbnail <==> "--no-thumbnail" !in flags
    ensures o.dryRun <==> "--dry-run" in flags
  {
    Options(rootDir, "--no-thumbnail" !in flags, "--dry-run" in flags)
  }

  /** Without switches the first image becomes the thumbnail and the
      upload is real. */
  lemma ThumbnailByDefault(rootDir: string)
    ensures ParseOptions(rootDir, []).thumbnail && !ParseOptions(rootDir, []).dryRun
  {
  }

  /** One call of the upload endpoint. The title sent with it is
      `Title(imagePath)`, so it is not stored separately. */
  datatype Upload = Upload(imagePath: string, categoryId: string, setAsThumbnail: bool)

  /** The title an image is uploaded under: its file name without the
      extension. */
  function Title(imagePath: string): (t: string)
    ensures '/' !in t
    ensures StartsWith(Basename(imagePath), t)
  {
    var name := Basename(imagePath);
    var parts := SplitExt(name);
    assert name == parts.0 + parts.1;
    assert name[..|parts.0|] == parts.0;
    assert forall k :: 0 <= k < |parts.0| ==> parts.0[k] == name[k];
    parts.0
  }

  /** The title of `dir/stem.ext` is `stem`. */
  lemma TitleOfJoin(dir: string, stem: string, ext: string)
    requires stem != [] && '/' !in stem && stem[0] != '.'
    requires |ext| >= 1 && ext[0] == '.' && forall k :: 1 <= k < |ext| ==> ext[k] != '.' && ext[k] != '/'
    ensures Title(OsJoin(dir, stem + ext)) == stem
  {
    BasenameOfJoin(dir, stem + ext);
    SplitExtJoin(stem, ext);
  }

  /** Joining a plain name onto a directory and taking the base name gives
      the name back. */
  lemma BasenameOfJoin(dir: string, name: string)
    requires '/' !in name
    ensures Basename(OsJoin(dir, name)) == name
  {
    var p := OsJoin(dir, name);
    assert !StartsWith(name, "/") by {
      if |name| > 0 {
        assert name[0] in name;
      }
    }
    if dir == "" {
      LastIndexOfAbsent(name, '/');
    } else if dir[|dir| - 1] == '/' {
      assert p == dir[..|dir| - 1] + ['/'] + name;
      LastIndexOfSplit(dir[..|dir| - 1], '/', name);
    } else {
      assert p == dir + ['/'] + name;
      LastIndexOfSplit(dir, '/', name);
    }
  }

  /** The number of uploads the backend accepts. */
  function CountAccepted(us: seq<Upload>, accepts: Upload -> bool): (n: nat)
    ensures n <= |us|
  {
    if |us| == 0 then 0 else (if accepts(us[0]) then 1 else 0) + CountAccepted(us[1..], accepts)
  }

  lemma {:induction false} CountAcceptedSnoc(us: seq<Upload>, u: Upload, accepts: Upload -> bool)
    ensures CountAccepted(us + [u], accepts) == CountAccepted(us, accepts) + (if accepts(u) then 1 else 0)
    decreases |us|
  {
    if |us| > 0 {
      assert (us + [u])[1..] == us[1..] + [u];
      CountAcceptedSnoc(us[1..], u, accepts);
    }
  }

  /** The uploads of the image loop over `images`, in order: the first
      carries the thumbnail flag when thumbnails are enabled. */
  function Uploads(images: seq<string>, categoryId: string, setThumbnail: bool): (us: seq<Upload>)
    ensures |us| == |images|
    ensures forall k :: 0 <= k < |us| ==>
      && us[k].imagePath == images[k]
      && us[k].categoryId == categoryId
      && (us[k].setAsThumbnail <==> setThumbnail && k == 0)
  {
    seq(|images|, k requires 0 <= k < |images| => Upload(images[k], categoryId, setThumbnail && k == 0))
  }

  /** What one category folder yields: the number of accepted images, the
      number of images found, and the uploads attempted. */
  datatype CategoryRun = CategoryRun(success: nat, total: nat, uploads: seq<Upload>)

  /** `process_category`. Outside a dry run the category is created first
      (`created` is the new id, or `None` when creation failed); a dry
      run creates nothing and uses a placeholder id. A failed creation
      and an unreadable folder both give `(0, 0)`. */
  function ProcessCategory(fs: Fs, path: string, created: Option<string>, setThumbnail: bool, dryRun: bool,
                           accepts: Upload -> bool): (r: CategoryRun)
    ensures r.success <= r.total
    ensures !dryRun && created.None? ==> r == CategoryRun(0, 0, [])
    ensures GetImageFiles(fs, path).Failure? ==> r == CategoryRun(0, 0, [])
    ensures (dryRun || created.Some?) && GetImageFiles(fs, path).Success? ==>
      r.total == |GetImageFiles(fs, path).value|
    ensures dryRun ==> r.uploads == [] && r.success == r.total
    ensures !dryRun ==> r.success == CountAccepted(r.uploads, accepts) && |r.uploads| == r.total
    ensures forall k :: 0 <= k < |r.uploads| ==>
      && r.uploads[k].imagePath == GetImageFiles(fs, path).value[k]
      && r.uploads[k].categoryId == created.value
      && (r.uploads[k].setAsThumbnail <==> setThumbnail && k == 0)
  {
    if !dryRun && created.None? then CategoryRun(0, 0, [])
    else
      var categoryId := if dryRun then "dry-run-id" else created.value;
      match GetImageFiles(fs, path)
      case Failure(_) => CategoryRun(0, 0, [])
      case Success(images) =>
        if dryRun then CategoryRun(|images|, |images|, [])
        else
          var us := Uploads(images, categoryId, setThumbnail);
          CategoryRun(CountAccepted(us, accepts), |images|, us)
  }

  /** The image loop of `process_category` as written: a counter bumped
      once per dry-run image or per accepted upload. */
  method UploadImages(images: seq<string>, categoryId: string, setThumbnail: bool, dryRun: bool,
                      accepts: Upload -> bool)
    returns (success: nat, attempted: seq<Upload>)
    ensures dryRun ==> success == |images| && attempted == []
    ensures !dryRun ==> attempted == Uploads(images, categoryId, setThumbnail)
    ensures !dryRun ==> success == CountAccepted(attempted, accepts)
  {
    success, attempted := 0, [];
    ghost var planned := Uploads(images, categoryId, setThumbnail);
    for i := 0 to |images|
      invariant dryRun ==> success == i && attempted == []
      invariant !dryRun ==> attempted == planned[..i] && success == CountAccepted(attempted, accepts)
    {
      var u := Upload(images[i], categoryId, setThumbnail && i == 0);
      if dryRun {
        success := success + 1;
        continue;
      }
      assert u == planned[i];
      assert planned[..i + 1] == planned[..i] + [u];
      CountAcceptedSnoc(attempted, u, accepts);
      attempted := attempted + [u];
      if accepts(u) {
        success := success + 1;
      }
    }
    assert planned[..|images|] == planned;
  }

  /** At most one image of a category carries the thumbnail flag, and none
      does when thumbnails are off. */
  lemma AtMostOneThumbnail(fs: Fs, path: string, created: Option<string>, setThumbnail: bool, dryRun: bool,
                           accepts: Upload -> bool, j: nat, k: nat)
    requires j < k < |ProcessCategory(fs, path, created, setThumbnail, dryRun, accepts).uploads|
    ensures !ProcessCategory(fs, path, created, setThumbnail, dryRun, accepts).uploads[k].setAsThumbnail
  {
  }

  /** A run's outcome: `NoCategories` when the root holds no folder (the
      script returns nothing), `Failed` when scanning raised, `Done` with
      the per-category results otherwise. */
  datatype Outcome = NoCategories | Failed | Done(runs: seq<CategoryRun>)

  /** What `main` returns: `None` (a bare `return`) when there are no
      categories, 1 after a failure, 0 otherwise. */
  function ExitCode(o: Outcome): (code: Option<int>)
    ensures code == None <==> o.NoCategories?
    ensures code == Some(1) <==> o.Failed?
  {
    match o
    case NoCategories => None
    case Failed => Some(1)
    case Done(_) => Some(0)
  }

  /** The status `sys.exit(main())` ends the process with: `sys.exit(None)`
      exits with 0, so only a failure gives a nonzero status. */
  function ExitStatus(o: Outcome): (status: int)
    ensures status == 1 <==> o.Failed?
    ensures status == 0 <==> !o.Failed?
  {
    match ExitCode(o)
    case None => 0
    case Some(n) => n
  }

  function TotalImages(runs: seq<CategoryRun>): nat {
    if |runs| == 0 then 0 else runs[0].total + TotalImages(runs[1..])
  }

  function SuccessImages(runs: seq<CategoryRun>): nat {
    if |runs| == 0 then 0 else runs[0].success + SuccessImages(runs[1..])
  }

  lemma {:induction false} TotalsSnoc(runs: seq<CategoryRun>, r: CategoryRun)
    ensures TotalImages(runs + [r]) == TotalImages(runs) + r.total
    ensures SuccessImages(runs + [r]) == SuccessImages(runs) + r.success
    decreases |runs|
  {
    if |runs| > 0 {
      assert (runs + [r])[1..] == runs[1..] + [r];
      TotalsSnoc(runs[1..], r);
    }
  }

  /** One scanned folder `(name, path)` processed with the run's options.
      A dry run never asks the backend to create the category. */
  function RunCategory(fs: Fs, category: (string, string), opts: Options,
                       create: string -> Option<string>, accepts: Upload -> bool): (r: CategoryRun)
    ensures r.success <= r.total
  {
    ProcessCategory(fs, category.1, if opts.dryRun then None else create(category.0), opts.thumbnail, opts.dryRun, accepts)
  }

  /** The per-category results, one for each scanned folder in order. */
  function RunCategories(fs: Fs, categories: seq<(string, string)>, opts: Options,
                         create: string -> Option<string>, accepts: Upload -> bool): (runs: seq<CategoryRun>)
    ensures |runs| == |categories|
  {
    seq(|categories|, k requires 0 <= k < |categories| => RunCategory(fs, categories[k], opts, create, accepts))
  }

  /** Summed over the categories, no more images are accepted than found. */
  lemma {:induction false} SuccessWithinTotal(runs: seq<CategoryRun>)
    requires forall k :: 0 <= k < |runs| ==> runs[k].success <= runs[k].total
    ensures SuccessImages(runs) <= TotalImages(runs)
  {
    if |runs| > 0 {
      SuccessWithinTotal(runs[1..]);
    }
  }

  /** The run's success total never exceeds its image total. */
  lemma ImportSuccessBounded(fs: Fs, categories: seq<(string, string)>, opts: Options,
                             create: string -> Option<string>, accepts: Upload -> bool)
    ensures var runs := RunCategories(fs, categories, opts, create, accepts);
      SuccessImages(runs) <= TotalImages(runs)
  {
    var runs := RunCategories(fs, categories, opts, create, accepts);
    forall k | 0 <= k < |runs|
      ensures runs[k].success <= runs[k].total
    {
      assert runs[k] == RunCategory(fs, categories[k], opts, create, accepts);
    }
    SuccessWithinTotal(runs);
  }

  /** The counters of `main`, bumped once per category. */
  method SumRuns(runs: seq<CategoryRun>) returns (totalImages: nat, successImages: nat)
    ensures totalImages == TotalImages(runs) && successImages == SuccessImages(runs)
  {
    totalImages, successImages := 0, 0;
    for i := 0 to |runs|
      invariant totalImages == TotalImages(runs[..i]) && successImages == SuccessImages(runs[..i])
    {
      var run := runs[i];
      assert runs[..i + 1] == runs[..i] + [run];
      TotalsSnoc(runs[..i], run);
      totalImages := totalImages + run.total;
      successImages := successImages + run.success;
    }
    assert runs[..|runs|] == runs;
  }

  /** `main`: scan the root, then process every category folder in turn,
      summing the images found and the images accepted. `create` is the
      backend's answer to creating a category of a given name. */
  method ImportFolders(fs: Fs, opts: Options, create: string -> Option<string>, accepts: Upload -> bool)
    returns (outcome: Outcome, totalImages: nat, successImages: nat)
    ensures ScanFolders(fs, opts.rootDir).Failure? <==> outcome == Failed
    ensures ScanFolders(fs, opts.rootDir) == Success([]) <==> outcome == NoCategories
    ensures outcome.Done? ==> outcome.runs == RunCategories(fs, ScanFolders(fs, opts.rootDir).value, opts, create, accepts)
    ensures outcome.Done? ==> totalImages == TotalImages(outcome.runs) && successImages == SuccessImages(outcome.runs)
  {
    totalImages, successImages := 0, 0;
    var scanned := ScanFolders(fs, opts.rootDir);
    if scanned.Failure? {
      return Failed, 0, 0;
    }
    var categories := scanned.value;
    if |categories| == 0 {
      return NoCategories, 0, 0;
    }
    var runs := RunCategories(fs, categories, opts, create, accepts);
    totalImages, successImages := SumRuns(runs);
    outcome := Done(runs);
  }
}

=== FILE: http.dfy ===
/** The HTTP status codes the backend answers with on its error paths. */
module Http {

  datatype Status =
    | BadRequest          // 400: missing category, disallowed MIME type, missing extension, name clash
    | NotFound            // 404: the addressed record does not exist
    | Conflict            // 409: tag name clash, tag still in use
    | PayloadTooLarge     // 413: upload over the size limit
    | Unprocessable       // 422: request model validation failed
    | InternalError       // 500: save/thumbnail failure, integrity error
  {
    function Code(): (code: nat)
      ensures 400 <= code < 600
    {
      match this
      case BadRequest => 400
      case NotFound => 404
      case Conflict => 409
      case PayloadTooLarge => 413
      case Unprocessable => 422
      case InternalError => 500
    }
  }
}

=== FILE: image_crud.dfy ===
/** Image operations (`app/crud/image_crud.py`): record creation, paged
    listing, partial metadata update and deletion with the blobs. */
module ImageCrud {
  import opened Wrappers
  import opened Paths
  import opened Http
  import opened Config
  import opened FileStorage
  import opened Catalog
  import opened Paging

  /** A listing of the image table in the order a query scans it: every
      row exactly once. */
  predicate IsScanOrder(c: Catalog, order: seq<ImageId>) {
    && (forall i :: i in order ==> i in c.images)
    && (forall i :: i in c.images ==> i in order)
    && (forall j, k :: 0 <= j < k < |order| ==> order[j] != order[k])
  }

  /** The table with one row added and everything else as it was. */
  predicate AddsImage(c: Catalog, d: Catalog, id: ImageId, img: Image) {
    && d.images.Keys == c.images.Keys + {id}
    && d.images[id] == img
    && (forall i :: i in c.images ==> d.images[i] == c.images[i])
    && d.categories == c.categories && d.tags == c.tags && d.links == c.links
  }

  /** `create_image`: the row is inserted as given; a stored name already
      in the table violates its unique index (an integrity error, 500). */
  function CreateImage(c: Catalog, data: Image, newId: ImageId): (r: (Result<ImageId, Status>, Catalog))
    requires newId !in c.images
    ensures r.0.Failure? <==> exists i :: i in c.images && c.images[i].storedFilename == data.storedFilename
    ensures r.0.Failure? ==> r.0.error == InternalError && r.1 == c
    ensures r.0.Success? ==> r.0.value == newId && AddsImage(c, r.1, newId, data)
  {
    if exists i :: i in c.images && c.images[i].storedFilename == data.storedFilename
    then (Failure(InternalError), c)
    else (Success(newId), c.(images := c.images[newId := data]))
  }

  lemma CreateImageKeepsValid(c: Catalog, data: Image, newId: ImageId)
    requires Valid(c) && newId !in c.images
    requires data.categoryId in c.categories
    ensures Valid(CreateImage(c, data, newId).1)
  {
  }

  /** The rows of a category in scan order: each of its images once. */
  function CategoryRows(c: Catalog, order: seq<ImageId>, cat: CategoryId): (rows: seq<ImageId>)
    requires IsScanOrder(c, order)
    ensures forall i :: i in rows <==> i in ImagesOf(c, cat)
    ensures forall j, k :: 0 <= j < k < |rows| ==> rows[j] != rows[k]
    ensures |rows| == |ImagesOf(c, cat)|
  {
    var keep := (i: ImageId) => i in c.images && c.images[i].categoryId == cat;
    var rows := Where(order, keep);
    WhereOfDistinct(order, keep);
    assert (set x | x in rows) == ImagesOf(c, cat);
    DistinctCard(rows);
    rows
  }

  /** `get_images_by_category_id`: the category's rows, paged. Each image
      comes back at most once; a page that starts at the first row holds
      every image of the category when the limit allows, and is full
      when the category has enough images. */
  function GetImagesByCategoryId(c: Catalog, order: seq<ImageId>, cat: CategoryId, skip: int, limit: int)
    : (r: seq<ImageId>)
    requires IsScanOrder(c, order)
    ensures forall i :: i in r ==> i in ImagesOf(c, cat)
    ensures forall j, k :: 0 <= j < k < |r| ==> r[j] != r[k]
    ensures limit >= 0 ==> |r| <= limit
    ensures skip <= 0 && (limit < 0 || |ImagesOf(c, cat)| <= limit) ==> forall i :: i in r <==> i in ImagesOf(c, cat)
    ensures skip <= 0 && 0 <= limit <= |ImagesOf(c, cat)| ==> |r| == limit
    ensures Start(skip) >= |ImagesOf(c, cat)| ==> r == []
  {
    var rows := CategoryRows(c, order, cat);
    PageOfDistinct(rows, skip, limit);
    Page(rows, skip, limit)
  }

  /** `get_all_images`: the table, paged. */
  function GetAllImages(c: Catalog, order: seq<ImageId>, skip: int, limit: int): (r: seq<ImageId>)
    requires IsScanOrder(c, order)
    ensures forall i :: i in r ==> i in c.images
    ensures limit >= 0 ==> |r| <= limit
    ensures forall j, k :: 0 <= j < k < |r| ==> r[j] != r[k]
    ensures skip <= 0 && limit < 0 ==> |r| == |c.images| && forall i :: i in r <==> i in c.images
  {
    PageOfDistinct(order, skip, limit);
    DistinctCoversKeys(c, order);
    Page(order, skip, limit)
  }

  lemma DistinctCoversKeys(c: Catalog, order: seq<ImageId>)
    requires IsScanOrder(c, order)
    ensures |order| == |c.images|
  {
    var keys := set i | i in order;
    assert keys == c.images.Keys;
    DistinctCard(order);
  }

  lemma {:induction false} DistinctCard<T>(s: seq<T>)
    requires forall j, k :: 0 <= j < k < |s| ==> s[j] != s[k]
    ensures |set x | x in s| == |s|
  {
    if |s| > 0 {
      var rest := s[1..];
      DistinctCard(rest);
      assert s[0] !in rest;
      assert (set x | x in s) == (set x | x in rest) + {s[0]};
    }
  }

  /** `ImageUpdate` as a partial payload: the fields that were sent.
      `setAsCategoryThumbnail` is accepted but never written. */
  datatype ImageUpdate = ImageUpdate(
    description: Field<Option<string>>,
    tagsText: Field<Option<string>>,
    categoryId: Field<Option<CategoryId>>,
    setAsCategoryThumbnail: Field<bool>)

  /** `update_image_metadata`: only the fields that were sent are written.
      An explicit null for the category breaks its NOT NULL constraint on
      commit (500) and nothing changes. */
  function UpdateImageMetadata(c: Catalog, id: ImageId, upd: ImageUpdate): (r: (Result<Image, Status>, Catalog))
    requires id in c.images
    ensures r.0.Failure? <==> upd.categoryId == SetTo(None)
    ensures r.0.Failure? ==> r.0.error == InternalError && r.1 == c
    ensures r.0.Success? ==>
      var old_ := c.images[id];
      var new_ := r.0.value;
      && r.1 == c.(images := c.images[id := new_])
      && new_.description == upd.description.ApplyTo(old_.description)
      && new_.tagsText == upd.tagsText.ApplyTo(old_.tagsText)
      && new_.categoryId == (if upd.categoryId.SetTo? then upd.categoryId.value.value else old_.categoryId)
      && new_.originalFilename == old_.originalFilename
      && new_.storedFilename == old_.storedFilename
      && new_.relativeFilePath == old_.relativeFilePath
      && new_.relativeThumbnailPath == old_.relativeThumbnailPath
      && new_.mimeType == old_.mimeType
      && new_.sizeBytes == old_.sizeBytes
  {
    var img := c.images[id];
    match upd.categoryId
    case SetTo(None) => (Failure(InternalError), c)
    case _ =>
      var cat := match upd.categoryId
        case SetTo(Some(k)) => k
        case _ => img.categoryId;
      var updated := img.(
        description := upd.description.ApplyTo(img.description),
        tagsText := upd.tagsText.ApplyTo(img.tagsText),
        categoryId := cat);
      (Success(updated), c.(images := c.images[id := updated]))
  }

  /** The thumbnail flag has no effect on the record. */
  lemma UpdateIgnoresThumbnailFlag(c: Catalog, id: ImageId, upd: ImageUpdate)
    requires id in c.images
    ensures UpdateImageMetadata(c, id, upd) == UpdateImageMetadata(c, id, upd.(setAsCategoryThumbnail := Unset))
  {
  }

  /** An update that sends no field leaves the catalog as it was. */
  lemma EmptyUpdateChangesNothing(c: Catalog, id: ImageId, flag: Field<bool>)
    requires id in c.images
    ensures UpdateImageMetadata(c, id, ImageUpdate(Unset, Unset, Unset, flag)) == (Success(c.images[id]), c)
  {
    assert c.images[id := c.images[id]] == c.images;
  }

  /** Moving an image into an existing category keeps the catalog valid. */
  lemma UpdateImageKeepsValid(c: Catalog, id: ImageId, upd: ImageUpdate)
    requires Valid(c) && id in c.images
    requires upd.categoryId.SetTo? && upd.categoryId.value.Some? ==> upd.categoryId.value.value in c.categories
    ensures Valid(UpdateImageMetadata(c, id, upd).1)
  {
  }

  /** The blob paths a record names, each under its root: the original
      when its path is non-empty, and the thumbnail when one is recorded. */
  function BlobPaths(roots: StorageRoots, img: Image): (r: seq<Path>)
    ensures img.relativeFilePath != [] ==> roots.images + img.relativeFilePath in r
    ensures img.relativeThumbnailPath.Some? && img.relativeThumbnailPath.value != [] ==>
      roots.thumbnails + img.relativeThumbnailPath.value in r
    ensures |r| <= 2
  {
    (if img.relativeFilePath != [] then [roots.images + img.relativeFilePath] else [])
    + (match img.relativeThumbnailPath
       case Some(p) => if p != [] then [roots.thumbnails + p] else []
       case None => [])
  }

  /** The catalog without one image row and its association rows. */
  function WithoutImage(c: Catalog, id: ImageId): (d: Catalog)
    ensures d.images.Keys == c.images.Keys - {id}
    ensures forall i :: i in d.images ==> d.images[i] == c.images[i]
    ensures forall l :: l in d.links <==> l in c.links && l.image != id
    ensures d.categories == c.categories && d.tags == c.tags
  {
    c.(images := c.images - {id}, links := set l | l in c.links && l.image != id)
  }

  /** `delete_image`: an absent id gives none and changes nothing.
      Otherwise the record's blobs are deleted first (failures ignored),
      then the record, whose association rows go with it. A failed commit
      raises (500) with the blobs already gone and the record still there. */
  function DeleteImage(c: Catalog, disk: Disk, roots: StorageRoots, id: ImageId, failing: set<Path>, commitOk: bool)
    : (r: (Result<Option<Image>, Status>, Catalog, Disk))
    ensures id !in c.images ==> r == (Success(None), c, disk)
    ensures id in c.images && commitOk ==> r.0 == Success(Some(c.images[id])) && r.1 == WithoutImage(c, id)
    ensures id in c.images && !commitOk ==> r.0 == Failure(InternalError) && r.1 == c
    ensures id in c.images ==>
      && (forall p :: p in BlobPaths(roots, c.images[id]) && p !in failing ==> p !in r.2)
      && (forall p :: p !in BlobPaths(roots, c.images[id]) ==> (p in r.2 <==> p in disk) && (p in r.2 ==> r.2[p] == disk[p]))
  {
    if id !in c.images then (Success(None), c, disk)
    else
      var img := c.images[id];
      var disk' := DeleteAll(disk, BlobPaths(roots, img), failing);
      if commitOk then (Success(Some(img)), WithoutImage(c, id), disk')
      else (Failure(InternalError), c, disk')
  }

  lemma DeleteImageKeepsValid(c: Catalog, disk: Disk, roots: StorageRoots, id: ImageId, failing: set<Path>, commitOk: bool)
    requires Valid(c)
    ensures Valid(DeleteImage(c, disk, roots, id, failing, commitOk).1)
  {
  }
}

=== FILE: image_store.dfy ===
/** The image store of the frontend (`src/store/imageStore.ts`), modelled
    like the category store: each action goes from the state before the
    awaited API call to the state once it has settled. The paging fields
    are kept in the state but no action changes them. */
module ImageStore {
  import opened Wrappers
  import opened StoreCommon

  /** `ImageRead`: the id the store looks at, plus the rest. */
  datatype Image = Image(id: string, title: string, categoryId: string, filePath: string, thumbnailPath: string)

  function ImageId(img: Image): string {
    img.id
  }

  /** The image store's state: the common list state and the paging
      fields. */
  datatype ImageState = ImageState(list: ListState<Image>, totalImages: int, currentPage: int, imagesPerPage: int)

  /** The store as `state()` creates it. */
  const Initial: ImageState := ImageState(ListState([], None, false, None, None), 0, 1, 50)

  /** The paging fields of two states agree. */
  predicate SamePaging(a: ImageState, b: ImageState) {
    a.totalImages == b.totalImages && a.currentPage == b.currentPage && a.imagesPerPage == b.imagesPerPage
  }

  const FetchListFailed: string := "获取图片列表失败"
  const UploadFailed: string := "上传图片失败"

  function DetailsFailed(id: string): string {
    "获取图片 " + id + " 详情失败"
  }

  function UpdateFailed(id: string): string {
    "更新图片 " + id + " 失败"
  }

  function DeleteFailed(id: string): string {
    "删除图片 " + id + " 失败"
  }

  /** `fetchImages`: on success the list is replaced wholesale by the page
      the API returned; on failure it is kept. */
  function FetchImages(s: ImageState, result: ApiResult<seq<Image>>): (r: ImageState)
    ensures Reports(r.list, result, FetchListFailed) && SamePaging(r, s)
    ensures result.Ok? ==> r.list.items == result.value
    ensures result.Err? ==> r.list.items == s.list.items
    ensures r.list.current == s.list.current
  {
    var settled := Settle(s.list, result, FetchListFailed);
    s.(list := if result.Ok? then settled.(items := result.value) else settled)
  }

  /** `fetchImageDetails`: the current image is cleared before the call,
      so a failure leaves none. */
  function FetchImageDetails(s: ImageState, id: string, result: ApiResult<Image>): (r: ImageState)
    ensures Reports(r.list, result, DetailsFailed(id)) && SamePaging(r, s)
    ensures r.list.items == s.list.items
    ensures result.Ok? ==> r.list.current == Some(result.value)
    ensures result.Err? ==> r.list.current.None?
  {
    var settled := Settle(s.list.(current := None), result, DetailsFailed(id));
    s.(list := if result.Ok? then settled.(current := Some(result.value)) else settled)
  }

  /** `addNewImage`: the uploaded image is put at the front of the list; a
      failure keeps the list and is rethrown to the caller. */
  function AddNewImage(s: ImageState, result: ApiResult<Image>): (r: ImageState)
    ensures Reports(r.list, result, UploadFailed) && SamePaging(r, s)
    ensures result.Ok? ==> |r.list.items| == |s.list.items| + 1 && r.list.items[0] == result.value && r.list.items[1..] == s.list.items
    ensures result.Err? ==> r.list.items == s.list.items
    ensures r.list.current == s.list.current
  {
    var settled := Settle(s.list, result, UploadFailed);
    s.(list := if result.Ok? then settled.(items := [result.value] + s.list.items) else settled)
  }

  /** `editImage`: the first image with the id is replaced by the updated
      one, and so is the current image when its id matches. */
  function EditImage(s: ImageState, id: string, result: ApiResult<Image>): (r: ImageState)
    ensures Reports(r.list, result, UpdateFailed(id)) && SamePaging(r, s)
    ensures result.Ok? ==> r.list.items == ReplaceFirst(s.list.items, id, result.value, ImageId)
    ensures result.Err? ==> r.list.items == s.list.items
    ensures result.Ok? && s.list.current.Some? && s.list.current.value.id == id ==> r.list.current == Some(result.value)
    ensures !(result.Ok? && s.list.current.Some? && s.list.current.value.id == id) ==> r.list.current == s.list.current
  {
    var settled := Settle(s.list, result, UpdateFailed(id));
    match result
    case Err(_) => s.(list := settled)
    case Ok(updated) =>
      var current := if s.list.current.Some? && s.list.current.value.id == id then Some(updated) else s.list.current;
      s.(list := settled.(items := ReplaceFirst(s.list.items, id, updated, ImageId), current := current))
  }

  /** `removeImage`: every image with the id is dropped, and the current
      image is cleared when its id matches. */
  function RemoveImage(s: ImageState, id: string, result: ApiResult<()>): (r: ImageState)
    ensures Reports(r.list, result, DeleteFailed(id)) && SamePaging(r, s)
    ensures result.Ok? ==> r.list.items == RemoveAll(s.list.items, id, ImageId)
    ensures result.Err? ==> r.list.items == s.list.items
    ensures result.Ok? && s.list.current.Some? && s.list.current.value.id == id ==> r.list.current.None?
    ensures !(result.Ok? && s.list.current.Some? && s.list.current.value.id == id) ==> r.list.current == s.list.current
  {
    var settled := Settle(s.list, result, DeleteFailed(id));
    if result.Err? then s.(list := settled)
    else
      var current := if s.list.current.Some? && s.list.current.value.id == id then None else s.list.current;
      s.(list := settled.(items := RemoveAll(s.list.items, id, ImageId), current := current))
  }

  /** `clearValidationErrors`: only the validation errors are cleared. */
  function ClearValidationErrors(s: ImageState): (r: ImageState)
    ensures r.list.validationErrors.None? && SamePaging(r, s)
    ensures r.list.items == s.list.items && r.list.current == s.list.current
    ensures r.list.isLoading == s.list.isLoading && r.list.error == s.list.error
  {
    s.(list := s.list.(validationErrors := None))
  }

  /** `clearError`: only the error is cleared. */
  function ClearError(s: ImageState): (r: ImageState)
    ensures r.list.error.None? && SamePaging(r, s)
    ensures r.list.items == s.list.items && r.list.current == s.list.current
    ensures r.list.isLoading == s.list.isLoading && r.list.validationErrors == s.list.validationErrors
  {
    s.(list := s.list.(error := None))
  }

  /** An uploaded image is found first by its id whatever the list held
      before, since it is put in front. */
  lemma AddThenFind(s: ImageState, img: Image)
    ensures FindById(AddNewImage(s, Ok(img)).list.items, img.id, ImageId) == Some(img)
  {
    var items := AddNewImage(s, Ok(img)).list.items;
    var k :| 0 <= k < |items| && items[k] == FindById(items, img.id, ImageId).value && items[k].id == img.id &&
             forall j :: 0 <= j < k ==> items[j].id != img.id;
    assert k == 0;
  }

  /** After a successful edit of a listed image, its id finds the updated
      image. */
  lemma EditThenFind(s: ImageState, id: string, updated: Image)
    requires updated.id == id
    requires exists j :: 0 <= j < |s.list.items| && s.list.items[j].id == id
    ensures FindById(EditImage(s, id, Ok(updated)).list.items, id, ImageId) == Some(updated)
  {
    var k := FindIndex(s.list.items, id, ImageId).value;
    ReplaceFirstOnlyFirst(s.list.items, id, updated, ImageId, k);
    var items := EditImage(s, id, Ok(updated)).list.items;
    assert items[k] == updated;
    var m :| 0 <= m < |items| && items[m] == FindById(items, id, ImageId).value && items[m].id == id &&
             forall j :: 0 <= j < m ==> items[j].id != id;
  }

  /** After a successful removal the id is no longer found, and removing
      it again changes nothing in the list. */
  lemma RemoveThenFind(s: ImageState, id: string)
    ensures FindById(RemoveImage(s, id, Ok(())).list.items, id, ImageId).None?
    ensures var after := RemoveImage(s, id, Ok(()));
      RemoveImage(after, id, Ok(())).list.items == after.list.items
  {
    RemoveAllIdempotent(s.list.items, id, ImageId);
  }

  /** Every action keeps the ids of the list unique, provided a fetched
      page has unique ids, an edit returns the image it was asked to edit
      and an uploaded image has a new id. */
  lemma ActionsKeepUniqueIds(s: ImageState, id: string, page: seq<Image>, img: Image)
    requires UniqueIds(s.list.items, ImageId) && UniqueIds(page, ImageId)
    requires forall j :: 0 <= j < |s.list.items| ==> s.list.items[j].id != img.id
    ensures UniqueIds(FetchImages(s, Ok(page)).list.items, ImageId)
    ensures UniqueIds(AddNewImage(s, Ok(img)).list.items, ImageId)
    ensures UniqueIds(EditImage(s, img.id, Ok(img)).list.items, ImageId)
    ensures UniqueIds(RemoveImage(s, id, Ok(())).list.items, ImageId)
  {
    ReplaceFirstKeepsUnique(s.list.items, img.id, img, ImageId);
    RemoveAllKeepsUnique(s.list.items, id, ImageId);
    var added := AddNewImage(s, Ok(img)).list.items;
    forall i, j | 0 <= i < j < |added|
      ensures added[i].id != added[j].id
    {
      assert added[j] == s.list.items[j - 1];
      if i > 0 {
        assert added[i] == s.list.items[i - 1];
      }
    }
  }
}

=== FILE: images_router.dfy ===
/** The image endpoints (`app/routers/images.py`): the upload pipeline
    with its validation order, the metadata update with its existence
    checks, and the delete that removes the blobs before the record. Each
    handler returns its outcome with the catalog and disk after it. */
module ImagesRouter {
  import opened Wrappers
  import opened Paths
  import opened Http
  import opened Config
  import opened FileStorage
  import opened Thumbnails
  import opened Catalog
  import opened ImageCrud

  /** The multipart form of an upload. */
  datatype UploadForm = UploadForm(
    categoryId: CategoryId,
    file: Upload,
    description: Option<string>,
    tags: Option<string>)

  /** What the environment decides during an upload: the random hex id of
      the stored name, how the write goes, what the image library does,
      and the key the new row receives. */
  datatype UploadEnv = UploadEnv(hex: string, write: WriteOutcome, render: RenderOutcome, newId: ImageId)

  /** The record an upload creates from the saved original and its
      thumbnail, both given relative to their roots. */
  function UploadRecord(form: UploadForm, stored: string, rel: Path, thumbRel: Path, size: nat): (img: Image)
    ensures img.originalFilename == form.file.filename && img.mimeType == form.file.contentType
    ensures img.storedFilename == stored && img.relativeFilePath == rel
    ensures img.relativeThumbnailPath == Some(thumbRel) && img.sizeBytes == size
    ensures img.description == form.description && img.tagsText == form.tags
    ensures img.categoryId == form.categoryId
  {
    Image(form.file.filename, stored, rel, Some(thumbRel), form.file.contentType, size,
          form.description, form.tags, form.categoryId)
  }

  /** The last stage of an upload: the record is built from the saved
      original `s` and its thumbnail `t`, with both paths relative to
      their roots and the size of the stored file. A path outside its root
      or a missing file raises (500), as does a clash on the stored name. */
  function RecordUpload(c: Catalog, disk: Disk, roots: StorageRoots, form: UploadForm, s: Saved, t: Path, newId: ImageId)
    : (r: (Result<ImageId, Status>, Catalog))
    requires newId !in c.images
    ensures r.0.Failure? ==> r == (Failure(InternalError), c)
    ensures r.0.Success? ==> r.0.value == newId && newId in r.1.images && AddsImage(c, r.1, newId, r.1.images[newId])
    ensures r.0.Success? <==>
      && IsPrefix(roots.images, s.path) && IsPrefix(roots.thumbnails, t) && s.path in disk
      && forall i :: i in c.images ==> c.images[i].storedFilename != s.storedFilename
    ensures r.0.Success? ==>
      r.1.images[newId] == UploadRecord(form, s.storedFilename, RelativeTo(s.path, roots.images).value,
                                        RelativeTo(t, roots.thumbnails).value, disk[s.path])
  {
    match (RelativeTo(s.path, roots.images), RelativeTo(t, roots.thumbnails))
    case (Some(rel), Some(thumbRel)) =>
      if s.path !in disk then (Failure(InternalError), c)
      else
        var img := UploadRecord(form, s.storedFilename, rel, thumbRel, disk[s.path]);
        var (created, c') := CreateImage(c, img, newId);
        if created.Failure? then (Failure(InternalError), c)
        else (Success(newId), c')
    case _ => (Failure(InternalError), c)
  }

  /** `upload_image`: the category must exist (400) and the MIME type be
      allowed (400) before anything is written; any failure of the save,
      whatever its status in the storage service, becomes 500; a failed
      thumbnail is 500 and keeps the saved original; only then is the
      record created. */
  function UploadImage(c: Catalog, disk: Disk, roots: StorageRoots, form: UploadForm, env: UploadEnv)
    : (r: (Result<ImageId, Status>, Catalog, Disk))
    requires IsHexId(env.hex) && env.newId !in c.images
    ensures form.categoryId !in c.categories ==> r == (Failure(BadRequest), c, disk)
    ensures form.categoryId in c.categories && !IsAllowedMimeType(form.file.contentType) ==>
      r == (Failure(BadRequest), c, disk)
    ensures r.0.Failure? ==> r.1 == c
    ensures r.0.Failure? && r.2 != disk ==> r.0.error == InternalError
    ensures r.0.Success? ==>
      r.0.value == env.newId && env.newId in r.1.images && AddsImage(c, r.1, env.newId, r.1.images[env.newId])
  {
    if form.categoryId !in c.categories then (Failure(BadRequest), c, disk)
    else if !IsAllowedMimeType(form.file.contentType) then (Failure(BadRequest), c, disk)
    else
      var (saved, d1) := SaveUploadFile(disk, roots.images, form.file, env.hex, env.write);
      match saved
      case Failure(_) => (Failure(InternalError), c, d1)
      case Success(s) =>
        var (thumb, d2) := GenerateThumbnail(d1, roots, s.path, env.render);
        match thumb
        case None => (Failure(InternalError), c, d2)
        case Some(t) =>
          var (res, c') := RecordUpload(c, d2, roots, form, s, t, env.newId);
          (res, c', d2)
  }

  /** A thumbnail's name is never the stored name of its original. */
  lemma ThumbnailNameDiffers(hex: string, ext: string)
    ensures hex + "_thumb" + ext != hex + ext
  {
    assert |hex + "_thumb" + ext| == |hex + ext| + 6;
  }

  /** Paths whose last components differ are different paths. */
  lemma LastDiffers(p: Path, q: Path)
    requires |p| > 0 && |q| > 0 && Name(p) != Name(q)
    ensures p != q
  {
  }

  /** The thumbnail of a freshly stored original is a different file. */
  lemma ThumbnailIsNotOriginal(filename: string, roots: StorageRoots, hex: string)
    requires IsHexId(hex) && Extension(filename) != []
    ensures var a := GenerateStructuredPath(filename, roots.images, hex).value;
      roots.thumbnails + a.subDirectory + [hex + "_thumb" + Extension(filename)] != a.fullPath
  {
    var a := GenerateStructuredPath(filename, roots.images, hex).value;
    var thumbName := hex + "_thumb" + Extension(filename);
    ThumbnailNameDiffers(hex, Extension(filename));
    LastDiffers(roots.thumbnails + a.subDirectory + [thumbName], a.fullPath);
  }

  /** Where a successful save and a rendered thumbnail put the two files,
      relative to their roots, and that the two are different files. */
  lemma UploadPaths(filename: string, roots: StorageRoots, hex: string)
    requires IsHexId(hex) && Extension(filename) != []
    ensures GenerateStructuredPath(filename, roots.images, hex).Success?
    ensures var a := GenerateStructuredPath(filename, roots.images, hex).value;
      var thumbName := hex + "_thumb" + Extension(filename);
      && IsPrefix(roots.images, a.fullPath)
      && RelativeTo(a.fullPath, roots.images) == Some(a.subDirectory + [a.storedFilename])
      && ThumbnailDestination(roots, a.fullPath) == Some(roots.thumbnails + a.subDirectory + [thumbName])
      && RelativeTo(roots.thumbnails + a.subDirectory + [thumbName], roots.thumbnails) == Some(a.subDirectory + [thumbName])
      && roots.thumbnails + a.subDirectory + [thumbName] != a.fullPath
  {
    var a := GenerateStructuredPath(filename, roots.images, hex).value;
    StoredNameKeepsSuffix(filename, roots.images, hex);
    ThumbnailSharesShard(filename, roots, hex);
    RelativeToJoinName(roots.thumbnails, a.subDirectory, hex + "_thumb" + Extension(filename));
    ThumbnailIsNotOriginal(filename, roots, hex);
  }

  /** A save that passes every check writes the whole file at its
      allocated path. */
  lemma SaveStage(disk: Disk, imagesRoot: Path, u: Upload, hex: string, w: WriteOutcome)
    requires IsHexId(hex)
    requires IsAllowedMimeType(u.contentType) && u.size <= MaxImageSize && Extension(u.filename) != [] && w.Complete?
    ensures var a := GenerateStructuredPath(u.filename, imagesRoot, hex).value;
      SaveUploadFile(disk, imagesRoot, u, hex, w) == (Success(Saved(a.fullPath, a.storedFilename)), disk[a.fullPath := u.size])
  {
  }

  /** The stages of an upload whose checks pass and whose write completes:
      the thumbnail step and the record stage decide the outcome. */
  lemma UploadStages(c: Catalog, disk: Disk, roots: StorageRoots, form: UploadForm, env: UploadEnv)
    requires IsHexId(env.hex) && env.newId !in c.images
    requires form.categoryId in c.categories && IsAllowedMimeType(form.file.contentType)
    requires form.file.size <= MaxImageSize && Extension(form.file.filename) != [] && env.write.Complete?
    ensures var a := GenerateStructuredPath(form.file.filename, roots.images, env.hex).value;
      var thumbPath := roots.thumbnails + a.subDirectory + [env.hex + "_thumb" + Extension(form.file.filename)];
      var d1 := disk[a.fullPath := form.file.size];
      var r := UploadImage(c, disk, roots, form, env);
      && (!env.render.Rendered? ==> r.0.Failure?)
      && (env.render.Rendered? ==>
            var d2 := d1[thumbPath := env.render.size];
            var rec := RecordUpload(c, d2, roots, form, Saved(a.fullPath, a.storedFilename), thumbPath, env.newId);
            r == (rec.0, rec.1, d2))
  {
    UploadPaths(form.file.filename, roots, env.hex);
    SaveStage(disk, roots.images, form.file, env.hex, env.write);
  }

  /** A save that fails fails the upload. */
  lemma SaveFailureFailsUpload(c: Catalog, disk: Disk, roots: StorageRoots, form: UploadForm, env: UploadEnv)
    requires IsHexId(env.hex) && env.newId !in c.images
    requires form.categoryId in c.categories && IsAllowedMimeType(form.file.contentType)
    requires !(form.file.size <= MaxImageSize && Extension(form.file.filename) != [] && env.write.Complete?)
    ensures UploadImage(c, disk, roots, form, env).0.Failure?
  {
    assert SaveUploadFile(disk, roots.images, form.file, env.hex, env.write).0.Failure?;
  }

  /** With the file saved and the thumbnail rendered, the record stage
      fails exactly on a clash of stored names. */
  lemma RenderedUploadSucceeds(c: Catalog, disk: Disk, roots: StorageRoots, form: UploadForm, env: UploadEnv)
    requires IsHexId(env.hex) && env.newId !in c.images
    requires form.categoryId in c.categories && IsAllowedMimeType(form.file.contentType)
    requires form.file.size <= MaxImageSize && Extension(form.file.filename) != [] && env.write.Complete?
    requires env.render.Rendered?
    ensures UploadImage(c, disk, roots, form, env).0.Success? <==>
      forall i :: i in c.images ==> c.images[i].storedFilename != env.hex + Extension(form.file.filename)
  {
    UploadStages(c, disk, roots, form, env);
    UploadPaths(form.file.filename, roots, env.hex);
  }

  /** The upload succeeds exactly when every check passes, the write and
      the rendering complete, and the stored name is new to the table. */
  lemma UploadImageSucceeds(c: Catalog, disk: Disk, roots: StorageRoots, form: UploadForm, env: UploadEnv)
    requires IsHexId(env.hex) && env.newId !in c.images
    ensures UploadImage(c, disk, roots, form, env).0.Success? <==>
      && form.categoryId in c.categories
      && IsAllowedMimeType(form.file.contentType)
      && form.file.size <= MaxImageSize
      && Extension(form.file.filename) != []
      && env.write.Complete? && env.render.Rendered?
      && (forall i :: i in c.images ==> c.images[i].storedFilename != env.hex + Extension(form.file.filename))
  {
    if form.categoryId in c.categories && IsAllowedMimeType(form.file.contentType) {
      if !(form.file.size <= MaxImageSize && Extension(form.file.filename) != [] && env.write.Complete?) {
        SaveFailureFailsUpload(c, disk, roots, form, env);
      } else if env.render.Rendered? {
        RenderedUploadSucceeds(c, disk, roots, form, env);
      } else {
        UploadStages(c, disk, roots, form, env);
      }
    }
  }

  /** A successful upload records the original by its shard and stored
      name under the image root and the thumbnail by the same shard under
      the thumbnail root, with the uploaded size; on disk exactly those
      two files appear. */
  lemma UploadImageRecord(c: Catalog, disk: Disk, roots: StorageRoots, form: UploadForm, env: UploadEnv)
    requires IsHexId(env.hex) && env.newId !in c.images
    requires UploadImage(c, disk, roots, form, env).0.Success?
    ensures var r := UploadImage(c, disk, roots, form, env);
      var a := GenerateStructuredPath(form.file.filename, roots.images, env.hex).value;
      var thumbName := env.hex + "_thumb" + Extension(form.file.filename);
      && r.1.images[env.newId] == UploadRecord(form, a.storedFilename, a.subDirectory + [a.storedFilename],
                                               a.subDirectory + [thumbName], form.file.size)
      && r.2 == disk[a.fullPath := form.file.size][roots.thumbnails + a.subDirectory + [thumbName] := env.render.size]
  {
    UploadImageSucceeds(c, disk, roots, form, env);
    UploadStages(c, disk, roots, form, env);
    UploadPaths(form.file.filename, roots, env.hex);
  }

  /** A failed thumbnail keeps the saved original on disk. */
  lemma ThumbnailFailureKeepsOriginal(c: Catalog, disk: Disk, roots: StorageRoots, form: UploadForm, env: UploadEnv)
    requires IsHexId(env.hex) && env.newId !in c.images
    requires form.categoryId in c.categories && IsAllowedMimeType(form.file.contentType)
    requires SaveUploadFile(disk, roots.images, form.file, env.hex, env.write).0.Success?
    requires !env.render.Rendered?
    ensures var r := UploadImage(c, disk, roots, form, env);
      var a := GenerateStructuredPath(form.file.filename, roots.images, env.hex).value;
      && r.0 == Failure(InternalError) && r.1 == c
      && a.fullPath in r.2 && r.2[a.fullPath] == form.file.size
  {
    UploadPaths(form.file.filename, roots, env.hex);
    var a := GenerateStructuredPath(form.file.filename, roots.images, env.hex).value;
    var d1 := disk[a.fullPath := form.file.size];
    assert SaveUploadFile(disk, roots.images, form.file, env.hex, env.write) == (Success(Saved(a.fullPath, a.storedFilename)), d1);
  }

  /** `read_image`: the record, or 404 when the id names none. */
  function ReadImage(c: Catalog, id: ImageId): (r: Result<Image, Status>)
    ensures r.Failure? <==> id !in c.images
    ensures r.Failure? ==> r.error == NotFound
    ensures r.Success? ==> r.value == c.images[id]
  {
    if id in c.images then Success(c.images[id]) else Failure(NotFound)
  }

  /** `update_image_metadata`: 404 for a missing image, 400 when a target
      category is named that does not exist; neither changes anything.
      Otherwise the update of the data layer. */
  function UpdateImage(c: Catalog, id: ImageId, upd: ImageUpdate): (r: (Result<Image, Status>, Catalog))
    ensures id !in c.images ==> r == (Failure(NotFound), c)
    ensures (id in c.images && upd.categoryId.SetTo? && upd.categoryId.value.Some? &&
             upd.categoryId.value.value !in c.categories) ==> r == (Failure(BadRequest), c)
    ensures r.0.Failure? ==> r.1 == c
    ensures r.0.Success? ==> id in c.images && r == UpdateImageMetadata(c, id, upd)
  {
    if id !in c.images then (Failure(NotFound), c)
    else match upd.categoryId
      case SetTo(Some(k)) =>
        if k !in c.categories then (Failure(BadRequest), c)
        else UpdateImageMetadata(c, id, upd)
      case _ => UpdateImageMetadata(c, id, upd)
  }

  /** The endpoint's checks are what the data layer needs: every update
      through the endpoint keeps a valid catalog valid. */
  lemma UpdateImageKeepsCatalogValid(c: Catalog, id: ImageId, upd: ImageUpdate)
    requires Valid(c)
    ensures Valid(UpdateImage(c, id, upd).1)
  {
    if id in c.images && !(upd.categoryId.SetTo? && upd.categoryId.value.Some? && upd.categoryId.value.value !in c.categories) {
      UpdateImageKeepsValid(c, id, upd);
    }
  }

  /** `delete_image`: 404 for a missing image. Otherwise the blobs the
      record names are deleted (errors swallowed) and then the record
      through the data layer, which deletes the same blobs again; a failed
      commit there raises (500) and keeps the record. */
  function DeleteImage(c: Catalog, disk: Disk, roots: StorageRoots, id: ImageId, failing: set<Path>, commitOk: bool)
    : (r: (Result<(), Status>, Catalog, Disk))
    ensures id !in c.images ==> r == (Failure(NotFound), c, disk)
    ensures id in c.images && commitOk ==> r.0.Success? && r.1 == WithoutImage(c, id)
    ensures id in c.images && !commitOk ==> r.0 == Failure(InternalError) && r.1 == c
    ensures id in c.images ==>
      forall p :: p in BlobPaths(roots, c.images[id]) && p !in failing ==> p !in r.2
  {
    if id !in c.images then (Failure(NotFound), c, disk)
    else
      var d := DeleteAll(disk, BlobPaths(roots, c.images[id]), failing);
      var (res, c', d') := ImageCrud.DeleteImage(c, d, roots, id, failing, commitOk);
      if res.Failure? then (Failure(InternalError), c', d')
      else (Success(()), c', d')
  }

  /** Deleting the same paths a second time changes nothing. */
  lemma DeleteAllTwice(disk: Disk, paths: seq<Path>, failing: set<Path>)
    ensures DeleteAll(DeleteAll(disk, paths, failing), paths, failing) == DeleteAll(disk, paths, failing)
  {
    var d1 := DeleteAll(disk, paths, failing);
    var d2 := DeleteAll(d1, paths, failing);
    forall q | q in d2
      ensures q in d1 && d2[q] == d1[q]
    {
      assert q !in paths || q in failing;
    }
    forall q | q in d1
      ensures q in d2
    {
      assert q !in paths || q in failing;
    }
    assert d2.Keys == d1.Keys;
  }

  /** The endpoint's own pass over the blobs is redundant: the outcome is
      the data layer's delete alone. */
  lemma DeleteImageSameAsDataLayer(c: Catalog, disk: Disk, roots: StorageRoots, id: ImageId, failing: set<Path>, commitOk: bool)
    requires id in c.images
    ensures var r := DeleteImage(c, disk, roots, id, failing, commitOk);
      var s := ImageCrud.DeleteImage(c, disk, roots, id, failing, commitOk);
      r.1 == s.1 && r.2 == s.2
  {
    DeleteAllTwice(disk, BlobPaths(roots, c.images[id]), failing);
  }

  /** `upload_image` as written: after the two 400 checks the handler
      unpacks three values from the pair `save_upload_file` returns. The
      `ValueError` is caught by the `except Exception` around the save, so
      every upload that passes the checks ends in 500, and a save that
      succeeded leaves its file on disk. */
  function UploadImageAsWritten(c: Catalog, disk: Disk, roots: StorageRoots, form: UploadForm, env: UploadEnv)
    : (r: (Result<ImageId, Status>, Catalog, Disk))
    requires IsHexId(env.hex)
    ensures form.categoryId !in c.categories ==> r == (Failure(BadRequest), c, disk)
    ensures form.categoryId in c.categories && !IsAllowedMimeType(form.file.contentType) ==>
      r == (Failure(BadRequest), c, disk)
    ensures form.categoryId in c.categories && IsAllowedMimeType(form.file.contentType) ==>
      r.0 == Failure(InternalError)
    ensures r.0.Failure? && r.1 == c
  {
    if form.categoryId !in c.categories then (Failure(BadRequest), c, disk)
    else if !IsAllowedMimeType(form.file.contentType) then (Failure(BadRequest), c, disk)
    else
      var (_, d1) := SaveUploadFile(disk, roots.images, form.file, env.hex, env.write);
      (Failure(InternalError), c, d1)
  }

  /** Where the intended upload creates a record, the upload as written
      answers 500 with the catalog unchanged, while the original it saved
      stays on disk under a stored name that no record carries. */
  lemma UploadAsWrittenLosesUpload(c: Catalog, disk: Disk, roots: StorageRoots, form: UploadForm, env: UploadEnv)
    requires IsHexId(env.hex) && env.newId !in c.images
    requires UploadImage(c, disk, roots, form, env).0.Success?
    ensures var w := UploadImageAsWritten(c, disk, roots, form, env);
      var s := SaveUploadFile(disk, roots.images, form.file, env.hex, env.write).0;
      && w.0 == Failure(InternalError) && w.1 == c
      && s.Success? && s.value.path in w.2
      && forall i :: i in c.images ==> c.images[i].storedFilename != s.value.storedFilename
  {
    var (saved, d1) := SaveUploadFile(disk, roots.images, form.file, env.hex, env.write);
    assert saved.Success?;
    var (thumb, d2) := GenerateThumbnail(d1, roots, saved.value.path, env.render);
    assert thumb.Some?;
    var (res, c') := RecordUpload(c, d2, roots, form, saved.value, thumb.value, env.newId);
    assert res.Success?;
  }

  /** `delete_image` as written: `image_crud.delete_image` is a coroutine
      called without `await`, so it never runs. The blobs are deleted, the
      record stays, and 204 is returned. */
  function DeleteImageAsWritten(c: Catalog, disk: Disk, roots: StorageRoots, id: ImageId, failing: set<Path>)
    : (r: (Result<(), Status>, Catalog, Disk))
    ensures id !in c.images ==> r == (Failure(NotFound), c, disk)
    ensures r.1 == c
    ensures id in c.images ==>
      && r.0.Success?
      && forall p :: p in BlobPaths(roots, c.images[id]) && p !in failing ==> p !in r.2
  {
    if id !in c.images then (Failure(NotFound), c, disk)
    else (Success(()), c, DeleteAll(disk, BlobPaths(roots, c.images[id]), failing))
  }

  /** The delete as written reports the same success and leaves the same
      disk as the intended one, but the record it promised to remove is
      still in the catalog, now naming files that are gone. */
  lemma DeleteAsWrittenKeepsRecord(c: Catalog, disk: Disk, roots: StorageRoots, id: ImageId, failing: set<Path>)
    requires id in c.images
    ensures var w := DeleteImageAsWritten(c, disk, roots, id, failing);
      var f := DeleteImage(c, disk, roots, id, failing, true);
      && w.0 == f.0 == Success(())
      && w.2 == f.2
      && id in w.1.images && id !in f.1.images
  {
    DeleteAllTwice(disk, BlobPaths(roots, c.images[id]), failing);
  }

  /** The top-level names `app/services/image_processing_service.py` defines. */
  const ProcessingServiceNames: set<string> := {"ImageProcessor"}

  /** The names the router imports from that module. */
  const RouterImportNames: set<string> := {"ImageProcessingService"}

  /** The parameter names of `ImageProcessor.generate_thumbnail`. */
  const ThumbnailParameters: set<string> := {"source_path", "max_size"}

  /** The keywords the router passes to `generate_thumbnail`. */
  const RouterThumbnailKeywords: set<string> := {"source_image_path"}

  /** A `from m import ...` binds when `m` defines every imported name; a
      keyword call binds when every keyword names a parameter. Otherwise
      Python raises `ImportError` or `TypeError`. */
  predicate Binds(defined: set<string>, used: set<string>) {
    used <= defined
  }

  /** As written, neither the router's import of the image processor nor
      its keyword call to `generate_thumbnail` binds. Since `app/main.py`
      imports the router, the application fails at start-up. */
  lemma RouterNamesUnbound()
    ensures !Binds(ProcessingServiceNames, RouterImportNames)
    ensures !Binds(ThumbnailParameters, RouterThumbnailKeywords)
  {
    assert "ImageProcessingService" in RouterImportNames;
    assert "source_image_path" in RouterThumbnailKeywords;
  }
}

=== FILE: paging.dfy ===
/** `.offset(skip).limit(limit)` on SQLite: a negative offset counts as
    zero and a negative limit means no limit. */
module Paging {

  function Start(skip: int): (start: nat)
    ensures start == 0 || start == skip
  {
    if skip < 0 then 0 else skip
  }

  /** The rows of a query after skipping and limiting. */
  function Page<T>(rows: seq<T>, skip: int, limit: int): (r: seq<T>)
    ensures Start(skip) >= |rows| ==> r == []
    ensures Start(skip) < |rows| ==> |r| <= |rows| - Start(skip) && r == rows[Start(skip)..Start(skip) + |r|]
    ensures limit >= 0 ==> |r| <= limit
    ensures limit >= 0 && Start(skip) + limit <= |rows| ==> |r| == limit
    ensures (limit < 0 || Start(skip) + limit >= |rows|) && Start(skip) <= |rows| ==> |r| == |rows| - Start(skip)
  {
    var start := Start(skip);
    if start >= |rows| then []
    else if limit < 0 || start + limit >= |rows| then rows[start..]
    else rows[start..start + limit]
  }

  /** Without skipping or limiting every row is returned. */
  lemma PageAll<T>(rows: seq<T>)
    ensures Page(rows, 0, -1) == rows
  {
  }

  /** Two consecutive pages together are the page that spans both. */
  lemma PageSplit<T>(rows: seq<T>, skip: nat, first: nat, second: int)
    ensures Page(rows, skip, first) + Page(rows, skip + first, second) ==
      Page(rows, skip, if second < 0 then -1 else first + second)
  {
    if skip + first < |rows| {
      assert Page(rows, skip, first) == rows[skip..skip + first];
    }
  }

  /** A page of distinct rows holds distinct rows of the query, and without
      skipping or limiting it is the whole query. */
  lemma PageOfDistinct<T>(rows: seq<T>, skip: int, limit: int)
    requires forall j, k :: 0 <= j < k < |rows| ==> rows[j] != rows[k]
    ensures var r := Page(rows, skip, limit);
      && (forall j :: 0 <= j < |r| ==> r[j] in rows)
      && (forall j, k :: 0 <= j < k < |r| ==> r[j] != r[k])
      && (skip <= 0 && limit < 0 ==> r == rows)
  {
    var r := Page(rows, skip, limit);
    var start := Start(skip);
    if start < |rows| {
      forall j | 0 <= j < |r|
        ensures r[j] == rows[start + j]
      {
      }
    }
  }

  /** The rows of `rows` that satisfy `keep`, in their order. */
  function Where<T(!new)>(rows: seq<T>, keep: T -> bool): (r: seq<T>)
    ensures |r| <= |rows|
    ensures forall x :: x in r <==> x in rows && keep(x)
  {
    if |rows| == 0 then []
    else (if keep(rows[0]) then [rows[0]] else []) + Where(rows[1..], keep)
  }

  /** No row occurs twice. */
  ghost predicate Distinct<T>(rows: seq<T>) {
    forall j, k :: 0 <= j < k < |rows| ==> rows[j] != rows[k]
  }

  /** Filtering distinct rows keeps them distinct. */
  lemma {:induction false} WhereOfDistinct<T(!new)>(rows: seq<T>, keep: T -> bool)
    requires Distinct(rows)
    ensures Distinct(Where(rows, keep))
  {
    if |rows| > 0 {
      var rest := rows[1..];
      WhereOfDistinct(rest, keep);
      assert rows[0] !in rest;
      var tail := Where(rest, keep);
      var r := Where(rows, keep);
      if keep(rows[0]) {
        assert r == [rows[0]] + tail;
        forall j, k | 0 <= j < k < |r|
          ensures r[j] != r[k]
        {
          assert r[k] == tail[k - 1];
          if j > 0 {
            assert r[j] == tail[j - 1];
          } else {
            assert r[k] in tail;
          }
        }
      } else {
        assert r == tail;
      }
    }
  }

  /** Filters that agree on the rows select the same rows. */
  lemma {:induction false} WhereSame<T(!new)>(rows: seq<T>, f: T -> bool, g: T -> bool)
    requires forall x :: x in rows ==> f(x) == g(x)
    ensures Where(rows, f) == Where(rows, g)
  {
    if |rows| > 0 {
      WhereSame(rows[1..], f, g);
    }
  }
}

=== FILE: paths.dfy ===
/** POSIX `pathlib` paths as lists of components. A relative path stored on
    an image record, such as `ab/cd/<hex>.png`, is the component list
    `["ab", "cd", "<hex>.png"]`; `Path(".")` is the empty list. */
module Paths {
  import opened Text
  import opened Wrappers

  type Path = seq<string>

  predicate IsComponent(c: string) {
    c != "" && c != "." && '/' !in c
  }

  function DropEmpty(parts: seq<string>): (r: Path)
    ensures forall c :: c in r ==> c in parts && c != "" && c != "."
  {
    if |parts| == 0 then []
    else if parts[0] == "" || parts[0] == "." then DropEmpty(parts[1..])
    else [parts[0]] + DropEmpty(parts[1..])
  }

  /** The components `pathlib.PurePosixPath(s)` parses out of `s`: the
      pieces between slashes, with empty and `.` pieces dropped. */
  function Components(s: string): (r: Path)
    ensures forall c :: c in r ==> IsComponent(c)
  {
    SplitCharCount(s, '/');
    DropEmpty(Split(s, "/"))
  }

  /** `PurePath.name`: the final component, or "" for an empty path. */
  function Name(p: Path): string {
    if |p| == 0 then "" else p[|p| - 1]
  }

  /** The name of the path a string denotes. */
  function NameOf(s: string): (r: string)
    ensures '/' !in r
  {
    var p := Components(s);
    if |p| == 0 then "" else assert p[|p| - 1] in p; p[|p| - 1]
  }

  /** A string without slashes parses to at most one component. */
  lemma ComponentsNoSlash(s: string)
    requires '/' !in s
    ensures Components(s) == (if s == "" || s == "." then [] else [s])
  {
    IndexOfAbsentChar(s, '/');
    assert Split(s, "/") == [s];
    assert DropEmpty([s]) == (if s == "" || s == "." then [] else [s]) by {
      assert [s][1..] == [];
    }
  }

  /** A plain file name (no slash, not empty, not ".") names itself. */
  lemma NameOfPlain(s: string)
    requires IsComponent(s)
    ensures NameOf(s) == s
  {
    ComponentsNoSlash(s);
  }

  /** `PurePath.suffix`: from the last dot on, provided the dot is neither
      the first nor the last character of the name. */
  function Suffix(name: string): (r: string)
    ensures r == [] || (|r| >= 2 && r[0] == '.' && '.' !in r[1..])
    ensures r == [] || EndsWith(name, r)
  {
    var i := LastIndexOf(name, '.');
    if 0 < i < |name| - 1 then
      assert forall j :: 1 <= j < |name[i..]| ==> name[i..][j] == name[i + j];
      name[i..]
    else ""
  }

  /** `PurePath.stem`: the name without its suffix. */
  function Stem(name: string): (r: string)
    ensures r + Suffix(name) == name
  {
    var i := LastIndexOf(name, '.');
    if 0 < i < |name| - 1 then name[..i] else name
  }

  /** A name built as `stem + suffix`, where the stem has no dot and the
      suffix is a dot followed by at least one dot-free character, splits
      back into exactly that stem and suffix. */
  lemma SuffixOfJoined(stem: string, ext: string)
    requires |stem| > 0 && '.' !in stem
    requires |ext| >= 2 && ext[0] == '.' && '.' !in ext[1..]
    ensures Suffix(stem + ext) == ext
    ensures Stem(stem + ext) == stem
  {
    assert stem + ext == stem + ['.'] + ext[1..];
    LastIndexOfSplit(stem, '.', ext[1..]);
  }

  /** `PurePath.relative_to(base)`: defined only when `base` is a prefix. */
  function RelativeTo(p: Path, base: Path): (r: Option<Path>)
    ensures r.Some? <==> (|base| <= |p| && p[..|base|] == base)
    ensures r.Some? ==> base + r.value == p
  {
    if |base| <= |p| && p[..|base|] == base then Some(p[|base|..]) else None
  }

  /** A path joined onto a base is relative to it by exactly the joined part. */
  lemma RelativeToJoin(base: Path, rest: Path)
    ensures RelativeTo(base + rest, base) == Some(rest)
  {
    assert (base + rest)[..|base|] == base;
  }

  /** A directory and a name joined onto a base are relative to it by
      exactly the directory and the name. */
  lemma RelativeToJoinName(base: Path, dir: Path, name: string)
    ensures RelativeTo(base + dir + [name], base) == Some(dir + [name])
  {
    assert base + dir + [name] == base + (dir + [name]);
    RelativeToJoin(base, dir + [name]);
  }

  /** `PurePath.parent` of a relative path (the parent of `.` is `.`). */
  function Parent(p: Path): (r: Path)
    ensures |p| > 0 ==> r + [Name(p)] == p
    ensures |p| == 0 ==> r == []
  {
    if |p| == 0 then [] else p[..|p| - 1]
  }
}

=== FILE: species.dfy ===
/** The species table and its two queries (`app/crud/species_info_crud.py`):
    the name-suggestion search and the exact, case-insensitive lookup. The
    table is a sequence of rows in the order SQLite scans them. */
module SpeciesInfo {
  import opened Wrappers
  import opened Text
  import opened Paging

  /** A `species` row. The pinyin columns are nullable. */
  datatype Species = Species(
    orderDetails: string,
    familyDetails: string,
    genusDetails: string,
    nameChinese: string,
    nameEnglish: Option<string>,
    nameLatin: Option<string>,
    href: Option<string>,
    pinyinFull: Option<string>,
    pinyinInitials: Option<string>)

  // ---------------------------------------------------------------------
  // SQLite LIKE

  /** SQLite's `LIKE` without an escape character: `%` matches any run of
      characters, `_` any one character, and every other character matches
      itself ignoring ASCII case. */
  predicate LikeMatch(s: string, pattern: string)
    decreases |s| + |pattern|
  {
    if |pattern| == 0 then |s| == 0
    else if pattern[0] == '%' then LikeMatch(s, pattern[1..]) || (|s| > 0 && LikeMatch(s[1..], pattern))
    else if pattern[0] == '_' then |s| > 0 && LikeMatch(s[1..], pattern[1..])
    else |s| > 0 && LowerChar(s[0]) == LowerChar(pattern[0]) && LikeMatch(s[1..], pattern[1..])
  }

  /** `column.startswith(value)` in SQLAlchemy: `column LIKE value || '%'`,
      with the value not escaped. NULL matches nothing. */
  predicate LikeStartsWith(column: Option<string>, value: string) {
    column.Some? && LikeMatch(column.value, value + "%")
  }

  /** A term free of the two wildcard characters. */
  predicate NoWildcards(t: string) {
    '%' !in t && '_' !in t
  }

  lemma {:induction false} LikeAnything(s: string)
    ensures LikeMatch(s, "%")
    decreases |s|
  {
    if |s| > 0 {
      LikeAnything(s[1..]);
    }
  }

  /** Without wildcards, the pattern `t%` is a prefix test ignoring ASCII case. */
  lemma {:induction false} LikePlainPrefix(s: string, t: string)
    requires NoWildcards(t)
    ensures LikeMatch(s, t + "%") <==> StartsWith(Lower(s), Lower(t))
    decreases |t|
  {
    if |t| == 0 {
      assert t + "%" == "%";
      LikeAnything(s);
    } else {
      assert (t + "%")[0] == t[0];
      assert (t + "%")[1..] == t[1..] + "%";
      assert NoWildcards(t[1..]) by {
        assert forall c :: c in t[1..] ==> c in t;
      }
      if |s| > 0 {
        LikePlainPrefix(s[1..], t[1..]);
        assert Lower(s) == [LowerChar(s[0])] + Lower(s[1..]);
        assert Lower(t) == [LowerChar(t[0])] + Lower(t[1..]);
      }
    }
  }

  // ---------------------------------------------------------------------
  // Search

  /** The condition of `search_species_names_by_term` for a lowered term:
      the lowered Chinese name, the full pinyin or the pinyin initials
      `startswith` the term. */
  predicate MatchesLike(s: Species, termLower: string) {
    || LikeStartsWith(Some(Lower(s.nameChinese)), termLower)
    || LikeStartsWith(s.pinyinFull, termLower)
    || LikeStartsWith(s.pinyinInitials, termLower)
  }

  /** The Chinese names of the rows, in order. */
  function Names(rows: seq<Species>): (r: seq<string>)
    ensures |r| == |rows|
    ensures forall i :: 0 <= i < |rows| ==> r[i] == rows[i].nameChinese
  {
    seq(|rows|, i requires 0 <= i < |rows| => rows[i].nameChinese)
  }

  lemma NamesMembership(rows: seq<Species>)
    ensures forall s :: s in rows ==> s.nameChinese in Names(rows)
    ensures forall n :: n in Names(rows) ==> exists s :: s in rows && s.nameChinese == n
  {
    forall s | s in rows
      ensures s.nameChinese in Names(rows)
    {
      var k :| 0 <= k < |rows| && rows[k] == s;
      assert Names(rows)[k] == s.nameChinese;
    }
    forall n | n in Names(rows)
      ensures exists s :: s in rows && s.nameChinese == n
    {
      var k :| 0 <= k < |rows| && Names(rows)[k] == n;
      assert rows[k] in rows;
    }
  }

  /** `select(Species.name_chinese).where(keep).limit(limit)`: the names of
      the kept rows in scan order, at most `limit` of them (SQLite reads a
      negative limit as none). */
  function SelectNames(table: seq<Species>, keep: Species -> bool, limit: int): (r: seq<string>)
    ensures limit >= 0 ==> |r| <= limit
    ensures forall n :: n in r ==> exists s :: s in table && s.nameChinese == n && keep(s)
    ensures limit < 0 ==> forall s :: s in table && keep(s) ==> s.nameChinese in r
  {
    var rows := Where(table, keep);
    var page := Page(rows, 0, limit);
    assert forall x :: x in page ==> x in rows;
    assert limit < 0 ==> page == rows;
    NamesMembership(page);
    Names(page)
  }

  /** `search_species_names_by_term`: nothing for an empty term; otherwise
      the names of the rows matching the lowered term, at most `limit`. */
  function SearchSpeciesNames(table: seq<Species>, term: string, limit: int): (r: seq<string>)
    ensures term == [] ==> r == []
    ensures limit >= 0 ==> |r| <= limit
    ensures forall n :: n in r ==> exists s :: s in table && s.nameChinese == n && MatchesLike(s, Lower(term))
    ensures term != [] && limit < 0 ==>
      forall s :: s in table && MatchesLike(s, Lower(term)) ==> s.nameChinese in r
  {
    if term == [] then []
    else SelectNames(table, (s: Species) => MatchesLike(s, Lower(term)), limit)
  }

  /** The intended reading of the search: a prefix of the lowered name or
      of a pinyin column, compared ignoring ASCII case. */
  predicate PrefixMatches(s: Species, term: string) {
    || StartsWith(Lower(s.nameChinese), Lower(term))
    || (s.pinyinFull.Some? && StartsWith(Lower(s.pinyinFull.value), Lower(term)))
    || (s.pinyinInitials.Some? && StartsWith(Lower(s.pinyinInitials.value), Lower(term)))
  }

  /** For a term without wildcards the query is exactly that prefix search.
      Since `LIKE` ignores ASCII case, this holds whatever the case of the
      stored pinyin. */
  lemma MatchesLikePlain(s: Species, term: string)
    requires NoWildcards(term)
    ensures MatchesLike(s, Lower(term)) <==> PrefixMatches(s, term)
  {
    LowerKeepsChar(term, '%');
    LowerKeepsChar(term, '_');
    LowerIdempotent(term);
    LowerIdempotent(s.nameChinese);
    LikePlainPrefix(Lower(s.nameChinese), Lower(term));
    if s.pinyinFull.Some? {
      LikePlainPrefix(s.pinyinFull.value, Lower(term));
    }
    if s.pinyinInitials.Some? {
      LikePlainPrefix(s.pinyinInitials.value, Lower(term));
    }
  }

  /** A wildcard in the term is not taken literally: `_` matches a species
      whose name does not start with `_`. */
  lemma WildcardTermMatchesAnyName()
    ensures var s := Species("", "", "", "麻雀", None, None, None, None, None);
      && !PrefixMatches(s, "_")
      && SearchSpeciesNames([s], "_", 10) == ["麻雀"]
  {
    var s := Species("", "", "", "麻雀", None, None, None, None, None);
    assert Lower("麻雀") == "麻雀";
    assert Lower("_") == "_";
    LikeAnything("雀");
    assert LikeMatch("麻雀", "_%");
    assert MatchesLike(s, Lower("_"));
    assert Where([s], (x: Species) => MatchesLike(x, Lower("_"))) == [s];
  }

  /** The search with the term escaped (`startswith(..., autoescape=True)`):
      a plain prefix search. */
  function SearchSpeciesNamesEscaped(table: seq<Species>, term: string, limit: int): (r: seq<string>)
    ensures term == [] ==> r == []
    ensures limit >= 0 ==> |r| <= limit
    ensures forall n :: n in r ==> exists s :: s in table && s.nameChinese == n && PrefixMatches(s, term)
    ensures term != [] && limit < 0 ==>
      forall s :: s in table && PrefixMatches(s, term) ==> s.nameChinese in r
  {
    if term == [] then []
    else SelectNames(table, (s: Species) => PrefixMatches(s, term), limit)
  }

  /** For terms without wildcards the escaped search changes nothing. */
  lemma EscapedSearchAgrees(table: seq<Species>, term: string, limit: int)
    requires NoWildcards(term)
    ensures SearchSpeciesNamesEscaped(table, term, limit) == SearchSpeciesNames(table, term, limit)
  {
    forall s | s in table
      ensures MatchesLike(s, Lower(term)) == PrefixMatches(s, term)
    {
      MatchesLikePlain(s, term);
    }
    WhereSame(table, (s: Species) => MatchesLike(s, Lower(term)), (s: Species) => PrefixMatches(s, term));
  }

  // ---------------------------------------------------------------------
  // Exact lookup

  /** The row `get_species_by_exact_chinese_name` compares against. */
  predicate SameChineseName(s: Species, name: string) {
    Lower(s.nameChinese) == Lower(name)
  }

  /** The position of the first row whose lowered name equals the lowered
      `name`, if any. */
  function FirstExact(table: seq<Species>, name: string): (r: Option<nat>)
    ensures r.Some? ==> r.value < |table| && SameChineseName(table[r.value], name)
    ensures r.Some? ==> forall j :: 0 <= j < r.value ==> !SameChineseName(table[j], name)
    ensures r.None? ==> forall j :: 0 <= j < |table| ==> !SameChineseName(table[j], name)
  {
    if |table| == 0 then None
    else if SameChineseName(table[0], name) then Some(0)
    else match FirstExact(table[1..], name)
      case None => None
      case Some(k) => Some(k + 1)
  }

  /** `get_species_by_exact_chinese_name`: the first row in scan order
      whose name equals `name` ignoring case, or none. */
  function GetSpeciesByExactChineseName(table: seq<Species>, name: string): (r: Option<Species>)
    ensures r.None? <==> forall s :: s in table ==> !SameChineseName(s, name)
    ensures r.Some? ==> r.value in table && SameChineseName(r.value, name)
  {
    match FirstExact(table, name)
    case None => None
    case Some(k) => Some(table[k])
  }

  /** Names that differ only in ASCII case find the same row. */
  lemma ExactLookupIgnoresCase(table: seq<Species>, a: string, b: string)
    requires Lower(a) == Lower(b)
    ensures GetSpeciesByExactChineseName(table, a) == GetSpeciesByExactChineseName(table, b)
  {
    assert forall s :: SameChineseName(s, a) == SameChineseName(s, b);
    FirstExactSame(table, a, b);
  }

  lemma {:induction false} FirstExactSame(table: seq<Species>, a: string, b: string)
    requires Lower(a) == Lower(b)
    ensures FirstExact(table, a) == FirstExact(table, b)
  {
    if |table| > 0 {
      FirstExactSame(table[1..], a, b);
    }
  }
}

=== FILE: species_import.dfy ===
/** The species import script (`scripts/import_species_data.py`): records
    of a JSON file become species rows, skipping records without a Chinese
    name and names already in the table. The pinyin conversion is a
    parameter. */
module SpeciesImport {
  import opened Wrappers
  import opened SpeciesInfo

  /** A record of the JSON file: its string fields by key. */
  type RawItem = map<string, string>

  /** What loading the file yields: the `数据记录` list of objects; a top
      level whose `数据记录` is missing or not a list; a file that is missing
      or not JSON; a top level that is not an object, which has no `get`;
      or a `数据记录` list whose first non-object record follows the objects
      in `before`. */
  datatype JsonFile =
    | Records(items: seq<RawItem>)
    | RecordsNotAList
    | Unreadable
    | NotAnObject
    | NonObjectRecord(before: seq<RawItem>)

  /** How `import_data` ends: after the loop; after logging a file it
      refuses and returning; or by the `AttributeError` of a `get` on a
      value that is not an object, which escapes the script. */
  datatype Ending = Imported | Refused | Raised

  /** The two pinyin conversions of a Chinese name. */
  datatype Pinyin = Pinyin(full: string -> string, initials: string -> string)

  /** `dict.get(key, default)`. */
  function Get(item: RawItem, key: string, default: string): (v: string)
    ensures key in item ==> v == item[key]
    ensures key !in item ==> v == default
  {
    if key in item then item[key] else default
  }

  /** `dict.get(key)`. */
  function GetOpt(item: RawItem, key: string): (v: Option<string>)
    ensures v.Some? <==> key in item
    ensures v.Some? ==> v.value == item[key]
  {
    if key in item then Some(item[key]) else None
  }

  /** A record is usable when its `中文种名` is present and non-empty. */
  predicate HasChineseName(item: RawItem) {
    "中文种名" in item && item["中文种名"] != ""
  }

  /** `prepare_species_from_json_item`: none for a record without a Chinese
      name; otherwise the row, with 目/科/属 defaulting to the empty
      string and the pinyin computed from the Chinese name. */
  function PrepareSpecies(item: RawItem, py: Pinyin): (r: Option<Species>)
    ensures r.Some? <==> HasChineseName(item)
    ensures r.Some? ==>
      && r.value.nameChinese == item["中文种名"]
      && r.value.pinyinFull == Some(py.full(item["中文种名"]))
      && r.value.pinyinInitials == Some(py.initials(item["中文种名"]))
  {
    if !HasChineseName(item) then None
    else
      var name := item["中文种名"];
      Some(Species(
        Get(item, "目", ""), Get(item, "科", ""), Get(item, "属", ""),
        name, GetOpt(item, "英文种名"), GetOpt(item, "学名"), GetOpt(item, "href"),
        Some(py.full(name)), Some(py.initials(name))))
  }

  /** The taxonomy fields default to the empty string, and records with
      the same Chinese name get the same pinyin whatever else they hold. */
  lemma PrepareSpeciesFields(a: RawItem, b: RawItem, py: Pinyin)
    requires HasChineseName(a) && HasChineseName(b) && a["中文种名"] == b["中文种名"]
    ensures var s := PrepareSpecies(a, py).value;
      && ("目" !in a ==> s.orderDetails == "")
      && ("科" !in a ==> s.familyDetails == "")
      && ("属" !in a ==> s.genusDetails == "")
      && ("英文种名" !in a ==> s.nameEnglish.None?)
    ensures PrepareSpecies(a, py).value.pinyinFull == PrepareSpecies(b, py).value.pinyinFull
    ensures PrepareSpecies(a, py).value.pinyinInitials == PrepareSpecies(b, py).value.pinyinInitials
  {
  }

  /** The Chinese names in a table. */
  function NamesIn(rows: seq<Species>): (r: set<string>)
    ensures forall n :: n in r <==> exists s :: s in rows && s.nameChinese == n
  {
    set s | s in rows :: s.nameChinese
  }

  /** The unique index on `name_chinese`. */
  predicate UniqueNames(rows: seq<Species>) {
    forall i, j :: 0 <= i < j < |rows| ==> rows[i].nameChinese != rows[j].nameChinese
  }

  /** The counters of the import loop and the rows it collected. */
  datatype ImportReport = ImportReport(processed: nat, added: seq<Species>, skippedExisting: nat, skippedInvalid: nat)

  /** One record: invalid records and known names are counted and skipped,
      other records are collected. The known names are those of the table,
      and, when `checkBatch` holds, also those collected so far. */
  function ImportStep(table: seq<Species>, rep: ImportReport, item: RawItem, py: Pinyin, checkBatch: bool): (r: ImportReport)
    ensures r.processed == rep.processed + 1
    ensures |r.added| + r.skippedExisting + r.skippedInvalid == |rep.added| + rep.skippedExisting + rep.skippedInvalid + 1
  {
    match PrepareSpecies(item, py)
    case None => rep.(processed := rep.processed + 1, skippedInvalid := rep.skippedInvalid + 1)
    case Some(s) =>
      if s.nameChinese in NamesIn(table) || (checkBatch && s.nameChinese in NamesIn(rep.added))
      then rep.(processed := rep.processed + 1, skippedExisting := rep.skippedExisting + 1)
      else rep.(processed := rep.processed + 1, added := rep.added + [s])
  }

  /** The import loop over the records, in order. */
  function ImportLoop(table: seq<Species>, items: seq<RawItem>, py: Pinyin, checkBatch: bool): (r: ImportReport)
    ensures r.processed == |items|
    ensures r.processed == |r.added| + r.skippedExisting + r.skippedInvalid
    decreases |items|
  {
    if |items| == 0 then ImportReport(0, [], 0, 0)
    else ImportStep(table, ImportLoop(table, items[..|items| - 1], py, checkBatch), items[|items| - 1], py, checkBatch)
  }

  /** Every collected row comes from a record and has a name the table
      does not hold. */
  lemma {:induction false} ImportLoopAddsNew(table: seq<Species>, items: seq<RawItem>, py: Pinyin, checkBatch: bool)
    ensures forall s :: s in ImportLoop(table, items, py, checkBatch).added ==>
      && s.nameChinese !in NamesIn(table)
      && exists k :: 0 <= k < |items| && PrepareSpecies(items[k], py) == Some(s)
    decreases |items|
  {
    if |items| > 0 {
      var prefix := items[..|items| - 1];
      ImportLoopAddsNew(table, prefix, py, checkBatch);
      var rep := ImportLoop(table, prefix, py, checkBatch);
      var r := ImportLoop(table, items, py, checkBatch);
      forall s | s in r.added
        ensures s.nameChinese !in NamesIn(table)
        ensures exists k :: 0 <= k < |items| && PrepareSpecies(items[k], py) == Some(s)
      {
        if s in rep.added {
          var k :| 0 <= k < |prefix| && PrepareSpecies(prefix[k], py) == Some(s);
          assert items[k] == prefix[k];
        } else {
          assert PrepareSpecies(items[|items| - 1], py) == Some(s);
        }
      }
    }
  }

  /** Every record with a Chinese name ends up with that name in the table
      or among the collected rows. */
  lemma {:induction false} ImportLoopCovers(table: seq<Species>, items: seq<RawItem>, py: Pinyin, checkBatch: bool)
    ensures forall k :: 0 <= k < |items| && HasChineseName(items[k]) ==>
      items[k]["中文种名"] in NamesIn(table) + NamesIn(ImportLoop(table, items, py, checkBatch).added)
    decreases |items|
  {
    if |items| > 0 {
      var prefix := items[..|items| - 1];
      ImportLoopCovers(table, prefix, py, checkBatch);
      var rep := ImportLoop(table, prefix, py, checkBatch);
      var r := ImportLoop(table, items, py, checkBatch);
      assert forall s :: s in rep.added ==> s in r.added;
      forall k | 0 <= k < |items| && HasChineseName(items[k])
        ensures items[k]["中文种名"] in NamesIn(table) + NamesIn(r.added)
      {
        if k < |prefix| {
          assert items[k] == prefix[k];
        }
      }
    }
  }

  /** With the batch checked, the collected rows have distinct names. */
  lemma {:induction false} ImportLoopUnique(table: seq<Species>, items: seq<RawItem>, py: Pinyin)
    ensures UniqueNames(ImportLoop(table, items, py, true).added)
    decreases |items|
  {
    if |items| > 0 {
      var prefix := items[..|items| - 1];
      ImportLoopUnique(table, prefix, py);
      var rep := ImportLoop(table, prefix, py, true);
      var r := ImportLoop(table, items, py, true);
      if |r.added| > |rep.added| {
        var s := r.added[|r.added| - 1];
        assert r.added == rep.added + [s];
        assert s.nameChinese !in NamesIn(rep.added);
        forall i, j | 0 <= i < j < |r.added|
          ensures r.added[i].nameChinese != r.added[j].nameChinese
        {
          if j == |r.added| - 1 {
            assert r.added[i] in rep.added;
          }
        }
      }
    }
  }

  /** `import_data` as written: nothing happens when the file cannot be
      read or its records are not a list; `data.get` on a top level that is
      not an object, or `raw_item.get` on a record that is not one, raises
      before anything is staged; otherwise the collected rows are added
      unless it is a dry run. Only the table is consulted for existing
      names. */
  function ImportDataAsWritten(table: seq<Species>, file: JsonFile, dryRun: bool, py: Pinyin)
    : (r: (Option<ImportReport>, seq<Species>, Ending))
    ensures r.2 == Imported <==> file.Records?
    ensures r.2 == Raised <==> file.NotAnObject? || file.NonObjectRecord?
    ensures !file.Records? ==> r.0 == None && r.1 == table
    ensures file.Records? ==> r.0.Some? && r.0.value.processed == |file.items|
    ensures dryRun ==> r.1 == table
    ensures file.Records? && !dryRun ==> r.1 == table + r.0.value.added
  {
    match file
    case Records(items) =>
      var rep := ImportLoop(table, items, py, false);
      (Some(rep), if dryRun then table else table + rep.added, Imported)
    case NotAnObject => (None, table, Raised)
    case NonObjectRecord(_) => (None, table, Raised)
    case _ => (None, table, Refused)
  }

  /** The rows collected before a record that is not an object are lost:
      records naming a species new to the table add a row on their own,
      but followed by a record that is not an object they add nothing. */
  lemma NonObjectRecordLosesBatch(table: seq<Species>, before: seq<RawItem>, py: Pinyin, k: nat)
    requires k < |before| && HasChineseName(before[k]) && before[k]["中文种名"] !in NamesIn(table)
    ensures ImportDataAsWritten(table, NonObjectRecord(before), false, py) == (None, table, Raised)
    ensures |ImportDataAsWritten(table, Records(before), false, py).1| > |table|
  {
    ImportLoopCovers(table, before, py, false);
    var added := ImportLoop(table, before, py, false).added;
    assert before[k]["中文种名"] in NamesIn(added);
  }

  /** Two records with the same new Chinese name in one file are both
      added, which the unique index on the name refuses. */
  lemma DuplicateInBatchBreaksUniqueness(py: Pinyin)
    ensures var item: RawItem := map["中文种名" := "麻雀"];
      var r := ImportDataAsWritten([], Records([item, item]), false, py);
      && |r.1| == 2
      && !UniqueNames(r.1)
  {
    var item: RawItem := map["中文种名" := "麻雀"];
    var items := [item, item];
    assert items[..1] == [item];
    assert [item][..0] == [];
    var s := PrepareSpecies(item, py).value;
    assert ImportLoop([], [item], py, false).added == [s];
    assert ImportLoop([], items, py, false).added == [s, s];
    var r := ImportDataAsWritten([], Records(items), false, py);
    assert r.1 == [s, s];
    assert r.1[0].nameChinese == r.1[1].nameChinese;
  }

  /** The added rows of a table with unique names, when new to it and
      unique among themselves, keep the names unique. */
  lemma AppendKeepsUnique(table: seq<Species>, added: seq<Species>)
    requires UniqueNames(table) && UniqueNames(added)
    requires forall s :: s in added ==> s.nameChinese !in NamesIn(table)
    ensures UniqueNames(table + added)
  {
    var t := table + added;
    forall i, j | 0 <= i < j < |t|
      ensures t[i].nameChinese != t[j].nameChinese
    {
      if i < |table| && j >= |table| {
        assert t[j] == added[j - |table|];
        assert t[j] in added;
        assert t[i] in table;
      } else if i >= |table| {
        assert t[i] == added[i - |table|] && t[j] == added[j - |table|];
      }
    }
  }

  /** `import_data` with names also checked against the records already
      collected, so a file that repeats a name adds it once. The loop
      counts as the script does; the table keeps unique names. */
  method ImportData(table: seq<Species>, file: JsonFile, dryRun: bool, py: Pinyin)
    returns (report: Option<ImportReport>, table': seq<Species>, ending: Ending)
    ensures ending == Imported <==> file.Records?
    ensures ending == Raised <==> file.NotAnObject? || file.NonObjectRecord?
    ensures !file.Records? ==> report.None? && table' == table
    ensures file.Records? ==> report == Some(ImportLoop(table, file.items, py, true))
    ensures file.Records? ==>
      && report.value.processed == |file.items|
      && report.value.processed == |report.value.added| + report.value.skippedExisting + report.value.skippedInvalid
    ensures dryRun ==> table' == table
    ensures file.Records? && !dryRun ==> table' == table + report.value.added
    ensures file.Records? && !dryRun ==> forall k :: 0 <= k < |file.items| && HasChineseName(file.items[k]) ==>
      file.items[k]["中文种名"] in NamesIn(table')
    ensures UniqueNames(table) ==> UniqueNames(table')
  {
    if file.NotAnObject? || file.NonObjectRecord? {
      return None, table, Raised;
    } else if !file.Records? {
      return None, table, Refused;
    }
    ending := Imported;
    var items := file.items;
    var rep := ImportReport(0, [], 0, 0);
    var k := 0;
    while k < |items|
      invariant 0 <= k <= |items|
      invariant rep == ImportLoop(table, items[..k], py, true)
    {
      assert items[..k + 1][..k] == items[..k];
      rep := ImportStep(table, rep, items[k], py, true);
      k := k + 1;
    }
    assert items[..k] == items;
    report := Some(rep);
    if dryRun {
      table' := table;
    } else {
      table' := table + rep.added;
      ImportLoopCovers(table, items, py, true);
      assert NamesIn(table') == NamesIn(table) + NamesIn(rep.added);
      if UniqueNames(table) {
        ImportLoopAddsNew(table, items, py, true);
        ImportLoopUnique(table, items, py);
        AppendKeepsUnique(table, rep.added);
      }
    }
  }

  /** For a file that names each new species once, checking the batch
      changes nothing: the collected rows are those of the script. */
  lemma {:induction false} BatchCheckAgrees(table: seq<Species>, items: seq<RawItem>, py: Pinyin)
    requires forall i, j :: 0 <= i < j < |items| && HasChineseName(items[i]) && HasChineseName(items[j]) ==>
      items[i]["中文种名"] != items[j]["中文种名"]
    ensures ImportLoop(table, items, py, true) == ImportLoop(table, items, py, false)
    decreases |items|
  {
    if |items| > 0 {
      var prefix := items[..|items| - 1];
      var last := items[|items| - 1];
      BatchCheckAgrees(table, prefix, py);
      var rep := ImportLoop(table, prefix, py, true);
      ImportLoopAddsNew(table, prefix, py, true);
      if HasChineseName(last) {
        var s := PrepareSpecies(last, py).value;
        forall t | t in rep.added
          ensures t.nameChinese != s.nameChinese
        {
          var k :| 0 <= k < |prefix| && PrepareSpecies(prefix[k], py) == Some(t);
          assert items[k] == prefix[k];
        }
      }
    }
  }
}

=== FILE: species_migrate.dfy ===
/** The species field migration (`scripts/migrate_species.py`): the
    combined `种` field of a record is split into the Chinese, English and
    scientific names, and the records are written back framed as the
    `数据记录` list. JSON serialisation of one record is a parameter. */
module SpeciesMigrate {
  import opened Wrappers
  import opened Text
  import opened SpeciesImport

  // ---------------------------------------------------------------------
  // The pattern ^([一-龥]+)([A-Za-z ].+?) {2,}([A-Z][a-z]+ [a-z]+)$

  predicate IsCjk(c: char) {
    '\U{4E00}' <= c <= '\U{9FA5}'
  }

  predicate IsUpperAscii(c: char) {
    'A' <= c <= 'Z'
  }

  predicate IsLowerAscii(c: char) {
    'a' <= c <= 'z'
  }

  /** The class `[A-Za-z ]` that opens the second group. */
  predicate IsGroup2Head(c: char) {
    IsUpperAscii(c) || IsLowerAscii(c) || c == ' '
  }

  /** `[A-Z][a-z]+ [a-z]+` with its space at `p`. */
  predicate BinomialAt(g: string, p: int) {
    && 2 <= p && p + 1 < |g|
    && IsUpperAscii(g[0])
    && (forall k :: 1 <= k < p ==> IsLowerAscii(g[k]))
    && g[p] == ' '
    && (forall k :: p < k < |g| ==> IsLowerAscii(g[k]))
  }

  /** A scientific name as the third group accepts it. */
  predicate Binomial(g: string) {
    exists p :: 0 <= p < |g| && BinomialAt(g, p)
  }

  /** The text `$` anchors against: a final newline may be left over. */
  function Body(s: string): (b: string)
    ensures b == s || (s == b + "\n")
  {
    if |s| > 0 && s[|s| - 1] == '\n' then s[..|s| - 1] else s
  }

  /** `.` matches every character of `b` after `a` and before `m`. */
  predicate NoNewline(b: string, a: int, m: int) {
    forall k :: a < k < m && 0 <= k < |b| ==> b[k] != '\n'
  }

  /** A match of the whole pattern on `b`: the first group is `b[..a]`,
      the second `b[a..m]`, the run of at least two spaces `b[m..i]` and
      the third group `b[i..]`. `.` does not match a newline. */
  predicate Shape(b: string, a: int, m: int, i: int) {
    && 1 <= a && a + 2 <= m && m + 2 <= i <= |b|
    && (forall k :: 0 <= k < a ==> IsCjk(b[k]))
    && IsGroup2Head(b[a])
    && NoNewline(b, a, m)
    && (forall k :: m <= k < i ==> b[k] == ' ')
    && Binomial(b[i..])
  }

  /** The length of the leading run of CJK characters. */
  function LeadingCjk(s: string): (n: nat)
    ensures n <= |s|
    ensures forall k :: 0 <= k < n ==> IsCjk(s[k])
    ensures n == |s| || !IsCjk(s[n])
  {
    if |s| == 0 || !IsCjk(s[0]) then 0 else 1 + LeadingCjk(s[1..])
  }

  /** The length of the trailing run of lower-case ASCII letters. */
  function TrailingLower(s: string): (n: nat)
    ensures n <= |s|
    ensures forall k :: |s| - n <= k < |s| ==> IsLowerAscii(s[k])
    ensures n == |s| || !IsLowerAscii(s[|s| - n - 1])
  {
    if |s| == 0 || !IsLowerAscii(s[|s| - 1]) then 0 else 1 + TrailingLower(s[..|s| - 1])
  }

  /** The length of the trailing run of spaces. */
  function TrailingBlanks(s: string): (n: nat)
    ensures n <= |s|
    ensures forall k :: |s| - n <= k < |s| ==> s[k] == ' '
    ensures n == |s| || s[|s| - n - 1] != ' '
  {
    if |s| == 0 || s[|s| - 1] != ' ' then 0 else 1 + TrailingBlanks(s[..|s| - 1])
  }

  /** Where the third group must start: the capital just before the
      lower-case run that precedes the last space, which is followed by
      lower-case letters up to the end. */
  function BinomialStart(b: string): (r: Option<nat>)
    ensures r.Some? ==> r.value < |b|
  {
    var q := TrailingLower(b);
    if q == 0 || q + 1 > |b| || b[|b| - q - 1] != ' ' then None
    else
      var j := |b| - q - 1;
      var p := TrailingLower(b[..j]);
      if p == 0 || p + 1 > j || !IsUpperAscii(b[j - p - 1]) then None
      else Some(j - p - 1)
  }

  /** What `BinomialStart` finds is a binomial running to the end. */
  lemma BinomialStartSound(b: string)
    requires BinomialStart(b).Some?
    ensures Binomial(b[BinomialStart(b).value..])
  {
    var q := TrailingLower(b);
    var j := |b| - q - 1;
    var pre := b[..j];
    var p := TrailingLower(pre);
    var i := j - p - 1;
    var g := b[i..];
    assert g[0] == b[i];
    forall k | 1 <= k < p + 1
      ensures IsLowerAscii(g[k])
    {
      assert g[k] == pre[i + k];
    }
    assert g[p + 1] == b[j];
    forall k | p + 1 < k < |g|
      ensures IsLowerAscii(g[k])
    {
      assert g[k] == b[i + k];
    }
    assert BinomialAt(g, p + 1);
  }

  /** The match positions `(a, m, i)` the regular expression engine
      settles on. The first group can only be the whole leading CJK run and
      the third group only the trailing binomial, so the lazy second group
      ends at the first position from which spaces alone reach the third. */
  function MatchPositions(b: string): (r: Option<(nat, nat, nat)>)
    ensures r.Some? ==> r.value.0 < r.value.1 < r.value.2 <= |b|
  {
    var a := LeadingCjk(b);
    match BinomialStart(b)
    case None => None
    case Some(i) =>
      if a == 0 || a + 4 > i then None
      else
        var t := TrailingBlanks(b[a..i]);
        var m := if a + 2 < i - t then i - t else a + 2;
        if m + 2 <= i && IsGroup2Head(b[a]) && NoNewline(b, a, m)
        then Some((a, m, i))
        else None
  }

  /** The positions found are a match. */
  lemma MatchPositionsSound(b: string)
    requires MatchPositions(b).Some?
    ensures var (a, m, i) := MatchPositions(b).value; Shape(b, a, m, i)
  {
    var (a, m, i) := MatchPositions(b).value;
    BinomialStartSound(b);
    var mid := b[a..i];
    var t := TrailingBlanks(mid);
    forall k | m <= k < i
      ensures b[k] == ' '
    {
      assert b[k] == mid[k - a];
    }
  }

  /** The lower-case tail after the binomial's space runs to the end. */
  lemma BinomialTail(b: string, i': int, sp: int)
    requires 0 <= i' <= |b| && BinomialAt(b[i'..], sp)
    ensures TrailingLower(b) == |b| - i' - sp - 1
  {
    var g := b[i'..];
    var q := TrailingLower(b);
    assert b[i' + sp] == g[sp];
  }

  /** Before the binomial's space, the lower-case run reaches back to just
      after its capital. */
  lemma BinomialGenus(b: string, i': int, sp: int)
    requires 0 <= i' <= |b| && BinomialAt(b[i'..], sp)
    ensures TrailingLower(b[..i' + sp]) == sp - 1
  {
    var g := b[i'..];
    var pre := b[..i' + sp];
    var p := TrailingLower(pre);
    assert pre[i'] == g[0];
  }

  /** A binomial running to the end is where `BinomialStart` looks. */
  lemma BinomialStartComplete(b: string, i': int)
    requires 0 <= i' <= |b| && Binomial(b[i'..])
    ensures BinomialStart(b) == Some(i')
  {
    var g := b[i'..];
    var sp :| 0 <= sp < |g| && BinomialAt(g, sp);
    BinomialTail(b, i', sp);
    BinomialGenus(b, i', sp);
    assert b[i' + sp] == g[sp];
    assert b[i'] == g[0];
  }

  /** Any match has the first and third groups found, and a second group
      no shorter than the one found. */
  lemma MatchPositionsComplete(b: string, a': int, m': int, i': int)
    requires Shape(b, a', m', i')
    ensures MatchPositions(b).Some?
    ensures var (a, m, i) := MatchPositions(b).value; a == a' && i == i' && m <= m'
  {
    var a := LeadingCjk(b);
    assert a == a';
    BinomialStartComplete(b, i');
    var i := i';
    var mid := b[a'..i];
    var t := TrailingBlanks(mid);
    assert i - t <= m';
  }

  /** The three groups of `re.match(pattern, s)`. */
  datatype Groups = Groups(chinese: string, english: string, scientific: string)

  /** `re.match` of the species pattern. */
  function Match(s: string): (r: Option<Groups>)
    ensures r.Some? ==> r.value.chinese != [] && Binomial(r.value.scientific)
  {
    var b := Body(s);
    match MatchPositions(b)
    case None => None
    case Some((a, m, i)) =>
      MatchPositionsSound(b);
      Some(Groups(b[..a], b[a..m], b[i..]))
  }

  /** `re.match` succeeds exactly when the pattern matches, and then with
      the groups of the match whose second group is shortest. */
  lemma MatchSpec(s: string)
    ensures Match(s).Some? <==> exists a, m, i :: Shape(Body(s), a, m, i)
    ensures Match(s).Some? ==> exists a, m, i ::
      && Shape(Body(s), a, m, i)
      && Match(s).value == Groups(Body(s)[..a], Body(s)[a..m], Body(s)[i..])
      && (forall a', m', i' :: Shape(Body(s), a', m', i') ==> m <= m')
  {
    var b := Body(s);
    if MatchPositions(b).Some? {
      MatchPositionsSound(b);
      var (a, m, i) := MatchPositions(b).value;
      forall a', m', i' | Shape(b, a', m', i')
        ensures m <= m'
      {
        MatchPositionsComplete(b, a', m', i');
      }
    } else {
      forall a', m', i' | Shape(b, a', m', i')
        ensures false
      {
        MatchPositionsComplete(b, a', m', i');
      }
    }
  }

  /** `n` spaces. */
  function Spaces(n: nat): (r: string)
    ensures |r| == n && forall k :: 0 <= k < n ==> r[k] == ' '
  {
    if n == 0 then "" else Spaces(n - 1) + " "
  }

  /** A field written as Chinese name, English name, a gap of at least two
      spaces and a binomial is split back into those three names. */
  lemma MatchCompose(cn: string, en: string, gap: nat, sci: string)
    requires cn != [] && forall k :: 0 <= k < |cn| ==> IsCjk(cn[k])
    requires |en| >= 2 && IsGroup2Head(en[0]) && en[|en| - 1] != ' ' && '\n' !in en
    requires gap >= 2 && Binomial(sci)
    ensures Match(cn + en + Spaces(gap) + sci) == Some(Groups(cn, en, sci))
  {
    var s := cn + en + Spaces(gap) + sci;
    var a, m, i := |cn|, |cn| + |en|, |cn| + |en| + gap;
    ComposedShape(cn, en, gap, sci);
    MatchOfShape(s, cn, en, sci, a, m, i);
  }

  /** `s` is a match whose groups are `cn`, `en` and `sci` and whose second
      group does not end in a space. */
  predicate MatchedAs(s: string, cn: string, en: string, sci: string, a: int, m: int, i: int) {
    && Body(s) == s && Shape(s, a, m, i) && s[m - 1] != ' '
    && s[..a] == cn && s[a..m] == en && s[i..] == sci
  }

  /** Such a match is the one `re.match` reports, since the lazy second
      group can stop no earlier. */
  lemma MatchOfShape(s: string, cn: string, en: string, sci: string, a: int, m: int, i: int)
    requires MatchedAs(s, cn, en, sci, a, m, i)
    ensures Match(s) == Some(Groups(cn, en, sci))
  {
    MatchPositionsComplete(s, a, m, i);
    MatchPositionsSound(s);
  }

  /** The composed field has the shape of a match with the pieces as its
      groups, and its second group ends in a non-space. */
  lemma ComposedShape(cn: string, en: string, gap: nat, sci: string)
    requires cn != [] && forall k :: 0 <= k < |cn| ==> IsCjk(cn[k])
    requires |en| >= 2 && IsGroup2Head(en[0]) && en[|en| - 1] != ' ' && '\n' !in en
    requires gap >= 2 && Binomial(sci)
    ensures var s := cn + en + Spaces(gap) + sci;
      var a, m, i := |cn|, |cn| + |en|, |cn| + |en| + gap;
      MatchedAs(s, cn, en, sci, a, m, i)
  {
    var w := Spaces(gap);
    var s := cn + en + w + sci;
    var a, m, i := |cn|, |cn| + |en|, |cn| + |en| + gap;
    var sp :| 0 <= sp < |sci| && BinomialAt(sci, sp);
    assert s[|s| - 1] == sci[|sci| - 1];
    forall k | 0 <= k < a
      ensures IsCjk(s[k])
    {
      assert s[k] == cn[k];
    }
    forall k | a <= k < m
      ensures s[k] == en[k - a]
    {
    }
    forall k | m <= k < i
      ensures s[k] == ' '
    {
      assert s[k] == w[k - m];
    }
    assert s[..a] == cn;
    assert s[a..m] == en;
    assert s[i..] == sci;
  }

  // ---------------------------------------------------------------------
  // process_item

  /** The keys the migration may write or remove. */
  const MigratedKeys: set<string> := {"种", "中文种名", "英文种名", "学名"}

  /** The fallback split: the pieces of the field between double spaces,
      each non-empty piece kept and stripped. A piece of whitespace alone
      passes the filter and becomes an empty part. */
  function FallbackParts(field: string): (parts: seq<string>)
    ensures forall x :: x in parts ==> exists p :: p in Split(field, "  ") && p != "" && x == Strip(p)
  {
    StripPieces(Split(field, "  "))
  }

  function StripPieces(pieces: seq<string>): (parts: seq<string>)
    ensures |parts| <= |pieces|
    ensures forall x :: x in parts ==> exists p :: p in pieces && p != "" && x == Strip(p)
  {
    if |pieces| == 0 then []
    else (if pieces[0] != "" then [Strip(pieces[0])] else []) + StripPieces(pieces[1..])
  }

  /** `process_item`: without `种` the record is returned as it is.
      Otherwise a match sets the three names from the stripped groups and
      removes `种`; failing that, at least two fallback parts set the
      Chinese name to the first and the scientific name to the rest joined
      by a space and remove `种`; otherwise the names are set to the empty
      string and the scientific name to the whole field, and `种` stays. */
  function ProcessItem(item: RawItem): (r: RawItem)
    ensures "种" !in item ==> r == item
    ensures forall k :: k !in MigratedKeys ==> (k in r <==> k in item) && (k in r ==> r[k] == item[k])
    ensures "种" in item ==> "中文种名" in r && "学名" in r
  {
    if "种" !in item then item
    else
      var field := item["种"];
      SetNames(item, field, Classify(field))
  }

  /** How a `种` field is read: the three names of a match, the two names
      of the fallback split, or neither. */
  datatype Reading = Matched(chinese: string, english: string, scientific: string)
                   | SplitApart(chinese: string, scientific: string)
                   | Unparsed

  /** The reading of a field: the stripped groups of a match; otherwise,
      with at least two fallback parts, the first part and the others
      joined by a space. */
  function Classify(field: string): Reading
  {
    match Match(field)
    case Some(g) => Matched(Strip(g.chinese), Strip(g.english), Strip(g.scientific))
    case None =>
      var parts := FallbackParts(field);
      if |parts| >= 2 then SplitApart(parts[0], Join(parts[1..], " ")) else Unparsed
  }

  /** The record with the names of a reading written: a parsed field is
      removed; an unparsed one stays, with empty names beside it and the
      whole field as the scientific name. */
  function SetNames(item: RawItem, field: string, reading: Reading): (r: RawItem)
    ensures forall k :: k !in MigratedKeys ==> (k in r <==> k in item) && (k in r ==> r[k] == item[k])
    ensures "中文种名" in r && "学名" in r
    ensures reading.Matched? ==>
      && "种" !in r && "英文种名" in r
      && r["中文种名"] == reading.chinese && r["英文种名"] == reading.english && r["学名"] == reading.scientific
    ensures reading.SplitApart? ==>
      && "种" !in r
      && r["中文种名"] == reading.chinese && r["学名"] == reading.scientific
      && ("英文种名" in r <==> "英文种名" in item)
      && ("英文种名" in r ==> r["英文种名"] == item["英文种名"])
    ensures reading.Unparsed? ==>
      && ("种" in r <==> "种" in item)
      && ("种" in r ==> r["种"] == item["种"])
      && "英文种名" in r && r["中文种名"] == "" && r["英文种名"] == "" && r["学名"] == field
  {
    match reading
    case Matched(cn, en, sci) => item["中文种名" := cn]["英文种名" := en]["学名" := sci] - {"种"}
    case SplitApart(cn, sci) => item["中文种名" := cn]["学名" := sci] - {"种"}
    case Unparsed => item["中文种名" := ""]["英文种名" := ""]["学名" := field]
  }

  /** The fields a migrated record holds in each of the three outcomes. */
  lemma ProcessItemOutcomes(item: RawItem)
    requires "种" in item
    ensures var field := item["种"]; var r := ProcessItem(item);
      && (Match(field).Some? ==>
            && "种" !in r
            && r["中文种名"] == Strip(Match(field).value.chinese)
            && r["英文种名"] == Strip(Match(field).value.english)
            && r["学名"] == Strip(Match(field).value.scientific))
      && (Match(field).None? && |FallbackParts(field)| >= 2 ==>
            && "种" !in r
            && r["中文种名"] == FallbackParts(field)[0]
            && r["学名"] == Join(FallbackParts(field)[1..], " ")
            && ("英文种名" in r <==> "英文种名" in item)
            && ("英文种名" in r ==> r["英文种名"] == item["英文种名"]))
      && (Match(field).None? && |FallbackParts(field)| < 2 ==>
            && "种" in r && r["种"] == field
            && r["中文种名"] == "" && r["英文种名"] == "" && r["学名"] == field)
  {
    var field := item["种"];
    var reading := Classify(field);
    var r := SetNames(item, field, reading);
    assert ProcessItem(item) == r;
    if reading.Matched? {
      assert Match(field).Some?;
    } else if reading.SplitApart? {
      assert Match(field).None?;
    } else {
      assert Match(field).None? && |FallbackParts(field)| < 2;
      assert "种" in r && r["种"] == field;
    }
  }

  /** A CJK character is not whitespace. */
  lemma CjkNotSpace(c: char)
    requires IsCjk(c)
    ensures !IsSpace(c)
  {
  }

  /** A well-formed field is split into exactly the names it was written
      from, and the migrated record can then be imported under its Chinese
      name. */
  lemma ProcessComposed(item: RawItem, cn: string, en: string, gap: nat, sci: string)
    requires cn != [] && forall k :: 0 <= k < |cn| ==> IsCjk(cn[k])
    requires |en| >= 2 && IsGroup2Head(en[0]) && !IsSpace(en[0]) && !IsSpace(en[|en| - 1]) && '\n' !in en
    requires gap >= 2 && Binomial(sci)
    requires "种" in item && item["种"] == cn + en + Spaces(gap) + sci
    ensures var r := ProcessItem(item);
      && "种" !in r
      && r["中文种名"] == cn && "英文种名" in r && r["英文种名"] == en && r["学名"] == sci
      && HasChineseName(r)
  {
    var field := item["种"];
    ClassifyComposed(cn, en, gap, sci);
    ProcessItemIsSetNames(item, field, Matched(cn, en, sci));
  }

  lemma ProcessItemIsSetNames(item: RawItem, field: string, reading: Reading)
    requires "种" in item && item["种"] == field && Classify(field) == reading
    ensures ProcessItem(item) == SetNames(item, field, reading)
  {
  }

  /** A well-formed field reads as the names it was written from. */
  lemma ClassifyComposed(cn: string, en: string, gap: nat, sci: string)
    requires cn != [] && forall k :: 0 <= k < |cn| ==> IsCjk(cn[k])
    requires |en| >= 2 && IsGroup2Head(en[0]) && !IsSpace(en[0]) && !IsSpace(en[|en| - 1]) && '\n' !in en
    requires gap >= 2 && Binomial(sci)
    ensures Classify(cn + en + Spaces(gap) + sci) == Matched(cn, en, sci)
  {
    MatchCompose(cn, en, gap, sci);
    CjkNotSpace(cn[0]);
    CjkNotSpace(cn[|cn| - 1]);
    StripNoSpace(cn);
    StripNoSpace(en);
    var sp :| 0 <= sp < |sci| && BinomialAt(sci, sp);
    LetterNotSpace(sci[0]);
    LetterNotSpace(sci[|sci| - 1]);
    StripNoSpace(sci);
  }

  /** An ASCII letter is not whitespace. */
  lemma LetterNotSpace(c: char)
    requires IsUpperAscii(c) || IsLowerAscii(c)
    ensures !IsSpace(c)
  {
  }

  /** A field with the Chinese and scientific names but no English name
      does not match the pattern: nothing is left for the second group. */
  lemma NoEnglishNameNoMatch(cn: string, sci: string)
    requires cn != [] && forall k :: 0 <= k < |cn| ==> IsCjk(cn[k])
    requires Binomial(sci)
    ensures Match(cn + "  " + sci).None?
  {
    var field := cn + "  " + sci;
    var sp :| 0 <= sp < |sci| && BinomialAt(sci, sp);
    assert field[|field| - 1] == sci[|sci| - 1];
    assert Body(field) == field;
    assert field[|cn| + 2..] == sci;
    BinomialStartComplete(field, |cn| + 2);
    assert field[|cn|] == ' ';
    assert forall k :: 0 <= k < |cn| ==> field[k] == cn[k];
    assert LeadingCjk(field) == |cn|;
  }

  /** The fallback splits that field at its double space. */
  lemma NoEnglishNameParts(cn: string, sci: string)
    requires cn != [] && forall k :: 0 <= k < |cn| ==> IsCjk(cn[k])
    requires Binomial(sci)
    ensures FallbackParts(cn + "  " + sci) == [cn, sci]
  {
    NoEnglishNameSplit(cn, sci);
    CjkNotSpace(cn[0]);
    CjkNotSpace(cn[|cn| - 1]);
    StripNoSpace(cn);
    var sp :| 0 <= sp < |sci| && BinomialAt(sci, sp);
    LetterNotSpace(sci[0]);
    LetterNotSpace(sci[|sci| - 1]);
    StripNoSpace(sci);
    StripPair(cn, sci);
  }

  lemma StripPair(x: string, y: string)
    requires x != [] && y != [] && Strip(x) == x && Strip(y) == y
    ensures StripPieces([x, y]) == [x, y]
  {
    assert [y][1..] == [];
    assert StripPieces([y]) == [y];
    assert [x, y][1..] == [y];
  }

  /** The first double space of that field is the one after the Chinese
      name. */
  lemma FirstDoubleSpace(cn: string, sci: string)
    requires forall k :: 0 <= k < |cn| ==> IsCjk(cn[k])
    ensures IndexOf(cn + "  " + sci, "  ") == |cn|
  {
    var field := cn + "  " + sci;
    assert field[|cn|..|cn| + 2] == "  ";
    forall j | 0 <= j < |cn|
      ensures !OccursAt(field, "  ", j)
    {
      assert field[j] == cn[j];
      if j + 2 <= |field| {
        assert field[j..j + 2][0] == field[j];
      }
    }
    assert OccursAt(field, "  ", |cn|);
    assert IndexOf(field, "  ") != -1;
  }

  /** A binomial has a single space, so no double space. */
  lemma BinomialNoDoubleSpace(sci: string)
    requires Binomial(sci)
    ensures IndexOf(sci, "  ") == -1
  {
    var sp :| 0 <= sp < |sci| && BinomialAt(sci, sp);
    forall j | 0 <= j < |sci|
      ensures !OccursAt(sci, "  ", j)
    {
      if j + 2 <= |sci| {
        assert sci[j..j + 2][0] == sci[j] && sci[j..j + 2][1] == sci[j + 1];
      }
    }
  }

  lemma NoEnglishNameSplit(cn: string, sci: string)
    requires cn != [] && forall k :: 0 <= k < |cn| ==> IsCjk(cn[k])
    requires Binomial(sci)
    ensures Split(cn + "  " + sci, "  ") == [cn, sci]
  {
    var field := cn + "  " + sci;
    FirstDoubleSpace(cn, sci);
    BinomialNoDoubleSpace(sci);
    assert Split(field, "  ") == [field[..|cn|]] + Split(field[|cn| + 2..], "  ");
    assert field[..|cn|] == cn;
    assert field[|cn| + 2..] == sci;
    assert Split(sci, "  ") == [sci];
  }

  /** Such a field is handled by the fallback: the Chinese and scientific
      names are set, the English name is left as it was and `种` is
      removed. */
  lemma NoEnglishNameFallsBack(item: RawItem, cn: string, sci: string)
    requires cn != [] && forall k :: 0 <= k < |cn| ==> IsCjk(cn[k])
    requires Binomial(sci)
    requires "种" in item && item["种"] == cn + "  " + sci
    ensures var r := ProcessItem(item);
      && "种" !in r && r["中文种名"] == cn && r["学名"] == sci
      && ("英文种名" in r <==> "英文种名" in item)
      && HasChineseName(r)
  {
    var field := item["种"];
    NoEnglishNameNoMatch(cn, sci);
    NoEnglishNameParts(cn, sci);
    assert [cn, sci][1..] == [sci];
    ProcessItemIsSetNames(item, field, SplitApart(cn, sci));
  }

  // ---------------------------------------------------------------------
  // stream_process

  const Header: string := "{\n  \"数据记录\": [\n"
  const Footer: string := "\n  ]\n}"

  /** The input as `ijson.items(infile, "item")` sees it: the elements of a
      top-level array, nothing at all for any other top level, or, for a
      document that is not well-formed JSON, the elements parsed before the
      parser meets the error and raises. */
  datatype Input = RootArray(items: seq<RawItem>) | OtherRoot | Malformed(before: seq<RawItem>)

  /** The records the loop receives before the iteration ends or raises. */
  function InputItems(input: Input): (items: seq<RawItem>)
    ensures input.RootArray? ==> items == input.items
    ensures input.OtherRoot? ==> items == []
    ensures input.Malformed? ==> items == input.before
  {
    match input
    case RootArray(items) => items
    case OtherRoot => []
    case Malformed(before) => before
  }

  /** The processed records, serialised. */
  function Dumps(items: seq<RawItem>, dump: RawItem -> string): (r: seq<string>)
    ensures |r| == |items|
    ensures forall k :: 0 <= k < |items| ==> r[k] == dump(ProcessItem(items[k]))
  {
    if |items| == 0 then [] else Dumps(items[..|items| - 1], dump) + [dump(ProcessItem(items[|items| - 1]))]
  }

  /** Serialising one more record appends its text. */
  lemma DumpsSnoc(items: seq<RawItem>, k: nat, dump: RawItem -> string)
    requires k < |items|
    ensures Dumps(items[..k + 1], dump) == Dumps(items[..k], dump) + [dump(ProcessItem(items[k]))]
  {
    assert items[..k + 1][..k] == items[..k];
  }

  /** The output file: the records joined by `,\n` inside the framing. */
  function Document(dumps: seq<string>): (out: string)
    ensures StartsWith(out, Header) && EndsWith(out, Footer)
    ensures out == Header + Join(dumps, ",\n") + Footer
  {
    Header + Join(dumps, ",\n") + Footer
  }

  /** Appending one more record adds a separator before it, except for the
      first. */
  lemma {:induction false} JoinSnoc(parts: seq<string>, x: string, sep: string)
    ensures Join(parts + [x], sep) == (if |parts| == 0 then x else Join(parts, sep) + sep + x)
    decreases |parts|
  {
    if |parts| == 1 {
      assert (parts + [x])[1..] == [x];
    } else if |parts| > 1 {
      JoinSnoc(parts[1..], x, sep);
      assert (parts + [x])[1..] == parts[1..] + [x];
    }
  }

  /** Writing two more pieces after a prefix and a body extends the body. */
  lemma AppendTwo(prefix: string, body: string, x: string, y: string)
    ensures prefix + body + x + y == prefix + (body + x + y)
  {
  }

  /** `stream_process`: the header, then each processed record with a
      separator written before every record but the first, then the footer.
      The output is the framed join of the serialised records. On a
      malformed document the parser raises inside the loop: `completed` is
      false and the file keeps what was written, which is the document of
      the records read so far without its footer. */
  method StreamProcess(input: Input, dump: RawItem -> string) returns (out: string, completed: bool)
    ensures completed <==> !input.Malformed?
    ensures completed ==> out == Document(Dumps(InputItems(input), dump))
    ensures completed && InputItems(input) == [] ==> out == Header + Footer
    ensures !completed ==> StartsWith(out, Header) && out + Footer == Document(Dumps(input.before, dump))
    ensures !completed && input.before == [] ==> out == Header
  {
    var items := InputItems(input);
    out := Header;
    var firstItem := true;
    var k := 0;
    while k < |items|
      invariant 0 <= k <= |items|
      invariant firstItem <==> k == 0
      invariant out == Header + Join(Dumps(items[..k], dump), ",\n")
    {
      var text := dump(ProcessItem(items[k]));
      var sep := if firstItem then "" else ",\n";
      DumpsSnoc(items, k, dump);
      JoinSnoc(Dumps(items[..k], dump), text, ",\n");
      assert Join(Dumps(items[..k + 1], dump), ",\n") == Join(Dumps(items[..k], dump), ",\n") + sep + text;
      AppendTwo(Header, Join(Dumps(items[..k], dump), ",\n"), sep, text);
      out := out + sep + text;
      firstItem := false;
      k := k + 1;
    }
    assert items[..k] == items;
    if input.Malformed? {
      completed := false;
      return;
    }
    completed := true;
    out := out + Footer;
  }
}

=== FILE: store_common.dfy ===
/** What the two Pinia stores of the frontend (`categoryStore.ts` and
    `imageStore.ts`) share: the list/current-item state, the outcome of an
    API call, the way a failed call is reported, and the list edits done
    by id. Items are generic; `idOf` reads an item's id. */
module StoreCommon {
  import opened Wrappers

  /** The body of a 422 response (`HTTPValidationError`), kept opaque. */
  datatype ValidationError = ValidationError(detail: seq<string>)

  /** A rejected API call as the API service throws it: the message (empty
      when absent), the HTTP status and the response body (`None` when it
      is falsy). */
  datatype ApiError = ApiError(message: string, status: int, data: Option<ValidationError>)

  /** The outcome of an awaited API call. */
  datatype ApiResult<T> = Ok(value: T) | Err(error: ApiError)

  /** The state every store keeps. */
  datatype ListState<T> = ListState(
    items: seq<T>,
    current: Option<T>,
    isLoading: bool,
    error: Option<string>,
    validationErrors: Option<ValidationError>)

  /** `err.message || fallback`: an empty message is falsy. */
  function ErrorText(e: ApiError, fallback: string): string {
    if e.message != "" then e.message else fallback
  }

  /** The validation errors a failure leaves: the body of a 422 response,
      and nothing for any other failure. */
  function ValidationOf(e: ApiError): Option<ValidationError> {
    if e.data.Some? && e.status == 422 then e.data else None
  }

  /** How an action leaves the status fields once it has settled: never
      loading; on success no error and no validation errors; on failure
      the error text, and validation errors exactly for a 422 response
      with a body. */
  predicate Reports<T, U>(after: ListState<T>, result: ApiResult<U>, fallback: string) {
    && !after.isLoading
    && (result.Ok? ==> after.error.None? && after.validationErrors.None?)
    && (result.Err? ==>
          after.error == Some(ErrorText(result.error, fallback)) &&
          after.validationErrors == ValidationOf(result.error))
  }

  /** The status fields after an action: the action clears `error` and
      `validationErrors` when it starts, the `catch` block fills them on
      failure and the `finally` block clears `isLoading`. */
  function Settle<T, U>(s: ListState<T>, result: ApiResult<U>, fallback: string): (r: ListState<T>)
    ensures Reports(r, result, fallback)
    ensures r.items == s.items && r.current == s.current
    ensures result.Err? && result.error.status != 422 ==> r.validationErrors.None?
    ensures result.Err? && result.error.data.None? ==> r.validationErrors.None?
  {
    match result
    case Ok(_) => s.(isLoading := false, error := None, validationErrors := None)
    case Err(e) => s.(isLoading := false, error := Some(ErrorText(e, fallback)), validationErrors := ValidationOf(e))
  }

  /** `Array.prototype.findIndex` on ids: the first position holding an
      item with the id, or `None` (`-1`) when there is none. */
  function FindIndex<T>(xs: seq<T>, id: string, idOf: T -> string): (k: Option<nat>)
    ensures k.None? <==> forall j :: 0 <= j < |xs| ==> idOf(xs[j]) != id
    ensures k.Some? ==> k.value < |xs| && idOf(xs[k.value]) == id
    ensures k.Some? ==> forall j :: 0 <= j < k.value ==> idOf(xs[j]) != id
  {
    if |xs| == 0 then None
    else if idOf(xs[0]) == id then Some(0)
    else match FindIndex(xs[1..], id, idOf)
      case None => None
      case Some(k) => Some(k + 1)
  }

  /** `Array.prototype.find` on ids: the first item with the id. */
  function FindById<T>(xs: seq<T>, id: string, idOf: T -> string): (r: Option<T>)
    ensures r.None? <==> forall j :: 0 <= j < |xs| ==> idOf(xs[j]) != id
    ensures r.Some? ==> exists k :: 0 <= k < |xs| && xs[k] == r.value && idOf(xs[k]) == id &&
                          forall j :: 0 <= j < k ==> idOf(xs[j]) != id
  {
    match FindIndex(xs, id, idOf)
    case None => None
    case Some(k) => Some(xs[k])
  }

  /** The list edit of a successful update: the first item with the id is
      replaced by `updated`; a list without the id is left as it is. */
  function ReplaceFirst<T>(xs: seq<T>, id: string, updated: T, idOf: T -> string): (r: seq<T>)
    ensures |r| == |xs|
    ensures forall j :: 0 <= j < |xs| && idOf(xs[j]) != id ==> r[j] == xs[j]
    ensures forall j :: 0 <= j < |xs| && r[j] != xs[j] ==> r[j] == updated
  {
    match FindIndex(xs, id, idOf)
    case None => xs
    case Some(k) => xs[k := updated]
  }

  /** Only the first item with the id is replaced: a later item with the
      same id keeps its value. */
  lemma ReplaceFirstOnlyFirst<T>(xs: seq<T>, id: string, updated: T, idOf: T -> string, k: nat)
    requires k < |xs| && idOf(xs[k]) == id
    requires forall j :: 0 <= j < k ==> idOf(xs[j]) != id
    ensures ReplaceFirst(xs, id, updated, idOf)[k] == updated
    ensures forall j :: 0 <= j < |xs| && j != k ==> ReplaceFirst(xs, id, updated, idOf)[j] == xs[j]
  {
    assert FindIndex(xs, id, idOf).Some? by {
      assert idOf(xs[k]) == id;
    }
  }

  /** `xs.filter(x => x.id !== id)`: every item with the id is dropped and
      the others are kept in order. */
  function RemoveAll<T>(xs: seq<T>, id: string, idOf: T -> string): (r: seq<T>)
    ensures |r| <= |xs|
    ensures forall j :: 0 <= j < |r| ==> idOf(r[j]) != id
    ensures forall j :: 0 <= j < |r| ==> r[j] in xs
    ensures forall j :: 0 <= j < |xs| && idOf(xs[j]) != id ==> xs[j] in r
  {
    if |xs| == 0 then []
    else
      var rest := RemoveAll(xs[1..], id, idOf);
      if idOf(xs[0]) == id then rest else [xs[0]] + rest
  }

  /** Removing twice removes nothing more. */
  lemma {:induction false} RemoveAllIdempotent<T>(xs: seq<T>, id: string, idOf: T -> string)
    ensures RemoveAll(RemoveAll(xs, id, idOf), id, idOf) == RemoveAll(xs, id, idOf)
  {
    RemoveAllAbsent(RemoveAll(xs, id, idOf), id, idOf);
  }

  /** A list without the id is left as it is. */
  lemma {:induction false} RemoveAllAbsent<T>(xs: seq<T>, id: string, idOf: T -> string)
    requires forall j :: 0 <= j < |xs| ==> idOf(xs[j]) != id
    ensures RemoveAll(xs, id, idOf) == xs
  {
    if |xs| > 0 {
      RemoveAllAbsent(xs[1..], id, idOf);
      assert [xs[0]] + xs[1..] == xs;
    }
  }

  /** Filtering a concatenation filters each part in place, so the kept
      items keep their relative order. */
  lemma {:induction false} RemoveAllAppend<T>(xs: seq<T>, ys: seq<T>, id: string, idOf: T -> string)
    ensures RemoveAll(xs + ys, id, idOf) == RemoveAll(xs, id, idOf) + RemoveAll(ys, id, idOf)
  {
    if |xs| > 0 {
      assert (xs + ys)[1..] == xs[1..] + ys;
      RemoveAllAppend(xs[1..], ys, id, idOf);
    } else {
      assert xs + ys == ys;
    }
  }

  /** The number of items with the id. */
  function CountId<T>(xs: seq<T>, id: string, idOf: T -> string): nat {
    if |xs| == 0 then 0 else (if idOf(xs[0]) == id then 1 else 0) + CountId(xs[1..], id, idOf)
  }

  /** The number of removed items is the number of items with the id. */
  lemma {:induction false} RemoveAllCount<T>(xs: seq<T>, id: string, idOf: T -> string)
    ensures |RemoveAll(xs, id, idOf)| + CountId(xs, id, idOf) == |xs|
  {
    if |xs| > 0 {
      RemoveAllCount(xs[1..], id, idOf);
    }
  }

  /** No two items share an id. */
  predicate UniqueIds<T>(xs: seq<T>, idOf: T -> string) {
    forall i, j :: 0 <= i < j < |xs| ==> idOf(xs[i]) != idOf(xs[j])
  }

  /** Replacing an item by one with the same id keeps ids unique. */
  lemma ReplaceFirstKeepsUnique<T>(xs: seq<T>, id: string, updated: T, idOf: T -> string)
    requires UniqueIds(xs, idOf) && idOf(updated) == id
    ensures UniqueIds(ReplaceFirst(xs, id, updated, idOf), idOf)
  {
    var r := ReplaceFirst(xs, id, updated, idOf);
    forall i, j | 0 <= i < j < |r|
      ensures idOf(r[i]) != idOf(r[j])
    {
      assert idOf(r[i]) == idOf(xs[i]) && idOf(r[j]) == idOf(xs[j]);
    }
  }

  /** Removing items keeps ids unique. */
  lemma {:induction false} RemoveAllKeepsUnique<T>(xs: seq<T>, id: string, idOf: T -> string)
    requires UniqueIds(xs, idOf)
    ensures UniqueIds(RemoveAll(xs, id, idOf), idOf)
  {
    if |xs| > 0 {
      RemoveAllKeepsUnique(xs[1..], id, idOf);
      var rest := RemoveAll(xs[1..], id, idOf);
      if idOf(xs[0]) != id {
        var r := [xs[0]] + rest;
        forall i, j | 0 <= i < j < |r|
          ensures idOf(r[i]) != idOf(r[j])
        {
          if i == 0 {
            assert r[j] in xs[1..];
            var m :| 0 <= m < |xs[1..]| && xs[1..][m] == r[j];
            assert xs[m + 1] == r[j];
          } else {
            assert r[i] == rest[i - 1] && r[j] == rest[j - 1];
          }
        }
      }
    }
  }
}

=== FILE: tag_crud.dfy ===
/** Tag operations (`app/crud/tag_crud.py`): case-insensitive lookup,
    creation with a conflict check, get-or-create, renaming and guarded
    deletion. Each operation returns its outcome together with the catalog
    after it; a failed operation returns the catalog it was given. */
module TagCrud {
  import opened Wrappers
  import opened Text
  import opened Http
  import opened Catalog
  import opened Paging

  /** The tags whose name equals `name` ignoring case. */
  function Matching(c: Catalog, name: string): (r: set<TagId>)
    ensures forall t :: t in r <==> t in c.tags && SameTagName(c.tags[t].name, name)
  {
    set t | t in c.tags && SameTagName(c.tags[t].name, name)
  }

  /** `get_tag_by_name`: `lower(Tag.name) == lower(name)`, first row. */
  function GetTagByName(c: Catalog, name: string): (r: Option<TagId>)
    ensures r.None? <==> forall t :: t in c.tags ==> !SameTagName(c.tags[t].name, name)
    ensures r.Some? ==> r.value in c.tags && SameTagName(c.tags[r.value].name, name)
  {
    FirstTag(Matching(c, name))
  }

  /** The lookup cannot tell apart names that differ only in case. */
  lemma GetTagByNameIgnoresCase(c: Catalog, a: string, b: string)
    requires SameTagName(a, b)
    ensures GetTagByName(c, a) == GetTagByName(c, b)
  {
    assert Matching(c, a) == Matching(c, b);
  }

  /** In a valid catalog the lookup finds the one tag of that name. */
  lemma GetTagByNameFinds(c: Catalog, name: string, t: TagId)
    requires Valid(c)
    requires t in c.tags && SameTagName(c.tags[t].name, name)
    ensures GetTagByName(c, name) == Some(t)
  {
    var r := GetTagByName(c, name).value;
    assert SameTagName(c.tags[r].name, c.tags[t].name);
  }

  /** Only the tag table changes, and only by the given update. */
  predicate OnlyTagsChanged(c: Catalog, d: Catalog) {
    d.categories == c.categories && d.images == c.images && d.links == c.links
  }

  /** `create_tag`, given a validated `TagCreate` and the key the new row
      receives: 409 when a tag of the same name ignoring case exists;
      otherwise exactly one tag is added. */
  function CreateTag(c: Catalog, name: string, newId: TagId): (r: (Result<TagId, Status>, Catalog))
    requires |name| <= MaxTagNameLength
    requires newId !in c.tags
    ensures r.0.Failure? <==> exists t :: t in c.tags && SameTagName(c.tags[t].name, name)
    ensures r.0.Failure? ==> r.0.error == Conflict && r.1 == c
    ensures r.0.Success? ==>
      && r.0.value == newId
      && OnlyTagsChanged(c, r.1)
      && r.1.tags.Keys == c.tags.Keys + {newId}
      && r.1.tags[newId].name == name
      && (forall t :: t in c.tags ==> r.1.tags[t] == c.tags[t])
  {
    if GetTagByName(c, name).Some? then (Failure(Conflict), c)
    else (Success(newId), c.(tags := c.tags[newId := Tag(name)]))
  }

  lemma CreateTagKeepsValid(c: Catalog, name: string, newId: TagId)
    requires Valid(c)
    requires |name| <= MaxTagNameLength && newId !in c.tags
    ensures Valid(CreateTag(c, name, newId).1)
  {
    if CreateTag(c, name, newId).0.Success? {
      ValidSetTag(c, newId, name);
    }
  }

  /** `get_or_create_tag`: the existing tag when one matches ignoring case
      (nothing changes); otherwise a new tag, provided the name passes the
      `TagCreate` length check. A name that fails it raises a validation
      error inside the function, which no handler turns into a 422, so the
      request fails with a 500. */
  function GetOrCreateTag(c: Catalog, name: string, newId: TagId): (r: (Result<TagId, Status>, Catalog))
    requires newId !in c.tags
    ensures r.0.Success? ==> r.0.value in r.1.tags && SameTagName(r.1.tags[r.0.value].name, name)
    ensures (exists t :: t in c.tags && SameTagName(c.tags[t].name, name)) ==>
      r.1 == c && r.0.Success? && r.0.value in c.tags
    ensures (forall t :: t in c.tags ==> !SameTagName(c.tags[t].name, name)) && |name| > MaxTagNameLength ==>
      r == (Failure(InternalError), c)
    ensures (forall t :: t in c.tags ==> !SameTagName(c.tags[t].name, name)) && |name| <= MaxTagNameLength ==>
      && r.0 == Success(newId)
      && OnlyTagsChanged(c, r.1)
      && r.1.tags.Keys == c.tags.Keys + {newId}
      && r.1.tags[newId] == Tag(name)
      && (forall t :: t in c.tags ==> r.1.tags[t] == c.tags[t])
  {
    match GetTagByName(c, name)
    case Some(t) => (Success(t), c)
    case None =>
      if |name| > MaxTagNameLength then (Failure(InternalError), c)
      else (Success(newId), c.(tags := c.tags[newId := Tag(name)]))
  }

  /** Asking again for the same name, in any letter case, returns the same
      tag and adds nothing. */
  lemma GetOrCreateTagIdempotent(c: Catalog, name: string, again: string, newId1: TagId, newId2: TagId)
    requires newId1 !in c.tags
    requires GetOrCreateTag(c, name, newId1).0.Success?
    requires SameTagName(name, again)
    requires newId2 !in GetOrCreateTag(c, name, newId1).1.tags
    ensures var (r1, c1) := GetOrCreateTag(c, name, newId1);
      GetOrCreateTag(c1, again, newId2) == (r1, c1)
  {
    var (r1, c1) := GetOrCreateTag(c, name, newId1);
    GetTagByNameIgnoresCase(c, name, again);
    if GetTagByName(c, name).None? {
      assert Matching(c1, again) == {newId1};
    }
  }

  lemma GetOrCreateTagKeepsValid(c: Catalog, name: string, newId: TagId)
    requires Valid(c) && newId !in c.tags
    ensures Valid(GetOrCreateTag(c, name, newId).1)
  {
    if GetTagByName(c, name).None? && |name| <= MaxTagNameLength {
      ValidSetTag(c, newId, name);
    }
  }

  /** A listing of the tag table in the order a query scans it: every row
      exactly once. */
  predicate IsTagScanOrder(c: Catalog, order: seq<TagId>) {
    && (forall t :: t in order ==> t in c.tags)
    && (forall t :: t in c.tags ==> t in order)
    && (forall j, k :: 0 <= j < k < |order| ==> order[j] != order[k])
  }

  /** `get_all_tags`: the table, paged; the preloaded images of each tag
      are its association rows, which `ImagesOfTag` reads. */
  function GetAllTags(c: Catalog, order: seq<TagId>, skip: int, limit: int): (r: seq<TagId>)
    requires IsTagScanOrder(c, order)
    ensures forall t :: t in r ==> t in c.tags
    ensures limit >= 0 ==> |r| <= limit
    ensures forall j, k :: 0 <= j < k < |r| ==> r[j] != r[k]
    ensures skip <= 0 && limit < 0 ==> forall t :: t in r <==> t in c.tags
  {
    PageOfDistinct(order, skip, limit);
    Page(order, skip, limit)
  }

  /** The name a tag has after `update_tag` writes the sent name, if
      any. */
  function NameAfter(c: Catalog, id: TagId, name: Field<Option<string>>): (n: string)
    requires id in c.tags && name != SetTo(None)
    ensures name.Unset? ==> n == c.tags[id].name
    ensures name.SetTo? ==> n == name.value.value
  {
    if name.SetTo? then name.value.value else c.tags[id].name
  }

  /** `update_tag` with a validated `TagUpdate`, whose `name` may be sent
      as `null`. A null name matches no tag, is written, and fails the
      NOT NULL constraint at commit: a 500 with nothing changed. Renaming
      to a name that matches, ignoring case, a different tag is a 409 and
      changes nothing; otherwise only this tag's name changes, when it
      was sent. */
  function UpdateTag(c: Catalog, id: TagId, name: Field<Option<string>>): (r: (Result<TagId, Status>, Catalog))
    requires id in c.tags
    requires name.SetTo? && name.value.Some? ==> |name.value.value| <= MaxTagNameLength
    ensures name == SetTo(None) ==> r == (Failure(InternalError), c)
    ensures name != SetTo(None) ==>
      (r.0.Failure? <==>
        name.SetTo? && name.value.value != c.tags[id].name &&
        GetTagByName(c, name.value.value).Some? && GetTagByName(c, name.value.value).value != id)
    ensures r.0.Failure? && name != SetTo(None) ==> r == (Failure(Conflict), c)
    ensures r.0.Success? ==>
      && name != SetTo(None)
      && r.0.value == id
      && OnlyTagsChanged(c, r.1)
      && r.1.tags.Keys == c.tags.Keys
      && r.1.tags[id].name == NameAfter(c, id, name)
      && (forall t :: t in c.tags && t != id ==> r.1.tags[t] == c.tags[t])
  {
    match name
    case SetTo(None) => (Failure(InternalError), c)
    case Unset => (Success(id), c.(tags := c.tags[id := c.tags[id]]))
    case SetTo(Some(n)) =>
      if n != c.tags[id].name && GetTagByName(c, n).Some? && GetTagByName(c, n).value != id
      then (Failure(Conflict), c)
      else (Success(id), c.(tags := c.tags[id := Tag(n)]))
  }

  /** In a valid catalog the 409 is exactly a clash with another tag's
      name, and every update keeps the catalog valid. */
  lemma UpdateTagConflictExact(c: Catalog, id: TagId, name: Field<Option<string>>)
    requires Valid(c) && id in c.tags
    requires name.SetTo? && name.value.Some? ==> |name.value.value| <= MaxTagNameLength
    ensures UpdateTag(c, id, name).0 == Failure(Conflict) <==>
      name.SetTo? && name.value.Some? && exists t :: t in c.tags && t != id && SameTagName(c.tags[t].name, name.value.value)
    ensures Valid(UpdateTag(c, id, name).1)
  {
    if name.SetTo? && name.value.Some? {
      if t :| t in c.tags && t != id && SameTagName(c.tags[t].name, name.value.value) {
        GetTagByNameFinds(c, name.value.value, t);
      }
    }
    if UpdateTag(c, id, name).0.Success? {
      UpdateTagNoClash(c, id, name);
      ValidSetTag(c, id, NameAfter(c, id, name));
    }
  }

  /** The name a successful update gives a tag clashes with no other tag. */
  lemma UpdateTagNoClash(c: Catalog, id: TagId, name: Field<Option<string>>)
    requires Valid(c) && id in c.tags
    requires name.SetTo? && name.value.Some? ==> |name.value.value| <= MaxTagNameLength
    requires UpdateTag(c, id, name).0.Success?
    ensures forall t :: t in c.tags && t != id ==> !SameTagName(c.tags[t].name, NameAfter(c, id, name))
  {
    var n := NameAfter(c, id, name);
    forall t | t in c.tags && t != id
      ensures !SameTagName(c.tags[t].name, n)
    {
      if SameTagName(c.tags[t].name, n) && n != c.tags[id].name {
        GetTagByNameFinds(c, n, t);
      }
    }
  }

  /** `delete_tag`: an absent tag gives none and changes nothing; a tag
      still referenced by an association row is a 409; otherwise only that
      tag is removed. */
  function DeleteTag(c: Catalog, id: TagId): (r: (Result<Option<Tag>, Status>, Catalog))
    ensures id !in c.tags ==> r == (Success(None), c)
    ensures r.0.Failure? <==> id in c.tags && ImagesOfTag(c, id) != {}
    ensures r.0.Failure? ==> r.0.error == Conflict && r.1 == c
    ensures r.0.Success? && id in c.tags ==>
      && r.0.value == Some(c.tags[id])
      && OnlyTagsChanged(c, r.1)
      && r.1.tags.Keys == c.tags.Keys - {id}
      && (forall t :: t in r.1.tags ==> r.1.tags[t] == c.tags[t])
  {
    IsLinkedImages(c, id);
    if id !in c.tags then (Success(None), c)
    else if IsLinked(c, id) then (Failure(Conflict), c)
    else (Success(Some(c.tags[id])), c.(tags := c.tags - {id}))
  }

  lemma DeleteTagKeepsValid(c: Catalog, id: TagId)
    requires Valid(c)
    ensures Valid(DeleteTag(c, id).1)
  {
    IsLinkedImages(c, id);
    if id in c.tags && !IsLinked(c, id) {
      var d := DeleteTag(c, id).1;
      forall l | l in d.links
        ensures l.tag in d.tags
      {
        assert l.tag != id;
      }
    }
  }
}

=== FILE: text.dfy ===
/** String primitives with the semantics of the Python and SQLite operations
    the system relies on: `str.lower`, `str.startswith`, `str.strip`,
    `str.split(sep)`, `sep.join`, `str.rfind` and `str.replace`. */
module Text {

  // ---------------------------------------------------------------------
  // Case folding

  /** ASCII case folding. SQLite's built-in `lower()` folds only the ASCII
      letters; the model uses the same folding for Python's `str.lower`. */
  function LowerChar(c: char): (r: char)
    ensures 'A' <= c <= 'Z' ==> 'a' <= r <= 'z'
    ensures !('A' <= c <= 'Z') ==> r == c
  {
    if 'A' <= c <= 'Z' then (c as int + 32) as char else c
  }

  function Lower(s: string): (r: string)
    ensures |r| == |s|
    ensures forall i :: 0 <= i < |s| ==> r[i] == LowerChar(s[i])
  {
    if |s| == 0 then [] else [LowerChar(s[0])] + Lower(s[1..])
  }

  lemma LowerChars(s: string)
    ensures forall c :: c in Lower(s) ==> !('A' <= c <= 'Z')
  {
    forall c | c in Lower(s)
      ensures !('A' <= c <= 'Z')
    {
      var i :| 0 <= i < |Lower(s)| && Lower(s)[i] == c;
    }
  }

  /** Folding twice is folding once. */
  lemma LowerIdempotent(s: string)
    ensures Lower(Lower(s)) == Lower(s)
  {
    forall i | 0 <= i < |s|
      ensures Lower(Lower(s))[i] == Lower(s)[i]
    {
    }
  }

  lemma LowerConcat(a: string, b: string)
    ensures Lower(a + b) == Lower(a) + Lower(b)
  {
    assert forall i :: 0 <= i < |a + b| ==> Lower(a + b)[i] == (Lower(a) + Lower(b))[i];
  }

  /** A character folds to '.' or '/' only if it already was one. */
  lemma LowerKeepsChar(s: string, c: char)
    requires !('A' <= c <= 'Z') && !('a' <= c <= 'z')
    ensures (c in Lower(s)) <==> (c in s)
  {
    if c in s {
      var i :| 0 <= i < |s| && s[i] == c;
      assert Lower(s)[i] == c;
    }
    if c in Lower(s) {
      var i :| 0 <= i < |Lower(s)| && Lower(s)[i] == c;
      assert s[i] == c;
    }
  }

  // ---------------------------------------------------------------------
  // Prefixes and suffixes

  predicate StartsWith(s: string, prefix: string) {
    |prefix| <= |s| && s[..|prefix|] == prefix
  }

  /** A prefix of a prefix is a prefix. */
  lemma StartsWithTrans(s: string, t: string, u: string)
    requires StartsWith(s, t) && StartsWith(t, u)
    ensures StartsWith(s, u)
  {
    assert s[..|u|] == t[..|u|];
  }

  predicate EndsWith(s: string, suffix: string) {
    |suffix| <= |s| && s[|s| - |suffix|..] == suffix
  }

  // ---------------------------------------------------------------------
  // Whitespace stripping

  /** The characters for which Python's `str.isspace()` holds. */
  predicate IsSpace(c: char) {
    || ('\U{9}' <= c <= '\U{D}') || ('\U{1C}' <= c <= '\U{20}')
    || c == '\U{85}' || c == '\U{A0}' || c == '\U{1680}'
    || ('\U{2000}' <= c <= '\U{200A}') || c == '\U{2028}' || c == '\U{2029}'
    || c == '\U{202F}' || c == '\U{205F}' || c == '\U{3000}'
  }

  function TrimStart(s: string): (r: string)
    ensures |r| <= |s| && r == s[|s| - |r|..]
    ensures r == [] || !IsSpace(r[0])
    ensures forall i :: 0 <= i < |s| - |r| ==> IsSpace(s[i])
    ensures forall c :: c in r ==> c in s
  {
    if |s| > 0 && IsSpace(s[0]) then TrimStart(s[1..]) else s
  }

  function TrimEnd(s: string): (r: string)
    ensures |r| <= |s| && r == s[..|r|]
    ensures r == [] || !IsSpace(r[|r| - 1])
    ensures forall i :: |r| <= i < |s| ==> IsSpace(s[i])
    ensures forall c :: c in r ==> c in s
  {
    if |s| > 0 && IsSpace(s[|s| - 1]) then TrimEnd(s[..|s| - 1]) else s
  }

  /** Python's `str.strip()` with no argument. */
  function Strip(s: string): (r: string)
    ensures |r| <= |s|
    ensures r == [] || (!IsSpace(r[0]) && !IsSpace(r[|r| - 1]))
    ensures forall c :: c in r ==> c in s
  {
    TrimEnd(TrimStart(s))
  }

  /** Stripping a string without surrounding whitespace changes nothing. */
  lemma StripNoSpace(s: string)
    requires s == [] || (!IsSpace(s[0]) && !IsSpace(s[|s| - 1]))
    ensures Strip(s) == s
  {
  }

  // ---------------------------------------------------------------------
  // Searching

  predicate OccursAt(s: string, sep: string, j: int) {
    0 <= j && j + |sep| <= |s| && s[j..j + |sep|] == sep
  }

  function IndexOfFrom(s: string, sep: string, k: nat): (i: int)
    requires |sep| > 0 && k <= |s|
    ensures i == -1 || (k <= i && OccursAt(s, sep, i))
    ensures forall j :: k <= j < (if i == -1 then |s| else i) ==> !OccursAt(s, sep, j)
    decreases |s| - k
  {
    if k + |sep| > |s| then -1
    else if s[k..k + |sep|] == sep then k
    else IndexOfFrom(s, sep, k + 1)
  }

  /** Python's `str.find(sep)`: the first occurrence, or -1. */
  function IndexOf(s: string, sep: string): (i: int)
    requires |sep| > 0
    ensures i == -1 || OccursAt(s, sep, i)
    ensures forall j :: 0 <= j < (if i == -1 then |s| else i) ==> !OccursAt(s, sep, j)
  {
    IndexOfFrom(s, sep, 0)
  }

  lemma IndexOfAbsentChar(s: string, c: char)
    requires c !in s
    ensures IndexOf(s, [c]) == -1
  {
    forall j | 0 <= j < |s|
      ensures !OccursAt(s, [c], j)
    {
      assert s[j] != c;
      if j + 1 <= |s| {
        assert s[j..j + 1] == [s[j]];
      }
    }
  }

  /** Python's `str.rfind(c)` for one character: the last index of `c`, or -1. */
  function LastIndexOf(s: string, c: char): (i: int)
    ensures -1 <= i < |s|
    ensures i >= 0 ==> s[i] == c
    ensures forall j :: i < j < |s| ==> s[j] != c
  {
    if |s| == 0 then -1
    else if s[|s| - 1] == c then |s| - 1
    else LastIndexOf(s[..|s| - 1], c)
  }

  lemma LastIndexOfAbsent(s: string, c: char)
    requires c !in s
    ensures LastIndexOf(s, c) == -1
  {
  }

  /** The last `c` of `a + [c] + b` is the separator when `b` holds no `c`. */
  lemma {:induction false} LastIndexOfSplit(a: string, c: char, b: string)
    requires c !in b
    ensures LastIndexOf(a + [c] + b, c) == |a|
    decreases |b|
  {
    var s := a + [c] + b;
    if |b| == 0 {
      assert s[|s| - 1] == c;
    } else {
      assert s[|s| - 1] == b[|b| - 1];
      assert s[..|s| - 1] == a + [c] + b[..|b| - 1];
      LastIndexOfSplit(a, c, b[..|b| - 1]);
    }
  }

  function CountChar(s: string, c: char): nat {
    if |s| == 0 then 0 else (if s[0] == c then 1 else 0) + CountChar(s[1..], c)
  }

  lemma {:induction false} CountCharConcat(a: string, b: string, c: char)
    ensures CountChar(a + b, c) == CountChar(a, c) + CountChar(b, c)
  {
    if |a| == 0 {
      assert a + b == b;
    } else {
      assert (a + b)[1..] == a[1..] + b;
      CountCharConcat(a[1..], b, c);
    }
  }

  lemma {:induction false} CountCharAbsent(s: string, c: char)
    requires c !in s
    ensures CountChar(s, c) == 0
  {
    if |s| > 0 {
      CountCharAbsent(s[1..], c);
    }
  }

  // ---------------------------------------------------------------------
  // Splitting and joining

  /** Python's `s.split(sep)` for a non-empty separator: occurrences are
      consumed left to right without overlapping. */
  function Split(s: string, sep: string): (parts: seq<string>)
    requires |sep| > 0
    ensures |parts| >= 1
    decreases |s|
  {
    var i := IndexOf(s, sep);
    if i == -1 then [s] else [s[..i]] + Split(s[i + |sep|..], sep)
  }

  /** Python's `sep.join(parts)`. */
  function Join(parts: seq<string>, sep: string): string {
    if |parts| == 0 then ""
    else if |parts| == 1 then parts[0]
    else parts[0] + sep + Join(parts[1..], sep)
  }

  /** A string is the text before an occurrence, the separator, and the rest. */
  lemma AroundOccurrence(s: string, sep: string, i: int)
    requires OccursAt(s, sep, i)
    ensures s == s[..i] + sep + s[i + |sep|..]
  {
    assert s == s[..i] + s[i..i + |sep|] + s[i + |sep|..];
  }

  /** Splitting at a found separator gives the text before it, then the
      split of the rest. */
  lemma SplitFound(s: string, sep: string)
    requires |sep| > 0 && IndexOf(s, sep) != -1
    ensures var i := IndexOf(s, sep);
      Split(s, sep) == [s[..i]] + Split(s[i + |sep|..], sep)
  {
  }

  /** Joining a piece in front of at least one other puts a separator between. */
  lemma JoinCons(head: string, parts: seq<string>, sep: string)
    requires |parts| >= 1
    ensures Join([head] + parts, sep) == head + sep + Join(parts, sep)
  {
    assert ([head] + parts)[1..] == parts;
  }

  /** Joining the pieces of a split with the same separator restores the string. */
  lemma {:induction false} JoinSplit(s: string, sep: string)
    requires |sep| > 0
    ensures Join(Split(s, sep), sep) == s
    decreases |s|
  {
    var i := IndexOf(s, sep);
    if i != -1 {
      var rest := s[i + |sep|..];
      JoinSplit(rest, sep);
      SplitFound(s, sep);
      JoinCons(s[..i], Split(rest, sep), sep);
      AroundOccurrence(s, sep, i);
    }
  }

  /** Splitting on one character yields one more piece than there are
      occurrences of it, and no piece contains it. */
  lemma {:induction false} SplitCharCount(s: string, c: char)
    ensures |Split(s, [c])| == CountChar(s, c) + 1
    ensures forall p :: p in Split(s, [c]) ==> c !in p
    decreases |s|
  {
    var i := IndexOf(s, [c]);
    if i == -1 {
      assert forall j :: 0 <= j < |s| ==> !OccursAt(s, [c], j);
      assert forall j :: 0 <= j < |s| ==> s[j] != c by {
        forall j | 0 <= j < |s|
          ensures s[j] != c
        {
          assert !OccursAt(s, [c], j);
          assert s[j..j + 1] == [s[j]];
        }
      }
      CountCharAbsent(s, c);
    } else {
      var head := s[..i];
      var rest := s[i + 1..];
      assert forall j :: 0 <= j < i ==> s[j] != c by {
        forall j | 0 <= j < i
          ensures s[j] != c
        {
          assert !OccursAt(s, [c], j);
          assert s[j..j + 1] == [s[j]];
        }
      }
      assert c !in head;
      SplitCharCount(rest, c);
      assert s == head + [c] + rest;
      CountCharConcat(head + [c], rest, c);
      CountCharConcat(head, [c], c);
      CountCharAbsent(head, c);
      assert Split(s, [c]) == [head] + Split(rest, [c]);
    }
  }

  /** Python's `s.replace(old, new)` for single characters. */
  function ReplaceChar(s: string, from: char, to: char): (r: string)
    ensures |r| == |s|
    ensures forall i :: 0 <= i < |s| ==> r[i] == (if s[i] == from then to else s[i])
  {
    if |s| == 0 then [] else [if s[0] == from then to else s[0]] + ReplaceChar(s[1..], from, to)
  }
}

=== FILE: thumbnails.dfy ===
/** Where `ImageProcessor.generate_thumbnail`
    (`app/services/image_processing_service.py`) puts a thumbnail: under the
    thumbnail root, in the same shard as the original, named
    `<stem>_thumb<suffix>`. Decoding, scaling and encoding are not modelled;
    what they produce is an outcome parameter. */
module Thumbnails {
  import opened Wrappers
  import opened Text
  import opened Paths
  import opened Config
  import opened FileStorage

  /** The thumbnail's file name for a source path. */
  function ThumbnailFilename(source: Path): (name: string)
    ensures Suffix(Name(source)) == [] || EndsWith(name, Suffix(Name(source)))
    ensures StartsWith(name, Stem(Name(source)) + "_thumb")
  {
    var name := Stem(Name(source)) + "_thumb" + Suffix(Name(source));
    assert name[..|Stem(Name(source)) + "_thumb"|] == Stem(Name(source)) + "_thumb";
    assert name[|name| - |Suffix(Name(source))|..] == Suffix(Name(source));
    name
  }

  /** The destination: the thumbnail root joined with the source's parent
      relative to the image root. A source outside the image root has no
      destination (`relative_to` raises). */
  function ThumbnailDestination(roots: StorageRoots, source: Path): (r: Option<Path>)
    ensures r.Some? <==> IsPrefix(roots.images, source)
    ensures r.Some? ==>
      && IsPrefix(roots.thumbnails, r.value)
      && (|source| > |roots.images| ==> |r.value| == |roots.thumbnails| + |source| - |roots.images|)
      && Name(r.value) == ThumbnailFilename(source)
      && Parent(r.value) == roots.thumbnails + Parent(RelativeTo(source, roots.images).value)
  {
    match RelativeTo(source, roots.images)
    case None => None
    case Some(rel) =>
      var dest := roots.thumbnails + Parent(rel) + [ThumbnailFilename(source)];
      assert dest[..|roots.thumbnails|] == roots.thumbnails;
      assert Parent(dest) == roots.thumbnails + Parent(rel);
      Some(dest)
  }

  /** What the image library does with the source: it renders a thumbnail
      of some size, cannot read the source, or breaks off while saving. */
  datatype RenderOutcome = Rendered(size: nat) | Unreadable | SaveInterrupted(written: nat)

  /** `generate_thumbnail`: `None` stands for the raised exception. On
      success the returned path is the derived destination and the file is
      on disk; a failure to read the source writes nothing. */
  function GenerateThumbnail(disk: Disk, roots: StorageRoots, source: Path, outcome: RenderOutcome)
    : (r: (Option<Path>, Disk))
    ensures r.0.Some? <==> IsPrefix(roots.images, source) && outcome.Rendered?
    ensures r.0.Some? ==> r.0 == ThumbnailDestination(roots, source) && r.0.value in r.1 && r.1[r.0.value] == outcome.size
    ensures ThumbnailDestination(roots, source).Some? ==> SameExcept(disk, r.1, ThumbnailDestination(roots, source).value)
    ensures ThumbnailDestination(roots, source).None? || outcome.Unreadable? ==> r.1 == disk
  {
    match ThumbnailDestination(roots, source)
    case None => (None, disk)
    case Some(dest) =>
      match outcome
      case Rendered(n) => (Some(dest), disk[dest := n])
      case Unreadable => (None, disk)
      case SaveInterrupted(k) => (None, disk[dest := k])
  }

  /** `<hex>_thumb<ext>` splits into the stem `<hex>_thumb` and the
      suffix `ext`, and is one path component. */
  lemma ThumbNameSplits(hex: string, ext: string)
    requires IsHexId(hex) && IsExtension(ext) && '/' !in ext
    ensures Suffix(hex + "_thumb" + ext) == ext && Stem(hex + "_thumb" + ext) == hex + "_thumb"
    ensures IsComponent(hex + "_thumb" + ext)
  {
    var thumbStem := hex + "_thumb";
    HexIdNoDot(hex);
    assert '.' !in thumbStem by {
      assert forall c :: c in thumbStem ==> c in hex || c in "_thumb";
    }
    assert '/' !in thumbStem + ext by {
      assert forall c :: c in thumbStem + ext ==> c in hex || c in "_thumb" || c in ext;
    }
    SuffixOfJoined(thumbStem, ext);
    assert (thumbStem + ext)[0] == hex[0];
  }

  /** The shard read off a thumbnail name is the shard of its id. */
  lemma ThumbnailNameShard(hex: string, ext: string)
    requires IsHexId(hex) && IsExtension(ext) && '/' !in ext
    ensures RelativeSubDirectoryForFile(hex + "_thumb" + ext) == [hex[..2], hex[2..4]]
  {
    ThumbNameSplits(hex, ext);
    NameOfPlain(hex + "_thumb" + ext);
    var stem := Stem(NameOf(hex + "_thumb" + ext));
    assert stem[..2] == hex[..2] && stem[2..4] == hex[2..4];
    HexPairIsComponent(hex, 0);
    HexPairIsComponent(hex, 2);
  }

  /** For a freshly stored original, the thumbnail lands in the same shard
      under the thumbnail root, named after the id, and the shard recovered
      from the thumbnail's name is that shard again. */
  lemma ThumbnailSharesShard(filename: string, roots: StorageRoots, hex: string)
    requires IsHexId(hex)
    requires GenerateStructuredPath(filename, roots.images, hex).Success?
    ensures var a := GenerateStructuredPath(filename, roots.images, hex).value;
      var thumbName := hex + "_thumb" + Extension(filename);
      && ThumbnailDestination(roots, a.fullPath) == Some(roots.thumbnails + a.subDirectory + [thumbName])
      && RelativeSubDirectoryForFile(thumbName) == a.subDirectory
  {
    var a := GenerateStructuredPath(filename, roots.images, hex).value;
    StoredNameKeepsSuffix(filename, roots.images, hex);
    assert Name(a.fullPath) == a.storedFilename;
    assert ThumbnailFilename(a.fullPath) == hex + "_thumb" + Extension(filename);
    assert Parent(a.subDirectory + [a.storedFilename]) == a.subDirectory;
    ThumbnailNameShard(hex, Extension(filename));
  }
}

=== FILE: wrappers.dfy ===
/** Failure-compatible wrappers shared by every module of the model. */
module Wrappers {

  /** A value that may be absent (Python's `Optional`, TypeScript's `T | null`). */
  datatype Option<+T> = None | Some(value: T) {
    function GetOr(default: T): T {
      match this
      case Some(v) => v
      case None => default
    }
  }

  /** The outcome of an operation that can fail with an error value. */
  datatype Result<+R, +E> = Success(value: R) | Failure(error: E) {
    predicate IsFailure() {
      Failure?
    }

    function PropagateFailure<U>(): Result<U, E>
      requires Failure?
    {
      Failure(error)
    }

    function Extract(): R
      requires Success?
    {
      value
    }
  }

  /** A field of a partial-update payload: either left out of the request or
      explicitly given (Pydantic's `model_dump(exclude_unset=True)`). */
  datatype Field<+T> = Unset | SetTo(value: T) {
    function ApplyTo(current: T): T {
      match this
      case Unset => current
      case SetTo(v) => v
    }
  }
}
